=== FILE: README.md ===
# LLM-REFORMAT-SLOTH, modelled in Dafny

The repository has two applications, each wrapping ML and packaging tools.

- **The Gradio application (`app/`)** fine-tunes a model with LoRA, merges adapters, browses directories, picks model READMEs on the Hugging Face Hub and keeps a small settings file.
- **The packaging backend (`llm-factory-ollama/backend/`)** runs a dry-run pipeline as background jobs: train, resize, quantize, export, write a Modelfile, then publish to Ollama.

Underneath the glue sits a small amount of sequential logic, and that logic is what this project models and proves things about. The model covers:

- the two job lifecycles and their thread-wrapper bodies;
- the backend pipeline stages and the endpoint tasks that compose them;
- the small string and path builders the applications rely on.

Everything is functional. Jobs are immutable datatypes. Clocks, uuids, `int(time.time())`, `shutil.which`, filesystem queries and the outcome of every library call are parameters.

| file | module | models |
|---|---|---|
| wrappers.dfy | Wrappers | `Option`, `Result`, and `Outcome` (a callable returned, or raised a message, leaving a state) |
| pystr.dfy | PyStr, LogLine | `str.strip`/`lower`/`replace`/`join`/`split`, slices, `str()` of ints, bools and dicts; the `[ts] msg` log-line format |
| pypath.dfy | PyPath | `os.path.join`, `basename`, `splitext` |
| app_jobs.dfy | AppJobs | app/jobs.py |
| lib_steps.dfy | LibSteps | A job body as a script of log lines and library calls that may raise; a guarded call logs a note and re-raises; a tolerated call logs the failure and goes on |
| app_finetune.dfy | Finetune | app/finetune.py |
| app_merge.dfy | Merge | app/merge.py |
| app_config.dfy | ConfigStore | app/config_store.py |
| app_hf.dfy | HfClient | app/hf_client.py: README picker and download directory |
| app_fs.dfy | FsUtils | app/fs_utils.py |
| app_ui.dfy | Ui | app/ui.py: settings update, Modelfile text, job status, the `_task` wrappers |
| factory_jobs.dfy | FactoryJobs | llm-factory-ollama/backend/app/jobs.py |
| factory_config.dfy | FactoryConfig | llm-factory-ollama/backend/app/config.py |
| effects.dfy | Effects | Stage statements (log, progress, artifact, error, mkdir, write) as effect scripts, with their interpreter |
| stages.dfy | Stages | llm-factory-ollama/backend/app/pipeline/*.py |
| factory_api.dfy | FactoryApi | llm-factory-ollama/backend/app/main.py |

## Model

| member | source | states |
|---|---|---|
| AppJobs.LogAppendsOneLine | app/jobs.py:19-25 | One `log` call appends exactly `[ts] msg` as the newest line. The earlier lines are the most recent of the old ones. The log never exceeds 1000 lines. |
| AppJobs.AppendLinesKeepsMostRecent | app/jobs.py:22-25 | Logging several lines one at a time keeps exactly the most recent 1000 of old plus new, in their original order. |
| AppJobs.AppendLinesUntrimmed | app/jobs.py:24-25 | Below 1000 lines in all, nothing is dropped. |
| AppJobs.CreateJob | app/jobs.py:32-37 | The new job is queued, with an empty log and no times, and is stored under the id. `get_job` of the id yields it. No other entry changes. The registry invariant (`order` lists each key once) is kept. |
| AppJobs.ListJobs | app/jobs.py:45-56 | One summary per registered job, in insertion order, carrying that job's id, kind, status and times. |
| AppJobs.Started | app/jobs.py:61-62 | Before the target runs, the job is `running` and has its start time; nothing else about it changes. |
| AppJobs.Run | app/jobs.py:60-71 | A target that returns leaves the job `failed` iff it set `failed`, else `completed`. A target that raises leaves the job `failed` with an `Exception: <e>` line. The end time is always set, and the target's id, kind, params and start time are kept. |
| LibSteps.ExecMatchesTranscript | app/merge.py:17-59 | A job body raises iff one of its unguarded or guarded library calls fails, and then with the first such call's message. The job is the original with the logged lines appended and nothing else changed. |
| LibSteps.ExecTolerated | app/merge.py:50-53 | A tolerated failure between two bodies that complete: the body returns, having logged the first body's lines, then the failure, then the second body's lines. |
| LibSteps.ExecGuardedHead | app/merge.py:17-25 | A body that logs a line and then fails a guarded import raises that error, having logged exactly the line and the import's note. |
| Finetune.DefaultOutputDirShape | app/finetune.py:75 | A non-empty `output_dir` is used as given. Otherwise the directory is the entry of `outputs_dir` named `lora_` plus the model id with `/` replaced by `__`. |
| Finetune.LoaderDispatch | app/finetune.py:45-57 | Missing path: the Hub loader. Existing directory: the `text` loader with `data_dir`. File with lower-cased extension `.json`/`.jsonl`: the `json` loader. Any other file: the `text` loader. Each choice holds iff its condition holds, and every loader gets the dataset string unchanged. |
| Finetune.UpperCaseJsonl | app/finetune.py:51-53 | `d/t.JSONL` still goes to the `json` loader. |
| Finetune.DotfileIsText | app/finetune.py:51-54 | A file named just `.json` has no extension to `splitext`, so it goes to the `text` loader. |
| Finetune.FormatExample | app/finetune.py:103-108 | `format_example` returns a dict with the single key `text`, which `Dataset.map` merges into the row. A missing field gives `"None"`, a scalar gives its `str()`, and a list gives its elements' `str()` joined by newlines. |
| Finetune.ListFieldRoundTrip | app/finetune.py:106-107 | Splitting a list field's text on newlines gives back each element's `str()`, when no element holds a newline. |
| Finetune.EmptyListIsEmptyText | app/finetune.py:106-108 | An empty list gives the empty text. |
| Finetune.ImportFailureReraises | app/finetune.py:62-71 | When the training libraries cannot be imported, the job logs the start line and the installation hint, and raises the same error. |
| Finetune.SuccessEndsWithArtifacts | app/finetune.py:73-148 | When no library call fails, the body returns and its last line is `Artifacts saved to: <output dir>`. |
| Merge.DefaultOutDirShape | app/merge.py:27 | A non-empty `output_dir` is used as given. Otherwise the directory is the entry of `outputs_dir` named `merged_` plus the flattened model id. |
| Merge.DtypeLookup | app/merge.py:31-36 | A dtype is selected iff the name is `float16` or `bfloat16`, each selecting its own. `auto`, and every other string including other casings, select none. |
| Merge.ImportFailureReraises | app/merge.py:18-25 | When `torch`/`transformers`/`peft` cannot be imported, the job logs the start line and the hint, and raises the same error. |
| Merge.MergeFailureTolerated | app/merge.py:49-59 | When only `merge_and_unload` fails, the job still returns. It logs the failure after `Merging and unloading adapters`, then the save lines, and ends with `Merged model saved to: <dir>`. |
| ConfigStore.Defaults | app/config_store.py:9-12 | The defaults: no token, and Ollama at `http://localhost:11434`. |
| ConfigStore.LoadConfig | app/config_store.py:15-25 | The default keys are always present. A file holding a JSON object overrides the defaults key by key and adds its other keys. A missing, unreadable or non-object file yields exactly the defaults. |
| ConfigStore.SaveConfig | app/config_store.py:28-36 | The result is the loaded settings with every non-None update entry applied, and every other key kept. A successful write stores exactly the result. A failed open leaves the file as it was. A failure after the truncating open leaves a file that no longer parses. |
| ConfigStore.WriteFailureSwallowed | app/config_store.py:31-36 | The returned settings are the same however the write went. After a failed open the next load is unchanged. After a failure past the truncating open the next load gives only the defaults, so the saved token is lost. |
| ConfigStore.SavedKeepsDefaults | app/config_store.py:28-30 | Saved settings always hold both default keys. |
| ConfigStore.NullEntryIgnored | app/config_store.py:30 | Adding or removing a None-valued update entry gives the same saved settings. |
| ConfigStore.SaveThenLoad | app/config_store.py:15-36 | After a successful save, loading gives back exactly the saved settings. |
| ConfigStore.SaveIdempotent | app/config_store.py:28-36 | Saving the same update twice gives the same settings and file as saving it once. |
| HfClient.FirstReadmeIsFirstMatch | app/hf_client.py:95-104 | The picker returns the first sibling whose lower-cased name is `readme.md`, `readme` or `readme.rst`, spelled as listed, with no earlier sibling matching. It picks a sibling iff one matches; otherwise the caller falls back to `README.md`. |
| HfClient.ReadmePathChoice | app/hf_client.py:97-104 | The result is a listed README name or the default. It is the default exactly when nothing matches or the first match is itself spelled `README.md`. |
| HfClient.NamelessNeverMatches | app/hf_client.py:97-98 | Missing or None `siblings` and a sibling without `rfilename` never match. |
| HfClient.ReadmeKeepsCase | app/hf_client.py:98-100 | `README.MD` listed after `config.json` is returned as `README.MD`. |
| HfClient.DownloadDirShape | app/hf_client.py:81 | A non-empty `local_dir` is used as given. Otherwise the directory sits in `models` under the cache and is named after the flattened repo id. |
| HfClient.DownloadDirsCollide | app/hf_client.py:81 | The flattening is not injective: `a/b` and `a__b` share a download directory. |
| FsUtils.SortSorts | app/fs_utils.py:11-12 | Sorting a name list gives a sorted permutation of it. |
| FsUtils.DirsThenFilesShape | app/fs_utils.py:13-24 | Within one walked directory, every `dir` row precedes every `file` row. Each row carries its name's relative path, in the given order. |
| FsUtils.AddRows | app/fs_utils.py:13-18 | The inner loop adds one row per name, in order, until the count reaches `max_items`. It reports `full` exactly then, and otherwise has added every name. |
| FsUtils.AddEntry | app/fs_utils.py:13-24 | One walk step adds the directory rows, then the file rows, cut at `max_items`. |
| FsUtils.ListDirTree | app/fs_utils.py:6-25 | The rows returned are exactly the first `max(max_items, 1)` rows of the uncut listing (all of them when fewer). The uncut listing is each walked directory's sorted dirs, then its sorted files. |
| FsUtils.AllRowsLength | app/fs_utils.py:10-25 | The uncut listing has one row per name the walk reports. |
| FsUtils.ListedBound | app/fs_utils.py:13-25 | For `max_items >= 1`, at most `max_items` rows are returned: exactly that many when the walk reports at least that many names, and every row otherwise. |
| FsUtils.NonPositiveMaxListsOne | app/fs_utils.py:16-18 | A `max_items` of 0 or less still returns the first row, since the count is compared only after a row is added. |
| Ui.SaveSettings | app/ui.py:183-194 | The update applied holds `HUGGINGFACE_TOKEN` iff the token is cleared (then None) or a non-blank token is given (then stripped). It holds `OLLAMA_URL` iff a non-blank URL is given (then stripped), and no other key. An empty update returns `Nothing to update` and applies nothing. Otherwise the reply is `Saved settings. Restart not required.` |
| Ui.ClearTokenWins | app/ui.py:185-188 | With `clear_token`, any token supplied alongside is ignored. |
| Ui.SettingsValuesClean | app/ui.py:187-190 | Every string the update carries is stripped and non-empty. Saving those values again gives the same update. |
| Ui.CreateOllamaModelRequest | app/ui.py:158-166 | No request without a model name. Otherwise: the name as given; the form's URL unless empty, else the configured one; a Modelfile opening with `FROM <base>` and a newline, where the base is never blank; a `TEMPLATE` line iff the template is not blank; the whole text reads back as exactly those lines. |
| Ui.BaseNeverBlank | app/ui.py:161-162 | The `FROM` model is never blank and already stripped. It is the stripped base when one is given, else `llama3`. |
| Ui.ModelfileLines | app/ui.py:161-164 | Read back line by line, the Modelfile is `FROM <base>`, then `TEMPLATE "<stripped>"` iff the template is non-blank, then the empty remainder after the final newline. |
| Ui.JobStatus | app/ui.py:146-150 | An unknown id gives `("not-found", "")`. Otherwise the first component is the job's status, and a job with no log lines yet shows the empty text. |
| Ui.JobStatusShowsTail | app/ui.py:150 | A job with no log lines yet shows the empty text. Otherwise, split on newlines, the shown text is exactly the most recent 500 log lines (all when fewer), in order, when no line holds a newline. |
| Ui.CatchFailures | app/ui.py:135-140 | The `_task` wrapper never lets an `Exception` out. |
| Ui.CaughtRun | app/ui.py:88-93 | Under `run_in_thread`, a wrapped body that raised leaves the job `failed`, with `Failed: <e>` as its newest line and no `Exception:` line. One that returned leaves the job `completed`. |
| Ui.CaughtScript | app/ui.py:135-140 | A fresh job whose wrapped body is a script ends `failed` iff one of its calls raised, with `Failed: <e>` after the logged lines. Otherwise it ends `completed`. |
| Ui.StartJob | app/ui.py:133-143 | The id is returned. The job under it is the created job after the wrapper ran. No other job changes, and the registry invariant is kept. |
| Ui.ScriptJobOutcome | app/ui.py:133-143 | The job left in the registry ends `failed` iff the script's first failing call is reached, else `completed`. Its log is the script's lines plus `Failed: <e>` when it failed. |
| Ui.BlankOutDirUsesDefault | app/ui.py:121 | A blank output-directory field becomes None, so the default `lora_` directory is used. |
| Ui.RaisedScriptFails | app/ui.py:86-93 | A job whose script logs some lines and then raises ends `failed`, with exactly those lines and then `Failed: <e>`. |
| Ui.FinetuneImportFailureMarksFailed | app/ui.py:114-143 | A fine-tune whose imports fail ends `failed`, with exactly the start line, the hint and `Failed: <e>`. |
| Ui.GuardedScriptFails | app/ui.py:86-93 | A job whose script opens with a log line and a failing guarded import ends `failed`, with exactly that line, the import's note and `Failed: <e>`. |
| Ui.MergeImportFailureMarksFailed | app/ui.py:79-96 | A merge whose imports fail ends `failed`, with exactly the start line, the hint and `Failed: <e>`. |
| FactoryJobs.LogAppendsOneLine | llm-factory-ollama/backend/app/jobs.py:21-23 | `log` appends exactly one stamped line and keeps every earlier line (no cap). Nothing else about the job changes. |
| FactoryJobs.Runner | llm-factory-ollama/backend/app/jobs.py:38-49 | A returning target leaves the job `done`. A raising target leaves it `error`, with `error = str(e)` and one `Error: <e>` line. `finished_at` is set either way, and the status is always `done` or `error`. |
| FactoryJobs.ReturnedErrorStaysDone | llm-factory-ollama/backend/app/jobs.py:42-43 | A target that sets `error` and returns still leaves the job `done`, with the error text kept. |
| FactoryJobs.Create | llm-factory-ollama/backend/app/jobs.py:34-56 | `create` returns the new job's id, and `get` of it yields the job the runner finished, which started pristine (queued, progress 0, no logs, error, artifacts or times). Other ids are untouched. |
| FactoryConfig.SourceRoundTrip | llm-factory-ollama/backend/app/config.py:5 | `base_model_source` parses exactly its four names, each back to its value. |
| FactoryConfig.GpuRoundTrip | llm-factory-ollama/backend/app/config.py:7 | `target_gpu` parses exactly `nvidia`, `amd`, `cpu`. |
| FactoryConfig.MethodRoundTrip | llm-factory-ollama/backend/app/config.py:8 | `fine_tune_method` parses exactly `lora`, `full_finetune`, `rlhf`, `dpo`. |
| FactoryConfig.QuantRoundTrip | llm-factory-ollama/backend/app/config.py:11 | `quantization_target` parses exactly `none`, `int8`, `int4`, `fp8`. |
| FactoryConfig.FormatRoundTrip | llm-factory-ollama/backend/app/config.py:13 | `export_format` parses exactly `gguf`, `safetensors`. |
| FactoryConfig.DockerRoundTrip | llm-factory-ollama/backend/app/config.py:16 | `docker_mode` parses exactly its three names. |
| FactoryConfig.EmptyBodyDefaults | llm-factory-ollama/backend/app/config.py:4-17 | `{}` validates to the declared defaults: `huggingface`, `Qwen/Qwen2.5-0.5B`, `cpu`, `lora`, `int8`, `gguf`, the all-in-one container, dry run, optional fields None. |
| FactoryConfig.FineTuneRoundTrip | llm-factory-ollama/backend/app/config.py:4-17 | A dumped request validates back to itself. |
| FactoryConfig.FineTuneRejects | llm-factory-ollama/backend/app/config.py:5-16 | For a body whose JSON types are right, validation fails iff some `Literal` field is given a string outside its list, and then it names that field. |
| FactoryConfig.ValidatedNamesNonEmpty | llm-factory-ollama/backend/app/main.py:31-32 | A validated request always has a non-empty source and GPU name, so the 400 check never fires. |
| FactoryConfig.ExportDefaults | llm-factory-ollama/backend/app/config.py:19-21 | `export_format` defaults to `gguf`. A well-typed body without `model_id` never validates. |
| FactoryConfig.PublishDefaults | llm-factory-ollama/backend/app/config.py:23-26 | `auto_serve` defaults to true. A well-typed body missing `model_id` or `ollama_name` never validates. |
| Effects.ApplyLogs | llm-factory-ollama/backend/app/jobs.py:21-23 | Running a stage script grows the log by exactly the script's messages, stamped in order. |
| Effects.ApplyProgress | llm-factory-ollama/backend/app/pipeline/finetune_lora.py:19-30 | Progress ends at the last value the script assigns, or stays where it was. |
| Effects.ApplyArtifacts | llm-factory-ollama/backend/app/pipeline/finetune_lora.py:27-28 | Each artifact ends with the script's last value for it. Untouched keys keep their value or absence. |
| Effects.ApplyKeepsIdentity | llm-factory-ollama/backend/app/jobs.py:8-19 | A stage never changes a job's id, kind, payload, status or timestamps. |
| Stages.StepEffectsProjections | llm-factory-ollama/backend/app/pipeline/finetune_lora.py:19-22 | The step loop logs exactly the step names in order, setting step i's progress before step i's line. It touches no artifact, error or file. |
| Stages.StepProgressMonotone | llm-factory-ollama/backend/app/pipeline/finetune_lora.py:21 | `int(i/n*60)` never decreases in i and never exceeds 60. |
| Stages.TrainMessages | llm-factory-ollama/backend/app/pipeline/finetune_lora.py:11-29 | A trainer logs its start line, then one line per step in order, then `Artifacts at models/<id>`, and nothing else. |
| Stages.TrainProgress | llm-factory-ollama/backend/app/pipeline/finetune_lora.py:19-30 | A trainer's progress history never decreases, never exceeds 60 and ends at exactly 60. |
| Stages.FiveStepValues | llm-factory-ollama/backend/app/pipeline/finetune_lora.py:12-21 | With five steps the values are 12, 24, 36, 48, 60. |
| Stages.TrainArtifacts | llm-factory-ollama/backend/app/pipeline/finetune_lora.py:25-31 | A trainer sets exactly its output-file artifact and `model_id`, which equals the returned id. It sets no error. |
| Stages.TrainedIdShape | llm-factory-ollama/backend/app/pipeline/finetune_lora.py:8 | The id is the trainer's prefix followed by the decimal digits of `int(time.time())`. |
| Stages.FiveStepSchedule | llm-factory-ollama/backend/app/pipeline/rlhf.py:10-27 | LoRA, RLHF and DPO each have five steps, so the history is 12, 24, 36, 48, 60, 60. The id prefixes are `model-`, `rlhf-` and `dpo-`. The artifact keys are `adapter`, `policy` and `policy`, none of them `model_id`. |
| Stages.ResizeEffects | llm-factory-ollama/backend/app/pipeline/resizer.py:5-14 | Falsy settings emit no effect at all and return None. Otherwise: exactly one `Resizer: <settings>` line, progress 70, `model_dir/resize.txt` written and returned, and no artifact or error. |
| Stages.QuantizeEffects | llm-factory-ollama/backend/app/pipeline/quantization.py:5-13 | For every scheme, `none` included: exactly `Quantization: <scheme>` is logged, progress is 75, `model_dir/quant_<scheme>.txt` is written and returned, and no artifact or error is set. |
| Stages.ExportEffects | llm-factory-ollama/backend/app/pipeline/exporter.py:6-18 | Exactly `Export: format=<fmt>` is logged, progress is 90, and artifact `export` (and no other) holds the returned path, which is written inside `models/<id>`. |
| Stages.ExportFormatChoice | llm-factory-ollama/backend/app/pipeline/exporter.py:10-13 | `gguf` gives `<id>.gguf`. Any other format gives `<id>.safetensors`. Only `gguf` gives `.gguf`. |
| Stages.ModelfileEffects | llm-factory-ollama/backend/app/pipeline/modelfile.py:5-21 | Writes `model_dir/Modelfile` and no other file, creates no directory, and returns that path. It logs, assigns and records nothing. |
| Stages.ModelfileText | llm-factory-ollama/backend/app/pipeline/modelfile.py:7-20 | The text is the body with exactly one trailing newline. The first line is `FROM <basename(model_path)>`. The fixed temperature, template and licence lines follow. The last line renders the params, `{}` for None. |
| FactoryApi.LaunchStores | llm-factory-ollama/backend/app/jobs.py:34-53 | A launched job is stored under its id and no other job changes. The filesystem gains exactly the script's directories and writes. |
| FactoryApi.RanJobState | llm-factory-ollama/backend/app/jobs.py:38-49 | The finished job is `done`, with its times. Its log, progress, artifacts and error are exactly what the script's history says. |
| FactoryApi.DispatchRunsTrainer | llm-factory-ollama/backend/app/main.py:37-48 | `lora`, `rlhf` and `dpo` run their own trainer. Any other name logs a fallback note and runs LoRA. The dispatch returns that trainer's id. |
| FactoryApi.FallbackOnlyForFull | llm-factory-ollama/backend/app/main.py:43-48 | For a validated method, the fallback note is logged only for `full_finetune`. The unknown-method branch is never reached. |
| FactoryApi.FineTuneScheduleMonotone | llm-factory-ollama/backend/app/main.py:36-53 | The fine-tune progress schedule never decreases and ends at 80. |
| FactoryApi.TransformsHistory | llm-factory-ollama/backend/app/main.py:50-51 | The transforms assign 70 (only when the resizer runs) and then 75. They log `Quantization: <target>` last and set no artifact or error. |
| FactoryApi.FineTuneHistory | llm-factory-ollama/backend/app/main.py:34-53 | Progress is the trainer's five steps, 60, [70], 75, 80. It records `model_id` and no error, and logs `Job started: fine-tune` first and `Fine-tune complete` last. |
| FactoryApi.FineTuneOutcome | llm-factory-ollama/backend/app/main.py:29-56 | A validated request is always accepted. Its job ends `done` at 80, with a `model_id` artifact and no error. |
| FactoryApi.FineTuneModelPrefix | llm-factory-ollama/backend/app/main.py:37-48 | The id prefix is `rlhf-` for RLHF, `dpo-` for DPO, and `model-` for LoRA and the full-fine-tune fallback. |
| FactoryApi.StatusView20 | llm-factory-ollama/backend/app/main.py:59-72 | The reply is 404 iff the id is unknown. Otherwise it reports the stored job (id, kind, status, progress, artifacts, error) with its most recent log lines, at most 20, in order. |
| FactoryApi.ExportScriptHistory | llm-factory-ollama/backend/app/main.py:81-86 | Progress goes 90 then 100. `export` holds the exported file and `modelfile` holds `models/<id>/Modelfile`. No error; the export line and `Export complete` are logged. |
| FactoryApi.ExportOutcome | llm-factory-ollama/backend/app/main.py:75-89 | Every export is accepted, and its job ends `done` at 100 with both artifacts and both files present. |
| FactoryApi.CreateSucceeds | llm-factory-ollama/backend/app/main.py:103-107 | A successful `ollama create` records the name and the serve URL and logs success. |
| FactoryApi.CreateFails | llm-factory-ollama/backend/app/main.py:108-110 | A failed `ollama create` logs the failure, sets `error` to its text and records no artifact. |
| FactoryApi.PublishScriptHistory | llm-factory-ollama/backend/app/main.py:99-112 | The publish job always reaches progress 100, whether `ollama create` succeeded or failed. |
| FactoryApi.PublishOutcome | llm-factory-ollama/backend/app/main.py:92-115 | 400 iff the Modelfile is missing. An accepted publish ends `done` at 100, with `error` holding the create failure, if any. |
| FactoryApi.PublishAfterExport | llm-factory-ollama/backend/app/main.py:94-97 | After an export of a model, publishing it is accepted. |
| FactoryApi.SummaryPrefersGguf | llm-factory-ollama/backend/app/main.py:134-141 | `success` iff a `.gguf` or `.safetensors` export exists. The `.gguf` one is reported when both exist. |
| FactoryApi.SummaryAfterExport | llm-factory-ollama/backend/app/main.py:131-143 | After an export the summary is a success. After a GGUF export it names exactly that file. |
| FactoryApi.FineTuneThenExport | llm-factory-ollama/backend/tests/test_smoke.py:15-25 | Any fine-tune ends `done` with a non-empty `model_id`, and a GGUF export of that id is then accepted. This is the state after the job's thread has finished; the test as written cannot observe it, because the static mount at `/` (llm-factory-ollama/backend/app/main.py:26) precedes the `/api` routes and its 30 polls do not wait for a job that sleeps at least 3 s. |
| FactoryApi.DryRunPipeline | llm-factory-ollama/backend/tests/test_smoke.py:9-25 | The smoke body validates to a dry-run Hugging Face/CPU request, and the fine-tune-then-export pipeline goes through for it. As for `FineTuneThenExport`, this is the state after the thread has finished, which the test as written cannot observe (static mount first, polls without a pause). |
| FactoryApi.SmokeParses | llm-factory-ollama/backend/tests/test_smoke.py:10 | The smoke body validates, and the fields it gives are taken as given. |

## Left out
- FactoryConfig.FineTuneRejects / FactoryConfig.ParseFineTune: request bodies are modelled well-typed. pydantic's type errors (a `null` or a number for a `Literal` field, `"dry_run": "maybe"`, a list where a dict is expected) and its lax coercions are not modelled; the same holds for `FactoryConfig.ExportDefaults` and `FactoryConfig.PublishDefaults` with a `null` `model_id`.
- Ui.CatchFailures: `Outcome` models only `Exception`s. `BaseException` subclasses such as `KeyboardInterrupt` and `SystemExit`, which `except Exception` lets through, are not modelled.

Running code:
- Threads, daemon flags and `_LOCK`: the wrapper bodies (`_wrap`, `runner`) are modelled as pure transitions, and a finished job is the state the thread leaves.
- The `logs/<id>.log` append in the backend's `Job.log`: only the in-memory log is modelled.
- `time.sleep` is not modelled.

Time, ids and external tools (all parameters or absent):
- Timestamps, `uuid4()` and `int(time.time())` are parameters.
- `str.strip` whitespace follows Python's `isspace`.
- `str.lower` is modelled on ASCII only, which is exact for the names compared here.
- Hugging Face search, download and README fetch, `app/ollama_client.py`, the `ollama create` subprocess, `gpu.py`, `device.py` and `infer.py` are not modelled. The outcome of `ollama create` and `shutil.which` are parameters.

Library calls and configuration:
- Torch, transformers, peft, unsloth, trl and datasets are not modelled. Each call appears only as a named step that may raise (the `fails` parameter); what it computes is not modelled.
- Hyperparameters and floats in `FinetuneConfig` are not modelled, and the job parameters are kept abstract.
- `apply_config` is imported by `app/ui.py` but not defined in the settings module, so `Ui.SaveSettings` returns the update it would hand over.
- The reply of `ollama_create_model` (or its exception text) in `_create_ollama_model` is not modelled. `Ui.CreateOllamaModel` returns the request it would send.
- `repr`-style escaping of dicts holding quotes or backslashes, and JSON key order, are not modelled. `str()` of a dict is modelled for plain string entries.
- File write failures in the stages are not modelled (they would raise out of the job).
- `os.walk` is an abstract walk sequence. `list_dir_tree`'s in-place sort of `dirs` also steers that walk, and that steering is part of the given sequence.

Reached in no run, or unmodelled UI:
- `do_export`'s 404 branch is dead, because `ensure_model_dir` creates the directory first; `FactoryApi.DoExport` never returns it.
- The Gradio layout, `app/main.py`, the frontend, FastAPI routing, `download_artifact` and `metrics_gpu` are not modelled.
- The other UI callbacks (`_infer`, `_list_jobs`, `_get_settings`, searches) are not modelled.
- `build_summary`'s constant fields (the Ollama block, the git fields, the changelog) are not modelled.

Weaker contracts:
- Ui.JobStatus: for a job with log lines, the contract names only the status component. That log text is characterised by `Ui.JobStatusShowsTail` under the premise that no log line holds a newline, since a line that does would split into several.
- Ui.ScriptJobOutcome: it is stated for any script. The fine-tune and merge instances are proved for the import-failure case only (`Ui.FinetuneImportFailureMarksFailed`, `Ui.MergeImportFailureMarksFailed`), because instantiating the general statement for a concrete script is too costly for the solver.

=== FILE: app_config.dfy ===
/** The settings file of the Gradio application (app/config_store.py):
    `load_config` lays the contents of `config.json` over two defaults, and
    `save_config` merges an update into the loaded settings, dropping the
    entries whose value is `None`, and writes the result back.

    The file is a parameter: whether it exists, could be read and what JSON
    it held. A JSON value is kept abstract except for `null` and strings,
    the only values the application itself stores. */
module ConfigStore {

  /** A JSON value as `json.load` returns it: `None`, a string, or anything
      else (a number, a boolean, a list, an object), kept as its serialized
      text. */
  datatype Value = Null | Text(s: string) | OtherJson(json: string)

  type Config = map<string, Value>

  /** The top level of the parsed file: an object or some other JSON value. */
  datatype Document = Object(fields: Config) | NotAnObject

  /** `config.json` as `load_config` finds it: absent, present but failing to
      open or parse (every such error is caught), or parsed. */
  datatype ConfigFile = Absent | Unreadable | Holds(doc: Document)

  const TokenKey: string := "HUGGINGFACE_TOKEN"
  const UrlKey: string := "OLLAMA_URL"
  const DefaultUrl: string := "http://localhost:11434"

  /** `_DEFAULTS`: no token, the local Ollama endpoint. */
  function Defaults(): (r: Config)
    ensures r.Keys == {TokenKey, UrlKey}
    ensures r[TokenKey] == Null && r[UrlKey] == Text(DefaultUrl)
  {
    map[TokenKey := Null, UrlKey := Text(DefaultUrl)]
  }

  /** `load_config()`: the defaults, overridden by the file's entries when the
      file parses to an object. */
  function LoadConfig(file: ConfigFile): (r: Config)
    ensures Defaults().Keys <= r.Keys
    ensures file.Holds? && file.doc.Object? ==>
      && r.Keys == Defaults().Keys + file.doc.fields.Keys
      && (forall k :: k in file.doc.fields ==> r[k] == file.doc.fields[k])
      && (forall k :: k in Defaults() && k !in file.doc.fields ==> r[k] == Defaults()[k])
    ensures !(file.Holds? && file.doc.Object?) ==> r == Defaults()
  {
    match file
    case Holds(Object(fields)) => Defaults() + fields
    case _ => Defaults()
  }

  /** The entries of `update` whose value is not `None`. */
  function NonNull(update: Config): (r: Config)
  {
    map k | k in update && update[k] != Null :: update[k]
  }

  /** What `save_config(update)` leaves behind: the merged settings it
      returns and the file afterwards. */
  datatype Saved = Saved(config: Config, file: ConfigFile)

  /** How the write-back of `save_config` went. `open(CONFIG_PATH, "w")`
      truncates the file before `json.dump` writes anything, so a failure
      after the open leaves an empty or cut-off object, which no longer
      parses; a failure of the open itself leaves the file alone. */
  datatype Write = Written | OpenFailed | WriteFailed

  /** `save_config(update)`: every exception of the write-back is swallowed. */
  function SaveConfig(file: ConfigFile, update: Config, w: Write): (r: Saved)
    ensures var loaded := LoadConfig(file);
      && r.config.Keys == loaded.Keys + (set k | k in update && update[k] != Null)
      && (forall k :: k in update && update[k] != Null ==> r.config[k] == update[k])
      && (forall k :: k in loaded && (k !in update || update[k] == Null) ==> r.config[k] == loaded[k])
    ensures w.Written? ==> r.file.Holds? && r.file.doc == Object(r.config)
    ensures w.OpenFailed? ==> r.file == file
    ensures w.WriteFailed? ==> r.file.Unreadable?
  {
    var cfg := LoadConfig(file) + NonNull(update);
    match w
    case Written => Saved(cfg, Holds(Object(cfg)))
    case OpenFailed => Saved(cfg, file)
    case WriteFailed => Saved(cfg, Unreadable)
  }

  /** The returned settings never depend on how the write went. When the
      open fails the file is untouched; when the write fails after the open,
      the next load sees only the defaults, so every saved setting, the
      Hugging Face token included, is lost. */
  lemma WriteFailureSwallowed(file: ConfigFile, update: Config, w: Write)
    ensures SaveConfig(file, update, w).config == SaveConfig(file, update, Written).config
    ensures w.OpenFailed? ==> LoadConfig(SaveConfig(file, update, w).file) == LoadConfig(file)
    ensures w.WriteFailed? ==> LoadConfig(SaveConfig(file, update, w).file) == Defaults()
    ensures w.WriteFailed? ==> LoadConfig(SaveConfig(file, update, w).file)[TokenKey] == Null
  {
  }

  /** The settings always hold both default keys, whatever was saved. */
  lemma SavedKeepsDefaults(file: ConfigFile, update: Config, w: Write)
    ensures Defaults().Keys <= SaveConfig(file, update, w).config.Keys
  {
  }

  /** An update entry whose value is `None` changes nothing: adding or
      removing it gives the same saved settings. */
  lemma NullEntryIgnored(file: ConfigFile, update: Config, k: string, w: Write)
    ensures SaveConfig(file, update[k := Null], w) == SaveConfig(file, update - {k}, w)
  {
    assert NonNull(update[k := Null]) == NonNull(update - {k});
  }

  /** After a successful save, loading the file gives back exactly the saved
      settings. */
  lemma SaveThenLoad(file: ConfigFile, update: Config)
    ensures var s := SaveConfig(file, update, Written);
      LoadConfig(s.file) == s.config
  {
    var s := SaveConfig(file, update, Written);
    assert Defaults() + s.config == s.config;
  }

  /** Saving the same update twice is the same as saving it once. */
  lemma SaveIdempotent(file: ConfigFile, update: Config)
    ensures var s := SaveConfig(file, update, Written);
      SaveConfig(s.file, update, Written) == s
  {
    var s := SaveConfig(file, update, Written);
    SaveThenLoad(file, update);
    assert s.config + NonNull(update) == s.config;
  }
}

=== FILE: app_finetune.dfy ===
/** The statable parts of the LoRA fine-tune job of the Gradio application
    (app/finetune.py): the choice of dataset loader, the row formatter
    handed to `Dataset.map`, the default output directory, and the sequence
    of log lines and library calls of `run_finetune`, including the import
    guard that logs a hint and re-raises. What the libraries compute is not
    modelled; whether a path exists or is a directory is a parameter. */
module Finetune {
  import opened Wrappers
  import PyStr
  import PyPath
  import AppJobs
  import LibSteps

  /** The fields of `FinetuneConfig` the job's control flow looks at; the
      numeric hyperparameters only travel into library calls. */
  datatype FinetuneConfig = FinetuneConfig(
    baseModelId: string,
    dataset: string,
    textField: string,
    outputDir: Option<string>)

  /** `cfg.output_dir or os.path.join(settings.outputs_dir, "lora_" + ...)`:
      an empty string counts as not given. */
  function OutputDir(cfg: FinetuneConfig, outputsDir: string): string {
    PyPath.OrJoin(cfg.outputDir.GetOr(""), outputsDir, "lora_" + PyStr.FlattenRepoId(cfg.baseModelId))
  }

  /** A non-empty `output_dir` is used as given; the default is a single
      entry of the outputs directory, named `lora_` followed by the flattened
      model id. */
  lemma DefaultOutputDirShape(cfg: FinetuneConfig, outputsDir: string)
    ensures cfg.outputDir.Some? && cfg.outputDir.value != [] ==> OutputDir(cfg, outputsDir) == cfg.outputDir.value
    ensures cfg.outputDir.None? || cfg.outputDir.value == [] ==>
      PyPath.Basename(OutputDir(cfg, outputsDir)) == "lora_" + PyStr.FlattenRepoId(cfg.baseModelId)
  {
    var name := "lora_" + PyStr.FlattenRepoId(cfg.baseModelId);
    assert '/' !in name by {
      assert forall i :: 0 <= i < 5 ==> name[i] == "lora_"[i];
      assert forall i :: 5 <= i < |name| ==> name[i] == PyStr.FlattenRepoId(cfg.baseModelId)[i - 5];
    }
    PyPath.BasenameOfJoin(outputsDir, name);
  }

  /** What `os.path.exists` / `os.path.isdir` say about the dataset path. */
  datatype PathKind = Missing | Directory | RegularFile

  /** The `load_dataset` call `_load_dataset` makes. */
  datatype LoadCall =
    | TextDir(dataDir: string)
    | JsonFiles(dataFiles: string)
    | TextFiles(dataFiles: string)
    | HubDataset(name: string)

  /** A file whose lower-cased extension is `.json` or `.jsonl`. */
  predicate IsJsonFile(path: string) {
    PyStr.Lower(PyPath.Ext(path)) in {".json", ".jsonl"}
  }

  /** The dispatch of `_load_dataset`. */
  function LoaderFor(dataset: string, kind: PathKind): LoadCall {
    match kind
    case Directory => TextDir(dataset)
    case RegularFile => if IsJsonFile(dataset) then JsonFiles(dataset) else TextFiles(dataset)
    case Missing => HubDataset(dataset)
  }

  /** Every loader receives the configured dataset string unchanged, and
      each loader is chosen for exactly one kind of path. */
  lemma LoaderDispatch(dataset: string, kind: PathKind)
    ensures var c := LoaderFor(dataset, kind);
      && (c.TextDir? <==> kind == Directory)
      && (c.JsonFiles? <==> kind == RegularFile && IsJsonFile(dataset))
      && (c.TextFiles? <==> kind == RegularFile && !IsJsonFile(dataset))
      && (c.HubDataset? <==> kind == Missing)
      && match c
         case TextDir(d) => d == dataset
         case JsonFiles(f) => f == dataset
         case TextFiles(f) => f == dataset
         case HubDataset(n) => n == dataset
  {
  }

  /** Upper-case extensions still select the JSON loader. */
  lemma UpperCaseJsonl()
    ensures LoaderFor("d/t.JSONL", RegularFile) == JsonFiles("d/t.JSONL")
  {
    var p := "d/t.JSONL";
    PyPath.BasenameAfterSlash("d/", "t.JSONL");
    assert p == "d/" + "t.JSONL";
    assert "t.JSONL" == "t." + "JSONL";
    PyPath.LastIndexOfPast("t.", "JSONL", '.');
    assert PyPath.LastIndexOf("t.", '.') == 1;
    assert "t.JSONL"[0] != '.';
    assert PyPath.Ext(p) == ".JSONL";
    assert PyStr.Lower(".JSONL") == ".jsonl";
  }

  /** A file named just `.json` has no extension to `os.path.splitext`, so it
      is read with the text loader. */
  lemma DotfileIsText()
    ensures LoaderFor(".json", RegularFile) == TextFiles(".json")
  {
    PyPath.BasenameAfterSlash("", ".json");
    assert "" + ".json" == ".json";
    assert ".json" == "." + "json";
    PyPath.LastIndexOfPast(".", "json", '.');
    assert PyPath.LastIndexOf(".", '.') == 0;
    assert PyPath.Ext(".json") == "";
  }

  /** The line `_load_dataset` logs before loading. */
  function LoadNote(dataset: string, kind: PathKind): string {
    if kind == Missing then "Loading HF dataset: " + dataset
    else "Loading local dataset from: " + dataset
  }

  /** `_load_dataset(job, cfg)`: the `datasets` import, one log line, the
      load. */
  function LoadSteps(dataset: string, kind: PathKind): seq<LibSteps.Step> {
    [LibSteps.Call("import datasets"), LibSteps.Say(LoadNote(dataset, kind)), LibSteps.Call("load_dataset")]
  }

  /** A value found in a dataset row: a string, `None`, or any other value
      represented by its `str()`. */
  datatype Scalar = Str(s: string) | NoneValue | Shown(text: string)

  /** A row field: one value or a list of values. */
  datatype Field = One(v: Scalar) | Many(items: seq<Scalar>)

  /** `str(v)`. */
  function StrOf(v: Scalar): string {
    match v
    case Str(s) => s
    case NoneValue => "None"
    case Shown(t) => t
  }

  function StrsOf(items: seq<Scalar>): (r: seq<string>)
    ensures |r| == |items|
    ensures forall i :: 0 <= i < |items| ==> r[i] == StrOf(items[i])
  {
    seq(|items|, i requires 0 <= i < |items| => StrOf(items[i]))
  }

  const TextKey: string := "text"

  /** `format_example(ex)` with `text_field` bound to `textField`: it returns
      a dict with the single key `text`, which `Dataset.map` merges into the
      row beside its other columns. */
  function FormatExample(row: map<string, Field>, textField: string): (r: map<string, string>)
    ensures r.Keys == {TextKey}
    ensures textField !in row ==> r[TextKey] == "None"
    ensures textField in row && row[textField].One? ==> r[TextKey] == StrOf(row[textField].v)
    ensures textField in row && row[textField].Many? ==> r[TextKey] == PyStr.Join(StrsOf(row[textField].items), "\n")
  {
    var txt := if textField in row then row[textField] else One(NoneValue);
    match txt
    case One(v) => map[TextKey := StrOf(v)]
    case Many(items) => map[TextKey := PyStr.Join(StrsOf(items), "\n")]
  }

  /** A list field is joined one element per line: splitting the text on
      newlines gives back each element's `str()`, provided none of them
      holds a newline itself. */
  lemma ListFieldRoundTrip(row: map<string, Field>, textField: string)
    requires textField in row && row[textField].Many?
    requires |row[textField].items| >= 1
    requires forall i :: 0 <= i < |row[textField].items| ==> '\n' !in StrOf(row[textField].items[i])
    ensures PyStr.Split(FormatExample(row, textField)[TextKey], '\n') == StrsOf(row[textField].items)
  {
    PyStr.JoinSplit(StrsOf(row[textField].items), '\n');
  }

  /** An empty list becomes the empty text. */
  lemma EmptyListIsEmptyText(row: map<string, Field>, textField: string)
    requires textField in row && row[textField] == Many([])
    ensures FormatExample(row, textField)[TextKey] == ""
  {
  }

  const StartNote: string := "Starting fine-tuning job"
  const ImportNote: string := "Failed to import training libraries. Ensure 'unsloth', 'transformers', 'trl' are installed."
  const ImportCall: string := "import unsloth, transformers, trl"

  /** The body of `run_finetune` from the directory creation on. */
  function TrainSteps(cfg: FinetuneConfig, outputsDir: string): seq<LibSteps.Step> {
    [ LibSteps.Call("os.makedirs"),
      LibSteps.Say("Loading base model: " + cfg.baseModelId),
      LibSteps.Call("FastLanguageModel.from_pretrained"),
      LibSteps.Say("Applying LoRA adapters"),
      LibSteps.Call("FastLanguageModel.get_peft_model"),
      LibSteps.Say("Mapping dataset to text field"),
      LibSteps.Call("Dataset.map"),
      LibSteps.Call("TrainingArguments"),
      LibSteps.Say("Starting SFTTrainer"),
      LibSteps.Call("SFTTrainer"),
      LibSteps.Call("SFTTrainer.train"),
      LibSteps.Say("Training complete. Saving LoRA adapter and tokenizer."),
      LibSteps.Call("model.save_pretrained"),
      LibSteps.Call("tokenizer.save_pretrained"),
      LibSteps.Say("Artifacts saved to: " + OutputDir(cfg, outputsDir)) ]
  }

  /** The whole body of `run_finetune(job, cfg)`. */
  function FinetuneSteps(cfg: FinetuneConfig, outputsDir: string, kind: PathKind): seq<LibSteps.Step> {
    [LibSteps.Say(StartNote), LibSteps.Guarded(ImportCall, ImportNote)]
      + LoadSteps(cfg.dataset, kind) + TrainSteps(cfg, outputsDir)
  }

  /** `run_finetune(job, cfg)`, its log lines stamped `clock(first)`,
      `clock(first + 1)`, ... */
  function RunFinetune<P>(job: AppJobs.Job<P>, clock: nat -> string, first: nat, cfg: FinetuneConfig,
                          outputsDir: string, kind: PathKind, fails: LibSteps.Failures): Outcome<AppJobs.Job<P>> {
    LibSteps.Exec(job, clock, first, FinetuneSteps(cfg, outputsDir, kind), fails)
  }

  /** When the training libraries cannot be imported, the job logs the start
      line and the installation hint, and the import error propagates
      unchanged. */
  lemma ImportFailureReraises<P>(job: AppJobs.Job<P>, clock: nat -> string, first: nat, cfg: FinetuneConfig,
                                 outputsDir: string, kind: PathKind, fails: LibSteps.Failures)
    requires fails(ImportCall).Some?
    ensures var o := RunFinetune(job, clock, first, cfg, outputsDir, kind, fails);
      && o.Raised? && o.message == fails(ImportCall).value
      && o.state == AppJobs.LogAll(job, clock, first, [StartNote, ImportNote])
  {
    var steps := FinetuneSteps(cfg, outputsDir, kind);
    var head := [LibSteps.Say(StartNote)];
    assert steps == head + steps[1..];
    LibSteps.StopAfter(head, steps[1..], fails);
    assert LibSteps.Stop(steps[1..], fails) == 0;
    LibSteps.ExecMatchesTranscript(job, clock, first, steps, fails);
    assert steps[..1] == head;
    assert LibSteps.Transcript(head, fails) == [StartNote];
  }

  /** When no library call fails, the job returns normally and its last
      line names the directory the adapter was saved to. */
  lemma SuccessEndsWithArtifacts<P>(job: AppJobs.Job<P>, clock: nat -> string, first: nat, cfg: FinetuneConfig,
                                    outputsDir: string, kind: PathKind, fails: LibSteps.Failures)
    requires forall name :: fails(name).None?
    ensures var o := RunFinetune(job, clock, first, cfg, outputsDir, kind, fails);
      var t := LibSteps.Transcript(FinetuneSteps(cfg, outputsDir, kind), fails);
      && o.Returned?
      && o.state == AppJobs.LogAll(job, clock, first, t)
      && |t| >= 1 && t[|t| - 1] == "Artifacts saved to: " + OutputDir(cfg, outputsDir)
  {
    var steps := FinetuneSteps(cfg, outputsDir, kind);
    LibSteps.ExecCompletes(job, clock, first, steps, fails);
    LibSteps.TranscriptEndsWith(steps, "Artifacts saved to: " + OutputDir(cfg, outputsDir), fails);
  }
}

=== FILE: app_fs.dfy ===
/** `list_dir_tree(path, max_items)` of the Gradio application
    (app/fs_utils.py): a flat listing of the entries under a directory,
    walked top-down, with each directory's sub-directories listed before its
    files, both sorted by name, and the listing cut off once `max_items`
    rows have been produced.

    The walk is a parameter: the sequence of `(root, dirs, files)` triples
    `os.walk(path)` yields, each root given relative to `path` (`.` for
    `path` itself). Sorting `dirs` in place also fixes the order in which
    the walk descends; that order is already reflected in the given
    sequence. */
module FsUtils {

  /** One triple yielded by `os.walk`, its root relative to the walked
      directory. */
  datatype WalkEntry = WalkEntry(rel: string, dirs: seq<string>, files: seq<string>)

  datatype RowKind = DirRow | FileRow

  /** The `type` field of a row. */
  function KindText(k: RowKind): string {
    match k
    case DirRow => "dir"
    case FileRow => "file"
  }

  /** One row of the listing: `{"type": ..., "path": ...}`. */
  datatype Row = Row(kind: RowKind, path: string)

  /** Python's `<=` on strings: lexicographic by code point. */
  predicate StrLe(a: string, b: string)
    decreases |a|
  {
    a == [] || (b != [] && (a[0] < b[0] || (a[0] == b[0] && StrLe(a[1..], b[1..]))))
  }

  lemma {:induction false} StrLeTotal(a: string, b: string)
    ensures StrLe(a, b) || StrLe(b, a)
    decreases |a|
  {
    if a != [] && b != [] && a[0] == b[0] {
      StrLeTotal(a[1..], b[1..]);
    }
  }

  /** Each name is no greater than the next. */
  predicate Sorted(s: seq<string>) {
    forall i :: 0 <= i < |s| - 1 ==> StrLe(s[i], s[i + 1])
  }

  /** `s` with `x` inserted before the first element it does not exceed. */
  function Insert(x: string, s: seq<string>): (r: seq<string>)
    ensures |r| == |s| + 1
  {
    if s == [] then [x]
    else if StrLe(x, s[0]) then [x] + s
    else [s[0]] + Insert(x, s[1..])
  }

  /** Inserting into a sorted list keeps it sorted and adds exactly `x`. */
  lemma {:induction false} InsertSorted(x: string, s: seq<string>)
    requires Sorted(s)
    ensures Sorted(Insert(x, s))
    ensures Insert(x, s)[0] == x || (s != [] && Insert(x, s)[0] == s[0])
    decreases |s|
  {
    if s != [] && !StrLe(x, s[0]) {
      StrLeTotal(x, s[0]);
      InsertSorted(x, s[1..]);
      var t := Insert(x, s[1..]);
      assert Insert(x, s) == [s[0]] + t;
      assert StrLe(s[0], t[0]) by {
        if |s| > 1 {
          assert StrLe(s[0], s[1]);
        }
      }
    }
  }

  /** Inserting adds exactly `x`. */
  lemma {:induction false} InsertPerm(x: string, s: seq<string>)
    ensures multiset(Insert(x, s)) == multiset(s) + multiset{x}
    decreases |s|
  {
    if s != [] && !StrLe(x, s[0]) {
      InsertPerm(x, s[1..]);
      assert s == [s[0]] + s[1..];
    }
  }

  /** `sorted(s)`, the order `list.sort()` leaves. */
  function Sort(s: seq<string>): (r: seq<string>)
    ensures |r| == |s|
  {
    if s == [] then [] else Insert(s[0], Sort(s[1..]))
  }

  /** Sorting yields a sorted permutation. */
  lemma {:induction false} SortSorts(s: seq<string>)
    ensures Sorted(Sort(s)) && multiset(Sort(s)) == multiset(s)
    decreases |s|
  {
    if s != [] {
      SortSorts(s[1..]);
      InsertSorted(s[0], Sort(s[1..]));
      InsertPerm(s[0], Sort(s[1..]));
      assert s == [s[0]] + s[1..];
    }
  }

  /** `os.path.relpath(os.path.join(root, name), path)` for a plain name. */
  function RelPath(rel: string, name: string): string {
    if rel == "." then name else rel + "/" + name
  }

  function RowsOf(kind: RowKind, rel: string, names: seq<string>): (r: seq<Row>)
    ensures |r| == |names|
    ensures forall i :: 0 <= i < |names| ==> r[i] == Row(kind, RelPath(rel, names[i]))
  {
    seq(|names|, i requires 0 <= i < |names| => Row(kind, RelPath(rel, names[i])))
  }

  /** The rows one walked directory contributes when nothing cuts them off. */
  function EntryRows(e: WalkEntry): seq<Row> {
    DirsThenFiles(e.rel, Sort(e.dirs), Sort(e.files))
  }

  /** The rows for sub-directories `ds` followed by the rows for files
      `fs`, all under `rel`. */
  function DirsThenFiles(rel: string, ds: seq<string>, fs: seq<string>): seq<Row> {
    RowsOf(DirRow, rel, ds) + RowsOf(FileRow, rel, fs)
  }

  /** The whole listing when nothing cuts it off. */
  function AllRows(walk: seq<WalkEntry>): seq<Row>
  {
    if walk == [] then [] else AllRows(walk[..|walk| - 1]) + EntryRows(walk[|walk| - 1])
  }

  /** `a` is a prefix of `b`. */
  ghost predicate IsPrefix<T>(a: seq<T>, b: seq<T>) {
    |a| <= |b| && b[..|a|] == a
  }

  lemma PrefixTrans<T>(a: seq<T>, b: seq<T>, c: seq<T>)
    requires IsPrefix(a, b) && IsPrefix(b, c)
    ensures IsPrefix(a, c)
  {
    assert c[..|a|] == c[..|b|][..|a|];
  }

  /** Taking one more walk entry appends that entry's rows. */
  lemma AllRowsSnoc(walk: seq<WalkEntry>, w: nat)
    requires w < |walk|
    ensures AllRows(walk[..w + 1]) == AllRows(walk[..w]) + EntryRows(walk[w])
  {
    assert walk[..w + 1][..w] == walk[..w];
  }

  /** A walk's rows start with the rows of any prefix of it. */
  lemma {:induction false} AllRowsPrefix(walk: seq<WalkEntry>, w: nat)
    requires w <= |walk|
    ensures IsPrefix(AllRows(walk[..w]), AllRows(walk))
    decreases |walk| - w
  {
    if w < |walk| {
      AllRowsPrefix(walk, w + 1);
      AllRowsSnoc(walk, w);
      var a, b := AllRows(walk[..w]), AllRows(walk[..w + 1]);
      assert b[..|a|] == a;
      PrefixTrans(a, b, AllRows(walk));
    } else {
      assert walk[..w] == walk;
    }
  }

  /** Cutting a concatenation inside its second part. */
  lemma CutInside<T>(all: seq<T>, prev: seq<T>, er: seq<T>, k: nat)
    requires IsPrefix(prev + er, all)
    requires k <= |er|
    ensures all[..|prev| + k] == prev + er[..k]
  {
    assert all[..|prev| + k] == (prev + er)[..|prev| + k];
  }

  /** How many rows a call lets through: `max_items` rows, and at least the
      first row whatever `max_items` is, since the count is compared only
      after each row is added. */
  function Cap(maxItems: int): nat {
    if maxItems >= 1 then maxItems else 1
  }

  /** The first `Cap(maxItems)` rows of `all`, or all of them when fewer. */
  function Listed(all: seq<Row>, maxItems: int): seq<Row> {
    all[..if |all| < Cap(maxItems) then |all| else Cap(maxItems)]
  }

  /** A prefix of exactly `Cap(maxItems)` rows is what the cut leaves. */
  lemma CutAtCap(all: seq<Row>, rows: seq<Row>, maxItems: int)
    requires IsPrefix(rows, all) && |rows| == Cap(maxItems)
    ensures rows == Listed(all, maxItems)
  {
  }

  /** The first `k` elements of a concatenation. */
  lemma PrefixOfConcat<T>(a: seq<T>, b: seq<T>, k: nat)
    requires k <= |a| + |b|
    ensures k <= |a| ==> (a + b)[..k] == a[..k]
    ensures k >= |a| ==> (a + b)[..k] == a + b[..k - |a|]
  {
    if k >= |a| {
      assert (a + b)[..k] == a + b[..k - |a|];
    }
  }

  /** One inner loop of `list_dir_tree`: a row per name, in order, until the
      count reaches `max_items`; `full` says that it did. */
  method AddRows(rows: seq<Row>, count: nat, maxItems: int, kind: RowKind, rel: string, names: seq<string>)
      returns (out: seq<Row>, n: nat, full: bool)
    requires count == |rows| < Cap(maxItems)
    ensures n == |out| <= Cap(maxItems)
    ensures |rows| <= |out| <= |rows| + |names|
    ensures out == rows + RowsOf(kind, rel, names)[..|out| - |rows|]
    ensures full <==> |out| == Cap(maxItems)
    ensures !full ==> |out| == |rows| + |names|
  {
    out, n, full := rows, count, false;
    var i := 0;
    while i < |names|
      invariant 0 <= i <= |names|
      invariant out == rows + RowsOf(kind, rel, names)[..i]
      invariant n == |out| < Cap(maxItems)
    {
      out := out + [Row(kind, RelPath(rel, names[i]))];
      n := n + 1;
      assert RowsOf(kind, rel, names)[..i + 1] == RowsOf(kind, rel, names)[..i] + [RowsOf(kind, rel, names)[i]];
      if n >= maxItems {
        full := true;
        return;
      }
      i := i + 1;
    }
  }

  /** One iteration of the walk loop of `list_dir_tree`, given the sorted
      sub-directory names `ds` and file names `fs`: their rows in that
      order, until the count reaches `max_items`. */
  method AddEntry(rows: seq<Row>, count: nat, maxItems: int, rel: string, ds: seq<string>, fs: seq<string>)
      returns (out: seq<Row>, n: nat, full: bool)
    requires count == |rows| < Cap(maxItems)
    ensures n == |out| <= Cap(maxItems)
    ensures |rows| <= |out| <= |rows| + |DirsThenFiles(rel, ds, fs)|
    ensures out == rows + DirsThenFiles(rel, ds, fs)[..|out| - |rows|]
    ensures full <==> |out| == Cap(maxItems)
    ensures !full ==> out == rows + DirsThenFiles(rel, ds, fs)
  {
    ghost var dr, fr := RowsOf(DirRow, rel, ds), RowsOf(FileRow, rel, fs);
    assert DirsThenFiles(rel, ds, fs) == dr + fr;
    out, n, full := AddRows(rows, count, maxItems, DirRow, rel, ds);
    if full {
      PrefixOfConcat(dr, fr, |out| - |rows|);
      return;
    }
    out, n, full := AddRows(out, n, maxItems, FileRow, rel, fs);
    PrefixOfConcat(dr, fr, |out| - |rows|);
  }

  /** `list_dir_tree(path, max_items)` over the walk `walk`. */
  method ListDirTree(walk: seq<WalkEntry>, maxItems: int) returns (rows: seq<Row>)
    ensures rows == Listed(AllRows(walk), maxItems)
  {
    rows := [];
    var count := 0;
    var w := 0;
    while w < |walk|
      invariant 0 <= w <= |walk|
      invariant rows == AllRows(walk[..w])
      invariant count == |rows| < Cap(maxItems)
    {
      ghost var prev := rows;
      AllRowsSnoc(walk, w);
      AllRowsPrefix(walk, w + 1);
      var full;
      var e := walk[w];
      var dirs := Sort(e.dirs);
      var files := Sort(e.files);
      rows, count, full := AddEntry(rows, count, maxItems, e.rel, dirs, files);
      if full {
        CutInside(AllRows(walk), prev, EntryRows(walk[w]), |rows| - |prev|);
        CutAtCap(AllRows(walk), rows, maxItems);
        return;
      }
      w := w + 1;
    }
    assert walk[..w] == walk;
    assert rows == AllRows(walk)[..|rows|];
  }

  /** Every `dir` row comes before every `file` row, each row carrying the
      path of its name, in the order given. */
  lemma DirsThenFilesShape(rel: string, ds: seq<string>, fs: seq<string>)
    ensures var r := DirsThenFiles(rel, ds, fs);
      && |r| == |ds| + |fs|
      && (forall i, j :: 0 <= i < j < |r| && r[i].kind == FileRow ==> r[j].kind == FileRow)
      && (forall i :: 0 <= i < |ds| ==> r[i] == Row(DirRow, RelPath(rel, ds[i])))
      && (forall i :: |ds| <= i < |r| ==> r[i] == Row(FileRow, RelPath(rel, fs[i - |ds|])))
  {
  }

  /** The listing of a walk lists every entry's rows, in walk order. */
  lemma {:induction false} AllRowsLength(walk: seq<WalkEntry>)
    ensures |AllRows(walk)| == Total(walk)
    decreases |walk|
  {
    if walk != [] {
      AllRowsLength(walk[..|walk| - 1]);
      assert |EntryRows(walk[|walk| - 1])| == |walk[|walk| - 1].dirs| + |walk[|walk| - 1].files|;
    }
  }

  /** The number of names the walk reports. */
  function Total(walk: seq<WalkEntry>): nat
  {
    if walk == [] then 0
    else Total(walk[..|walk| - 1]) + |walk[|walk| - 1].dirs| + |walk[|walk| - 1].files|
  }

  /** With `max_items >= 1` the listing has at most `max_items` rows, exactly
      that many when the walk reports at least that many names, and every
      row of the walk otherwise. */
  lemma ListedBound(walk: seq<WalkEntry>, maxItems: int)
    requires maxItems >= 1
    ensures var rows := Listed(AllRows(walk), maxItems);
      && |rows| <= maxItems
      && (Total(walk) >= maxItems ==> |rows| == maxItems)
      && (Total(walk) < maxItems ==> rows == AllRows(walk) && |rows| == Total(walk))
  {
    AllRowsLength(walk);
    assert AllRows(walk)[..|AllRows(walk)|] == AllRows(walk);
  }

  /** A `max_items` of zero or less still lets the first row through: the
      count is compared only after a row has been added. */
  lemma NonPositiveMaxListsOne(walk: seq<WalkEntry>, maxItems: int)
    requires maxItems <= 0 && Total(walk) >= 1
    ensures |Listed(AllRows(walk), maxItems)| == 1
  {
    AllRowsLength(walk);
  }
}

=== FILE: app_hf.dfy ===
/** The two pure pieces of the Hugging Face client (app/hf_client.py): the
    README file name picked from a model's file listing, and the default
    directory a model snapshot is downloaded into. The Hub calls themselves
    are not modelled. */
module HfClient {
  import opened Wrappers
  import PyStr
  import PyPath

  /** One entry of `info.siblings`: its `rfilename`, `None` when the
      attribute is missing or `None`. */
  datatype Sibling = Sibling(rfilename: Option<string>)

  /** `getattr(sib, "rfilename", "") or ""`. */
  function NameOf(sib: Sibling): string {
    sib.rfilename.GetOr("")
  }

  /** A file name that names a README, compared case-insensitively. */
  predicate IsReadme(name: string) {
    PyStr.Lower(name) in {"readme.md", "readme", "readme.rst"}
  }

  const DefaultReadme: string := "README.md"

  /** The first sibling whose name is a README, as it is spelled. */
  function FirstReadme(sibs: seq<Sibling>): Option<string>
  {
    if sibs == [] then None
    else if IsReadme(NameOf(sibs[0])) then Some(NameOf(sibs[0]))
    else FirstReadme(sibs[1..])
  }

  /** `_readme_path_from_info(info)`, with `siblings` standing for
      `getattr(info, "siblings", [])`: `None` when missing or `None`. */
  function ReadmePath(siblings: Option<seq<Sibling>>): string {
    FirstReadme(siblings.GetOr([])).GetOr(DefaultReadme)
  }

  /** Some sibling is picked exactly when one matches, and then it is the
      first matching sibling's name, unchanged in case. */
  lemma {:induction false} FirstReadmeIsFirstMatch(sibs: seq<Sibling>)
    ensures FirstReadme(sibs).Some? <==> exists i :: 0 <= i < |sibs| && IsReadme(NameOf(sibs[i]))
    ensures FirstReadme(sibs).Some? ==>
      exists i :: 0 <= i < |sibs| && IsReadme(NameOf(sibs[i])) && FirstReadme(sibs).value == NameOf(sibs[i])
        && (forall j :: 0 <= j < i ==> !IsReadme(NameOf(sibs[j])))
  {
    if sibs != [] && !IsReadme(NameOf(sibs[0])) {
      FirstReadmeIsFirstMatch(sibs[1..]);
      if FirstReadme(sibs[1..]).Some? {
        var i :| 0 <= i < |sibs[1..]| && IsReadme(NameOf(sibs[1..][i]))
          && FirstReadme(sibs[1..]).value == NameOf(sibs[1..][i])
          && (forall j :: 0 <= j < i ==> !IsReadme(NameOf(sibs[1..][j])));
        assert forall j :: 0 <= j < i + 1 ==> !IsReadme(NameOf(sibs[j])) by {
          forall j | 0 <= j < i + 1
            ensures !IsReadme(NameOf(sibs[j]))
          {
            if j > 0 {
              assert sibs[j] == sibs[1..][j - 1];
            }
          }
        }
        assert sibs[i + 1] == sibs[1..][i];
      } else {
        forall i | 0 <= i < |sibs|
          ensures !IsReadme(NameOf(sibs[i]))
        {
          if i > 0 {
            assert sibs[i] == sibs[1..][i - 1];
          }
        }
      }
    }
  }

  /** The picker's result is either a README name taken from the listing or
      the default. It is the default exactly when nothing in the listing
      matches or the first match is itself spelled `README.md`. */
  lemma ReadmePathChoice(siblings: Option<seq<Sibling>>)
    ensures var sibs := siblings.GetOr([]);
      && (ReadmePath(siblings) == DefaultReadme
          || exists i :: 0 <= i < |sibs| && NameOf(sibs[i]) == ReadmePath(siblings) && IsReadme(ReadmePath(siblings)))
      && ((forall i :: 0 <= i < |sibs| ==> !IsReadme(NameOf(sibs[i]))) ==> ReadmePath(siblings) == DefaultReadme)
      && (ReadmePath(siblings) == DefaultReadme <==>
           (forall i :: 0 <= i < |sibs| ==> !IsReadme(NameOf(sibs[i])))
           || exists i :: 0 <= i < |sibs| && NameOf(sibs[i]) == DefaultReadme
                && forall j :: 0 <= j < i ==> !IsReadme(NameOf(sibs[j])))
  {
    var sibs := siblings.GetOr([]);
    FirstReadmeIsFirstMatch(sibs);
    assert PyStr.Lower(DefaultReadme) == "readme.md";
    if i :| 0 <= i < |sibs| && NameOf(sibs[i]) == DefaultReadme && forall j :: 0 <= j < i ==> !IsReadme(NameOf(sibs[j])) {
      var k :| 0 <= k < |sibs| && IsReadme(NameOf(sibs[k])) && FirstReadme(sibs).value == NameOf(sibs[k])
        && (forall j :: 0 <= j < k ==> !IsReadme(NameOf(sibs[j])));
      assert k == i;
    }
  }

  /** A sibling without a name never matches. */
  lemma NamelessNeverMatches()
    ensures !IsReadme(NameOf(Sibling(None)))
  {
    assert PyStr.Lower("") == "";
  }

  /** An upper-case `README.MD` listed after a non-README file is returned in
      its original case. */
  lemma ReadmeKeepsCase()
    ensures ReadmePath(Some([Sibling(Some("config.json")), Sibling(Some("README.MD"))])) == "README.MD"
  {
    var a, b := Sibling(Some("config.json")), Sibling(Some("README.MD"));
    assert PyStr.Lower("config.json") == "config.json";
    assert PyStr.Lower("README.MD") == "readme.md";
    assert [a, b][1..] == [b];
  }

  /** `download_model`'s target: `local_dir`, or
      `os.path.join(hf_cache_dir, "models", <repo_id with "/" replaced by "__">)`. */
  function DownloadDir(cacheDir: string, repoId: string, localDir: Option<string>): string {
    PyPath.OrJoin(localDir.GetOr(""), PyPath.Join(cacheDir, "models"), PyStr.FlattenRepoId(repoId))
  }

  /** A non-empty `local_dir` is used as given. The default download
      directory sits in `models` under the cache and is named after the
      flattened repository id. */
  lemma DownloadDirShape(cacheDir: string, repoId: string, localDir: Option<string>)
    ensures localDir.Some? && localDir.value != [] ==> DownloadDir(cacheDir, repoId, localDir) == localDir.value
    ensures localDir.None? || localDir.value == [] ==>
      var r := DownloadDir(cacheDir, repoId, localDir);
      && PyPath.Basename(r) == PyStr.FlattenRepoId(repoId)
      && |PyPath.Join(cacheDir, "models")| <= |r|
      && r[..|PyPath.Join(cacheDir, "models")|] == PyPath.Join(cacheDir, "models")
  {
    var name := PyStr.FlattenRepoId(repoId);
    assert !PyPath.IsAbsolute(name) by {
      if name != [] {
        assert name[0] in name;
      }
    }
    PyPath.BasenameOfJoin(PyPath.Join(cacheDir, "models"), PyStr.FlattenRepoId(repoId));
    PyPath.JoinShape(PyPath.Join(cacheDir, "models"), PyStr.FlattenRepoId(repoId));
  }

  /** The flattening is not injective: `a/b` and `a__b` share a download
      directory. */
  lemma DownloadDirsCollide(cacheDir: string)
    ensures DownloadDir(cacheDir, "a/b", None) == DownloadDir(cacheDir, "a__b", None)
  {
    assert PyStr.FlattenRepoId("a/b") == "a__b";
    assert PyStr.FlattenRepoId("a__b") == "a__b";
  }
}

=== FILE: app_jobs.dfy ===
/** The job registry of the Gradio application (app/jobs.py): a `Job`
    record with a log trimmed to its last 1000 lines, a process-wide registry
    supporting create / get / list, and the body of the thread wrapper that
    runs a target against a job.

    The job is generic in its `params` (a `Dict[str, Any]` the registry
    never looks into). The wrapper thread, the lock, `uuid4()` and
    `time.time()` are not modelled: the id and the instants are parameters. */
module AppJobs {
  import opened Wrappers
  import LogLine

  /** Lines a job keeps; older lines are dropped once there are more. */
  const LogCap: nat := 1000

  datatype Status = Queued | Running | Completed | Failed

  /** The status string stored on the Python object. */
  function StatusText(s: Status): string {
    match s
    case Queued => "queued"
    case Running => "running"
    case Completed => "completed"
    case Failed => "failed"
  }

  /** A `time.time()` reading. */
  type Instant = int

  datatype Job<P> = Job(
    id: string,
    kind: string,
    status: Status,
    params: P,
    logs: seq<string>,
    startTime: Option<Instant>,
    endTime: Option<Instant>)

  /** The dataclass defaults of `Job(id=..., kind=..., params=...)`. */
  function NewJob<P>(id: string, kind: string, params: P): Job<P> {
    Job(id, kind, Queued, params, [], None, None)
  }

  /** The most recent `LogCap` lines of `lines`. */
  function Recent(lines: seq<string>): (r: seq<string>)
    ensures |r| == if |lines| > LogCap then LogCap else |lines|
    ensures r == lines[|lines| - |r|..]
  {
    if |lines| > LogCap then lines[|lines| - LogCap..] else lines
  }

  /** The log after `job.log(msg)` with timestamp text `ts`: the line
      `[ts] msg` becomes the newest line and only the most recent 1000 lines
      are kept. */
  function AppendLine(logs: seq<string>, ts: string, msg: string): seq<string> {
    Recent(logs + [LogLine.Format(ts, msg)])
  }

  /** One `log` call adds exactly one line, `[ts] msg`, as the newest; the
      lines before it are the most recent of the old ones; and the log never
      exceeds 1000 lines. */
  lemma LogAppendsOneLine(logs: seq<string>, ts: string, msg: string)
    ensures var r := AppendLine(logs, ts, msg);
      && |r| <= LogCap
      && |r| == (if |logs| >= LogCap then LogCap else |logs| + 1)
      && r[|r| - 1] == LogLine.Format(ts, msg)
      && r[..|r| - 1] == logs[|logs| + 1 - |r|..]
  {
    var lines := logs + [LogLine.Format(ts, msg)];
    assert lines[|lines| - 1] == LogLine.Format(ts, msg);
  }

  /** `job.log(msg)`: only the log changes. */
  function Log<P>(job: Job<P>, ts: string, msg: string): Job<P> {
    job.(logs := AppendLine(job.logs, ts, msg))
  }

  /** The log after `job.log(m)` for each `m` of `msgs` in turn, the i-th
      stamped `clock(first + i)`. */
  function AppendLines(logs: seq<string>, clock: nat -> string, first: nat, msgs: seq<string>): seq<string>
    decreases |msgs|
  {
    if msgs == [] then logs
    else AppendLines(AppendLine(logs, clock(first), msgs[0]), clock, first + 1, msgs[1..])
  }

  /** `job.log(m)` for each `m` of `msgs` in turn: only the log changes. */
  function LogAll<P>(job: Job<P>, clock: nat -> string, first: nat, msgs: seq<string>): Job<P> {
    job.(logs := AppendLines(job.logs, clock, first, msgs))
  }

  /** Trimming after every append keeps the same lines as trimming once. */
  lemma RecentOfRecent(s: seq<string>, t: seq<string>)
    ensures Recent(Recent(s) + t) == Recent(s + t)
  {
    var rs := Recent(s);
    if |s| > LogCap {
      var a, b := Recent(rs + t), Recent(s + t);
      assert |a| == |b|;
      forall i | 0 <= i < |a|
        ensures a[i] == b[i]
      {
        if |rs + t| - |a| + i < |rs| {
          assert a[i] == rs[|rs + t| - |a| + i];
        }
      }
    }
  }

  /** Logging several lines one at a time leaves exactly the most recent 1000
      of the old lines followed by the new ones, in order. */
  lemma {:induction false} AppendLinesKeepsMostRecent(logs: seq<string>, clock: nat -> string, first: nat, msgs: seq<string>)
    requires |logs| <= LogCap
    ensures AppendLines(logs, clock, first, msgs) == Recent(logs + LogLine.Stamped(clock, first, msgs))
    decreases |msgs|
  {
    if msgs == [] {
      assert logs + LogLine.Stamped(clock, first, msgs) == logs;
    } else {
      var line := LogLine.Format(clock(first), msgs[0]);
      var rest := LogLine.Stamped(clock, first + 1, msgs[1..]);
      var logs1 := AppendLine(logs, clock(first), msgs[0]);
      assert logs1 == Recent(logs + [line]);
      AppendLinesKeepsMostRecent(logs1, clock, first + 1, msgs[1..]);
      assert AppendLines(logs, clock, first, msgs) == Recent(logs1 + rest);
      var s1 := logs + [line];
      LogLine.StampedCons(clock, first, msgs);
      var all := logs + LogLine.Stamped(clock, first, msgs);
      assert s1 + rest == all;
      RecentOfRecent(s1, rest);
      assert Recent(s1 + rest) == Recent(all);
    }
  }

  /** With fewer than 1000 lines in all, nothing is trimmed: the new lines
      simply follow the old ones. */
  lemma AppendLinesUntrimmed(logs: seq<string>, clock: nat -> string, first: nat, msgs: seq<string>)
    requires |logs| + |msgs| <= LogCap
    ensures AppendLines(logs, clock, first, msgs) == logs + LogLine.Stamped(clock, first, msgs)
  {
    AppendLinesKeepsMostRecent(logs, clock, first, msgs);
  }

  /** The registry `_JOBS`: a dict, so its keys keep their insertion order. */
  datatype Registry<P> = Registry(order: seq<string>, jobs: map<string, Job<P>>)

  ghost predicate Distinct(ids: seq<string>) {
    forall i, j :: 0 <= i < j < |ids| ==> ids[i] != ids[j]
  }

  /** `order` lists every key of `jobs` exactly once. */
  ghost predicate Valid<P>(reg: Registry<P>) {
    && Distinct(reg.order)
    && (forall i :: 0 <= i < |reg.order| ==> reg.order[i] in reg.jobs)
    && (forall id :: id in reg.jobs ==> id in reg.order)
  }

  function EmptyRegistry<P>(): (r: Registry<P>)
    ensures Valid(r)
    ensures r.jobs == map[]
  {
    Registry([], map[])
  }

  /** `get_job(job_id)`: `_JOBS.get(job_id)`. */
  function GetJob<P>(reg: Registry<P>, id: string): Option<Job<P>> {
    if id in reg.jobs then Some(reg.jobs[id]) else None
  }

  /** `create_job(kind, params)` with `id` standing for `str(uuid.uuid4())`:
      a queued job with an empty log and no times is stored under `id`, which
      joins the end of the listing order unless it was already a key; no
      other entry changes. */
  function CreateJob<P>(reg: Registry<P>, id: string, kind: string, params: P): (r: (Registry<P>, Job<P>))
    ensures r.1.id == id && r.1.kind == kind && r.1.params == params
    ensures r.1.status == Queued && r.1.logs == []
    ensures r.1.startTime == None && r.1.endTime == None
    ensures GetJob(r.0, id) == Some(r.1)
    ensures forall other :: other != id ==> GetJob(r.0, other) == GetJob(reg, other)
    ensures id !in reg.jobs ==> r.0.order == reg.order + [id]
    ensures id in reg.jobs ==> r.0.order == reg.order
    ensures Valid(reg) ==> Valid(r.0)
  {
    var job := NewJob(id, kind, params);
    var order := if id in reg.jobs then reg.order else reg.order + [id];
    (Registry(order, reg.jobs[id := job]), job)
  }

  /** The registry after the wrapper thread has finished mutating the job
      stored under `id` (the Python object is shared, so the key stays put). */
  function Replace<P>(reg: Registry<P>, id: string, job: Job<P>): (r: Registry<P>)
    requires id in reg.jobs
    ensures GetJob(r, id) == Some(job)
    ensures forall other :: other != id ==> GetJob(r, other) == GetJob(reg, other)
    ensures r.order == reg.order
    ensures Valid(reg) ==> Valid(r)
  {
    reg.(jobs := reg.jobs[id := job])
  }

  /** One row of `list_jobs()`. */
  datatype JobSummary = JobSummary(id: string, kind: string, status: string, startTime: Option<Instant>, endTime: Option<Instant>)

  function Summarize<P>(j: Job<P>): JobSummary {
    JobSummary(j.id, j.kind, StatusText(j.status), j.startTime, j.endTime)
  }

  lemma {:induction false} DistinctCard(ids: seq<string>)
    requires Distinct(ids)
    ensures |set i | 0 <= i < |ids| :: ids[i]| == |ids|
    decreases |ids|
  {
    if ids != [] {
      var rest := ids[..|ids| - 1];
      DistinctCard(rest);
      var s := set i | 0 <= i < |ids| :: ids[i];
      var s' := set i | 0 <= i < |rest| :: rest[i];
      assert s == s' + {ids[|ids| - 1]};
      assert ids[|ids| - 1] !in s';
    }
  }

  /** `list_jobs()`: one summary per registered job, in insertion order, each
      carrying that job's id, kind, status, start and end time. */
  function ListJobs<P>(reg: Registry<P>): (r: seq<JobSummary>)
    requires Valid(reg)
    ensures |r| == |reg.order| == |reg.jobs|
    ensures forall i :: 0 <= i < |r| ==> r[i] == Summarize(reg.jobs[reg.order[i]])
    ensures forall id :: id in reg.jobs ==> exists i :: 0 <= i < |r| && reg.order[i] == id
  {
    DistinctCard(reg.order);
    assert (set i | 0 <= i < |reg.order| :: reg.order[i]) == reg.jobs.Keys;
    seq(|reg.order|, i requires 0 <= i < |reg.order| => Summarize(reg.jobs[reg.order[i]]))
  }

  /** What the target sees: the wrapper has marked the job running and
      stamped its start time before calling it. */
  function Started<P>(job: Job<P>, start: Instant): (r: Job<P>)
    ensures r.status == Running && r.startTime == Some(start)
    ensures r.id == job.id && r.kind == job.kind && r.params == job.params
    ensures r.logs == job.logs && r.endTime == job.endTime
  {
    job.(status := Running, startTime := Some(start))
  }

  /** The body of `_wrap` in `run_in_thread(job, target)`. A target that
      returns normally leaves the job `failed` if it marked it so and
      `completed` otherwise; a target that raises leaves it `failed` with an
      `Exception: ...` line logged. Either way the end time is stamped. */
  function Run<P>(job: Job<P>, start: Instant, end: Instant, ts: string, target: Job<P> -> Outcome<Job<P>>): (r: Job<P>)
    ensures r.status == Completed || r.status == Failed
    ensures r.endTime == Some(end)
    ensures var o := target(Started(job, start));
      && (r.status == Failed <==> o.Raised? || o.state.status == Failed)
      && r.id == o.state.id && r.kind == o.state.kind && r.startTime == o.state.startTime
      && r.params == o.state.params
      && (o.Returned? ==> r.logs == o.state.logs)
      && (o.Raised? ==> r.logs == AppendLine(o.state.logs, ts, "Exception: " + o.message))
  {
    match target(Started(job, start))
    case Returned(j) =>
      j.(status := if j.status == Failed then Failed else Completed, endTime := Some(end))
    case Raised(j, msg) =>
      Log(j, ts, "Exception: " + msg).(status := Failed, endTime := Some(end))
  }
}

=== FILE: app_merge.dfy ===
/** The LoRA merge job of the Gradio application (app/merge.py): the
    default output directory, the dtype lookup, and the sequence of log lines
    and library calls of `run_merge`, in which a failing `merge_and_unload`
    is logged and the unmerged model is saved instead, while a failing import
    is logged and re-raised. What the libraries compute is not modelled. */
module Merge {
  import opened Wrappers
  import PyStr
  import PyPath
  import AppJobs
  import LibSteps

  /** `MergeConfig`. */
  datatype MergeConfig = MergeConfig(
    baseModelId: string,
    adapterDir: string,
    outputDir: Option<string>,
    torchDtype: string)

  /** `MergeConfig.torch_dtype`'s default. */
  const DefaultDtype: string := "auto"

  /** `cfg.output_dir or os.path.join(settings.outputs_dir, "merged_" + ...)`:
      an empty string counts as not given. */
  function OutDir(cfg: MergeConfig, outputsDir: string): string {
    PyPath.OrJoin(cfg.outputDir.GetOr(""), outputsDir, "merged_" + PyStr.FlattenRepoId(cfg.baseModelId))
  }

  /** A non-empty `output_dir` is used as given; the default is a single
      entry of the outputs directory, named `merged_` followed by the
      flattened model id. */
  lemma DefaultOutDirShape(cfg: MergeConfig, outputsDir: string)
    ensures cfg.outputDir.Some? && cfg.outputDir.value != [] ==> OutDir(cfg, outputsDir) == cfg.outputDir.value
    ensures cfg.outputDir.None? || cfg.outputDir.value == [] ==>
      PyPath.Basename(OutDir(cfg, outputsDir)) == "merged_" + PyStr.FlattenRepoId(cfg.baseModelId)
  {
    var name := "merged_" + PyStr.FlattenRepoId(cfg.baseModelId);
    assert '/' !in name by {
      assert forall i :: 0 <= i < 7 ==> name[i] == "merged_"[i];
      assert forall i :: 7 <= i < |name| ==> name[i] == PyStr.FlattenRepoId(cfg.baseModelId)[i - 7];
    }
    PyPath.BasenameOfJoin(outputsDir, name);
  }

  /** The torch dtypes `dtype_map` can name. */
  datatype Dtype = Float16 | BFloat16

  /** `dtype_map.get(cfg.torch_dtype, None)`: `None` stands for "let the
      library choose". */
  function DtypeFor(name: string): Option<Dtype> {
    if name == "float16" then Some(Float16)
    else if name == "bfloat16" then Some(BFloat16)
    else None
  }

  /** The name a dtype is looked up by. */
  function DtypeName(d: Dtype): string {
    match d
    case Float16 => "float16"
    case BFloat16 => "bfloat16"
  }

  /** Only the two explicit names select a dtype, each its own; `auto` and
      every other string, including differently cased ones, select none. */
  lemma DtypeLookup(name: string)
    ensures DtypeFor(name).Some? <==> name in {"float16", "bfloat16"}
    ensures DtypeFor(name).Some? ==> DtypeName(DtypeFor(name).value) == name
    ensures forall d :: DtypeFor(DtypeName(d)) == Some(d)
    ensures DtypeFor(DefaultDtype) == None && DtypeFor("Float16") == None
  {
  }

  const StartNote: string := "Starting LoRA merge job"
  const ImportNote: string := "Required libs missing: install torch, transformers, peft"
  const ImportCall: string := "import torch, transformers, peft"
  const MergeCall: string := "merge_and_unload"
  const MergePrefix: string := "merge_and_unload failed, trying to export without merge: "

  /** `run_merge` up to the adapter load. */
  function LoadSteps(cfg: MergeConfig): seq<LibSteps.Step> {
    [ LibSteps.Say(StartNote),
      LibSteps.Guarded(ImportCall, ImportNote),
      LibSteps.Call("os.makedirs"),
      LibSteps.Say("Loading base model: " + cfg.baseModelId),
      LibSteps.Call("AutoModelForCausalLM.from_pretrained"),
      LibSteps.Call("AutoTokenizer.from_pretrained"),
      LibSteps.Say("Loading LoRA adapter from: " + cfg.adapterDir),
      LibSteps.Call("PeftModel.from_pretrained"),
      LibSteps.Say("Merging and unloading adapters") ]
  }

  /** `run_merge` after the merge attempt. */
  function SaveSteps(cfg: MergeConfig, outputsDir: string): seq<LibSteps.Step> {
    [ LibSteps.Say("Saving merged model (or base if merge failed)"),
      LibSteps.Call("model.save_pretrained"),
      LibSteps.Call("tokenizer.save_pretrained"),
      LibSteps.Say("Merged model saved to: " + OutDir(cfg, outputsDir)) ]
  }

  /** The whole body of `run_merge(job, cfg)`. */
  function MergeSteps(cfg: MergeConfig, outputsDir: string): seq<LibSteps.Step> {
    LoadSteps(cfg) + [LibSteps.Tolerated(MergeCall, MergePrefix)] + SaveSteps(cfg, outputsDir)
  }

  /** `run_merge(job, cfg)`, its log lines stamped `clock(first)`,
      `clock(first + 1)`, ... */
  function RunMerge<P>(job: AppJobs.Job<P>, clock: nat -> string, first: nat, cfg: MergeConfig,
                       outputsDir: string, fails: LibSteps.Failures): Outcome<AppJobs.Job<P>> {
    LibSteps.Exec(job, clock, first, MergeSteps(cfg, outputsDir), fails)
  }

  /** When `torch`, `transformers` or `peft` cannot be imported, the job logs
      the start line and the installation hint, and the import error
      propagates unchanged. */
  lemma ImportFailureReraises<P>(job: AppJobs.Job<P>, clock: nat -> string, first: nat, cfg: MergeConfig,
                                 outputsDir: string, fails: LibSteps.Failures)
    requires fails(ImportCall).Some?
    ensures var o := RunMerge(job, clock, first, cfg, outputsDir, fails);
      && o.Raised? && o.message == fails(ImportCall).value
      && o.state == AppJobs.LogAll(job, clock, first, [StartNote, ImportNote])
  {
    var steps := MergeSteps(cfg, outputsDir);
    var head := [LibSteps.Say(StartNote)];
    assert steps == head + steps[1..];
    LibSteps.StopAfter(head, steps[1..], fails);
    assert LibSteps.Stop(steps[1..], fails) == 0;
    LibSteps.ExecMatchesTranscript(job, clock, first, steps, fails);
    assert steps[..1] == head;
    assert LibSteps.Transcript(head, fails) == [StartNote];
  }

  /** A failing `merge_and_unload` does not abort the job: when it is the
      only call that fails, the job returns normally, having logged the
      failure between the merge line and the save lines, and ends with the
      line naming the output directory. */
  lemma MergeFailureTolerated<P>(job: AppJobs.Job<P>, clock: nat -> string, first: nat, cfg: MergeConfig,
                                 outputsDir: string, fails: LibSteps.Failures)
    requires fails(MergeCall).Some?
    requires forall name :: name != MergeCall ==> fails(name).None?
    ensures var o := RunMerge(job, clock, first, cfg, outputsDir, fails);
      var pre := LibSteps.Transcript(LoadSteps(cfg), fails);
      var post := LibSteps.Transcript(SaveSteps(cfg, outputsDir), fails);
      && o.Returned?
      && o.state == AppJobs.LogAll(job, clock, first, pre + [MergePrefix + fails(MergeCall).value] + post)
      && |pre| >= 1 && pre[|pre| - 1] == "Merging and unloading adapters"
      && |post| >= 1 && post[0] == "Saving merged model (or base if merge failed)"
      && post[|post| - 1] == "Merged model saved to: " + OutDir(cfg, outputsDir)
  {
    var a, b := LoadSteps(cfg), SaveSteps(cfg, outputsDir);
    assert forall i :: 0 <= i < |a| ==> !LibSteps.Aborts(a[i], fails);
    assert forall i :: 0 <= i < |b| ==> !LibSteps.Aborts(b[i], fails);
    LibSteps.ExecTolerated(job, clock, first, a, MergeCall, MergePrefix, b, fails);
    LibSteps.TranscriptEndsWith(a, "Merging and unloading adapters", fails);
    LibSteps.TranscriptEndsWith(b, "Merged model saved to: " + OutDir(cfg, outputsDir), fails);
  }
}

=== FILE: app_ui.dfy ===
/** The callbacks of the Gradio interface (app/ui.py) that hold logic of
    their own: the settings-update builder, the Modelfile text built before
    `ollama create`, the job-status view, and the `_task` wrappers that turn
    a failing fine-tune or merge into a `failed` job. The widgets, the
    Ollama call and `apply_config` (whose definition is not part of the
    model) are left out: the callbacks return what they would hand over. */
module Ui {
  import opened Wrappers
  import PyStr
  import PyPath
  import AppJobs
  import LogLine
  import ConfigStore
  import LibSteps
  import Finetune
  import Merge

  /** A Gradio input: a string, or `None`. */
  type Input = Option<string>

  /** `str(x)`. */
  function StrOf(x: Input): string {
    x.GetOr("None")
  }

  /** `x is None or str(x).strip() == ""`. */
  predicate Blank(x: Input) {
    x.None? || PyStr.IsBlank(x.value)
  }

  // ---------------------------------------------------------------------
  // _save_settings

  const NothingToUpdate: string := "Nothing to update"
  const SavedSettings: string := "Saved settings. Restart not required."

  /** What `_save_settings` returns, with the update it hands to
      `apply_config` when it calls it. */
  datatype SettingsReply = SettingsReply(message: string, applied: Option<ConfigStore.Config>)

  /** `_save_settings(hf_token, ollama_url, clear_token)`. */
  function SaveSettings(hfToken: Input, ollamaUrl: Input, clearToken: bool): (r: SettingsReply)
    ensures r.applied.None? <==> !clearToken && Blank(hfToken) && Blank(ollamaUrl)
    ensures r.message == if r.applied.None? then NothingToUpdate else SavedSettings
    ensures r.applied.Some? ==> var u := r.applied.value;
      && u.Keys <= {ConfigStore.TokenKey, ConfigStore.UrlKey}
      && (ConfigStore.TokenKey in u <==> clearToken || !Blank(hfToken))
      && (clearToken ==> u[ConfigStore.TokenKey] == ConfigStore.Null)
      && (!clearToken && !Blank(hfToken) ==> u[ConfigStore.TokenKey] == ConfigStore.Text(PyStr.Strip(hfToken.value)))
      && (ConfigStore.UrlKey in u <==> !Blank(ollamaUrl))
      && (!Blank(ollamaUrl) ==> u[ConfigStore.UrlKey] == ConfigStore.Text(PyStr.Strip(ollamaUrl.value)))
  {
    var withToken: ConfigStore.Config :=
      if clearToken then map[ConfigStore.TokenKey := ConfigStore.Null]
      else if !Blank(hfToken) then map[ConfigStore.TokenKey := ConfigStore.Text(PyStr.Strip(hfToken.value))]
      else map[];
    var update := if !Blank(ollamaUrl) then withToken[ConfigStore.UrlKey := ConfigStore.Text(PyStr.Strip(ollamaUrl.value))] else withToken;
    assert ConfigStore.TokenKey in update || ConfigStore.UrlKey in update <==> clearToken || !Blank(hfToken) || !Blank(ollamaUrl);
    if update == map[] then SettingsReply(NothingToUpdate, None)
    else SettingsReply(SavedSettings, Some(update))
  }

  /** Clearing the token wins over any token supplied alongside it. */
  lemma ClearTokenWins(hfToken: Input, ollamaUrl: Input)
    ensures SaveSettings(hfToken, ollamaUrl, true) == SaveSettings(None, ollamaUrl, true)
  {
  }

  /** Every string the update carries is stripped and non-empty: saving the
      same values again, as the update now holds them, gives the same
      update. */
  lemma SettingsValuesClean(hfToken: Input, ollamaUrl: Input, clearToken: bool)
    ensures var r := SaveSettings(hfToken, ollamaUrl, clearToken);
      r.applied.Some? ==> forall k :: k in r.applied.value && r.applied.value[k].Text? ==>
        var v := r.applied.value[k].s;
        v != [] && PyStr.Strip(v) == v
    ensures var r := SaveSettings(hfToken, ollamaUrl, false);
      var tok := if hfToken.Some? then Some(PyStr.Strip(hfToken.value)) else None;
      var url := if ollamaUrl.Some? then Some(PyStr.Strip(ollamaUrl.value)) else None;
      SaveSettings(tok, url, false) == r
  {
    if hfToken.Some? {
      PyStr.StripIdempotent(hfToken.value);
    }
    if ollamaUrl.Some? {
      PyStr.StripIdempotent(ollamaUrl.value);
    }
  }

  // ---------------------------------------------------------------------
  // _create_ollama_model

  const DefaultBase: string := "llama3"

  /** What `_create_ollama_model` does: refuse without a model name, or ask
      Ollama at `url` to create `name` from `modelfile`. The reply of that
      call, or the text of its exception, is returned as is and is not
      modelled. */
  datatype CreateRequest = NameRequired | Create(url: string, name: string, modelfile: string)

  /** The model the `FROM` line names: the stripped base, or `llama3`. */
  function BaseOf(fromBase: Input): string {
    var b := PyStr.Strip(fromBase.GetOr(""));
    if b == [] then DefaultBase else b
  }

  /** The Modelfile text: the `FROM` line, then a `TEMPLATE` line when a
      non-blank template was given. */
  function ModelfileText(fromBase: Input, template: Input): string {
    "FROM " + BaseOf(fromBase) + "\n"
      + (if Blank(template) then "" else "TEMPLATE \"" + PyStr.Strip(template.value) + "\"\n")
  }

  /** `_create_ollama_model(ollama_url, model_name, from_base, template_text)`
      up to the Ollama call; `settingsUrl` is `settings.ollama_url`. */
  function CreateOllamaModel(ollamaUrl: Input, settingsUrl: string, modelName: Input, fromBase: Input, template: Input): CreateRequest {
    if modelName.None? || modelName.value == [] then NameRequired
    else
      var url := if ollamaUrl.Some? && ollamaUrl.value != [] then ollamaUrl.value else settingsUrl;
      Create(url, modelName.value, ModelfileText(fromBase, template))
  }

  /** The `FROM` line always names a model: never blank, already stripped. */
  lemma BaseNeverBlank(fromBase: Input)
    ensures BaseOf(fromBase) != [] && PyStr.Strip(BaseOf(fromBase)) == BaseOf(fromBase)
    ensures !Blank(fromBase) ==> BaseOf(fromBase) == PyStr.Strip(fromBase.value)
  {
    PyStr.StripIdempotent(fromBase.GetOr(""));
    var d := DefaultBase;
    assert PyStr.LStrip(d) == d;
    assert PyStr.RStrip(d) == d;
  }

  /** Read back line by line, the Modelfile is the `FROM` line, the
      `TEMPLATE` line exactly when the template is not blank, and the empty
      remainder after the final newline. */
  lemma ModelfileLines(fromBase: Input, template: Input)
    requires '\n' !in BaseOf(fromBase)
    requires template.Some? ==> '\n' !in PyStr.Strip(template.value)
    ensures PyStr.Split(ModelfileText(fromBase, template), '\n')
         == ["FROM " + BaseOf(fromBase)]
            + (if Blank(template) then [] else ["TEMPLATE \"" + PyStr.Strip(template.value) + "\""])
            + [""]
  {
    var from := "FROM " + BaseOf(fromBase);
    assert '\n' !in from by {
      assert forall i :: 5 <= i < |from| ==> from[i] == BaseOf(fromBase)[i - 5];
    }
    if Blank(template) {
      assert ModelfileText(fromBase, template) == from + ['\n'] + "";
      PyStr.SplitAfter(from, '\n', "");
    } else {
      var t := "TEMPLATE \"" + PyStr.Strip(template.value) + "\"";
      assert '\n' !in t by {
        assert forall i :: 10 <= i < |t| - 1 ==> t[i] == PyStr.Strip(template.value)[i - 10];
      }
      assert ModelfileText(fromBase, template) == from + ['\n'] + (t + ['\n'] + "");
      PyStr.SplitAfter(from, '\n', t + ['\n'] + "");
      PyStr.SplitAfter(t, '\n', "");
    }
  }

  /** The request `_create_ollama_model` makes: none without a model name;
      otherwise the name as given, the form's URL unless it is empty, and a
      Modelfile that opens with the `FROM` line of a never-blank base and
      ends with a newline, adds a `TEMPLATE` line exactly when the template
      is not blank, and reads back line by line as those lines. */
  lemma CreateOllamaModelRequest(ollamaUrl: Input, settingsUrl: string, modelName: Input, fromBase: Input, template: Input)
    ensures var r := CreateOllamaModel(ollamaUrl, settingsUrl, modelName, fromBase, template);
      && (r.NameRequired? <==> modelName.None? || modelName.value == [])
      && (r.Create? ==>
          && r.name == modelName.value
          && (ollamaUrl.Some? && ollamaUrl.value != [] ==> r.url == ollamaUrl.value)
          && (ollamaUrl.None? || ollamaUrl.value == [] ==> r.url == settingsUrl)
          && var head := "FROM " + BaseOf(fromBase) + "\n";
          && BaseOf(fromBase) != []
          && |head| <= |r.modelfile| && r.modelfile[..|head|] == head
          && r.modelfile[|r.modelfile| - 1] == '\n'
          && (Blank(template) <==> r.modelfile == head)
          && ('\n' !in BaseOf(fromBase) && (template.Some? ==> '\n' !in PyStr.Strip(template.value)) ==>
                PyStr.Split(r.modelfile, '\n')
                == ["FROM " + BaseOf(fromBase)]
                   + (if Blank(template) then [] else ["TEMPLATE \"" + PyStr.Strip(template.value) + "\""])
                   + [""]))
  {
    BaseNeverBlank(fromBase);
    var text := ModelfileText(fromBase, template);
    var head := "FROM " + BaseOf(fromBase) + "\n";
    assert text[..|head|] == head;
    if !Blank(template) {
      assert |text| > |head|;
    }
    if '\n' !in BaseOf(fromBase) && (template.Some? ==> '\n' !in PyStr.Strip(template.value)) {
      ModelfileLines(fromBase, template);
    }
  }

  // ---------------------------------------------------------------------
  // _job_status

  /** Log lines the status view shows. */
  const StatusTail: nat := 500

  /** `_job_status(job_id)`: `("not-found", "")` for an unknown id,
      otherwise the status and the last 500 log lines, one per line. */
  function JobStatus<P>(reg: AppJobs.Registry<P>, id: string): (r: (string, string))
    ensures id !in reg.jobs ==> r == ("not-found", "")
    ensures id in reg.jobs ==> r.0 == AppJobs.StatusText(reg.jobs[id].status)
    ensures id in reg.jobs && reg.jobs[id].logs == [] ==> r.1 == ""
  {
    match AppJobs.GetJob(reg, id)
    case None => ("not-found", "")
    case Some(job) => (AppJobs.StatusText(job.status), PyStr.Join(PyStr.Tail(job.logs, StatusTail), "\n"))
  }

  /** A job that has logged nothing yet shows the empty text. Otherwise,
      split back on newlines, the text shown is exactly the most recent 500
      log lines (all of them when there are fewer), provided no line holds
      a newline itself. */
  lemma JobStatusShowsTail<P>(reg: AppJobs.Registry<P>, id: string)
    requires id in reg.jobs
    requires forall i :: 0 <= i < |reg.jobs[id].logs| ==> '\n' !in reg.jobs[id].logs[i]
    ensures reg.jobs[id].logs == [] ==> JobStatus(reg, id).1 == ""
    ensures reg.jobs[id].logs != [] ==>
      var lines := PyStr.Split(JobStatus(reg, id).1, '\n');
      var logs := reg.jobs[id].logs;
      && |lines| == (if |logs| <= StatusTail then |logs| else StatusTail)
      && lines == logs[|logs| - |lines|..]
  {
    if reg.jobs[id].logs == [] {
      return;
    }
    var logs := reg.jobs[id].logs;
    var t := PyStr.Tail(logs, StatusTail);
    assert forall i :: 0 <= i < |t| ==> t[i] == logs[|logs| - |t| + i];
    PyStr.JoinSplit(t, '\n');
  }

  // ---------------------------------------------------------------------
  // The `_task` wrappers of _start_finetune and _start_merge

  const FailedPrefix: string := "Failed: "

  /** `_task(j)`: run the job body; if it raises, log `Failed: <e>` with
      timestamp `ts` and mark the job `failed`. The wrapper never lets an
      `Exception` out. */
  function CatchFailures<P>(o: Outcome<AppJobs.Job<P>>, ts: string): (r: Outcome<AppJobs.Job<P>>)
    ensures r.Returned?
  {
    match o
    case Returned(j) => Returned(j)
    case Raised(j, msg) => Returned(AppJobs.Log(j, ts, FailedPrefix + msg).(status := AppJobs.Failed))
  }

  /** The `_task` closure around a job body. */
  function Wrapped<P>(body: AppJobs.Job<P> -> Outcome<AppJobs.Job<P>>, ts: string): AppJobs.Job<P> -> Outcome<AppJobs.Job<P>> {
    j => CatchFailures(body(j), ts)
  }

  /** A job body that runs the script `steps`. */
  function ScriptBody<P>(clock: nat -> string, first: nat, steps: seq<LibSteps.Step>, fails: LibSteps.Failures)
    : AppJobs.Job<P> -> Outcome<AppJobs.Job<P>>
  {
    j => LibSteps.Exec(j, clock, first, steps, fails)
  }

  /** A wrapped body run by `run_in_thread`: if the body raised, the job ends
      `failed` with `Failed: <e>` as its newest line and no `Exception: ...`
      line; if it returned, having left the status alone, the job ends
      `completed`. Either way both times are stamped. */
  lemma CaughtRun<P>(job: AppJobs.Job<P>, start: AppJobs.Instant, end: AppJobs.Instant, ts: string, wrapTs: string,
                     body: AppJobs.Job<P> -> Outcome<AppJobs.Job<P>>)
    requires body(AppJobs.Started(job, start)).state.status == AppJobs.Running
    requires body(AppJobs.Started(job, start)).state.startTime == Some(start)
    ensures var o := body(AppJobs.Started(job, start));
      var r := AppJobs.Run(job, start, end, wrapTs, Wrapped(body, ts));
      && (r.status == AppJobs.Failed <==> o.Raised?)
      && (r.status == AppJobs.Completed <==> o.Returned?)
      && r.logs == (if o.Raised? then AppJobs.AppendLine(o.state.logs, ts, FailedPrefix + o.message) else o.state.logs)
      && r.startTime == Some(start) && r.endTime == Some(end)
  {
  }

  /** A fresh job whose wrapped body is a script: it ends `failed` exactly
      when one of the script's library calls raised, with `Failed: <e>` as
      its newest line after the lines the script logged; otherwise it ends
      `completed` with the script's lines. */
  lemma CaughtScript<P>(job: AppJobs.Job<P>, start: AppJobs.Instant, end: AppJobs.Instant, ts: string, wrapTs: string,
                        clock: nat -> string, first: nat, steps: seq<LibSteps.Step>, fails: LibSteps.Failures)
    requires job.logs == []
    ensures var r := AppJobs.Run(job, start, end, wrapTs, Wrapped(ScriptBody(clock, first, steps, fails), ts));
      var logged := AppJobs.Recent(LogLine.Stamped(clock, first, LibSteps.Logged(steps, fails)));
      var k := LibSteps.Stop(steps, fails);
      && (r.status == AppJobs.Failed <==> k < |steps|)
      && (r.status == AppJobs.Completed <==> k == |steps|)
      && r.logs == (if k < |steps| then AppJobs.AppendLine(logged, ts, FailedPrefix + fails(steps[k].name).value) else logged)
      && r.startTime == Some(start) && r.endTime == Some(end)
  {
    var s := AppJobs.Started(job, start);
    LibSteps.ExecMatchesTranscript(s, clock, first, steps, fails);
    LibSteps.ExecOnlyLogs(s, clock, first, steps, fails);
    LibSteps.ExecLogs(s, clock, first, steps, fails);
    assert s.logs + LogLine.Stamped(clock, first, LibSteps.Logged(steps, fails)) == LogLine.Stamped(clock, first, LibSteps.Logged(steps, fails));
    CaughtRun(job, start, end, ts, wrapTs, ScriptBody(clock, first, steps, fails));
  }

  /** The fields of the fine-tune form the model keeps. */
  datatype FinetuneForm = FinetuneForm(baseModelId: Input, dataset: Input, textField: Input, outDir: Input)

  /** `str(out_dir).strip() or None`. */
  function OptionalDir(outDir: Input): Option<string> {
    var d := PyStr.Strip(StrOf(outDir));
    if d == [] then None else Some(d)
  }

  /** The `FinetuneConfig` `_start_finetune` builds from the form. */
  function FinetuneConfigOf(form: FinetuneForm): Finetune.FinetuneConfig {
    var field := if form.textField.None? || form.textField.value == [] then "text" else form.textField.value;
    Finetune.FinetuneConfig(
      PyStr.Strip(StrOf(form.baseModelId)),
      PyStr.Strip(StrOf(form.dataset)),
      PyStr.Strip(field),
      OptionalDir(form.outDir))
  }

  /** A blank output-directory field selects the default directory. */
  lemma BlankOutDirUsesDefault(form: FinetuneForm, outputsDir: string)
    requires form.outDir.Some? && PyStr.IsBlank(form.outDir.value)
    ensures var cfg := FinetuneConfigOf(form);
      Finetune.OutputDir(cfg, outputsDir)
      == PyPath.Join(outputsDir, "lora_" + PyStr.FlattenRepoId(cfg.baseModelId))
  {
  }

  /** The target `_start_finetune` hands to `run_in_thread`: `_task`
      around `run_finetune(j, cfg)`. */
  function FinetuneTask<P>(cfg: Finetune.FinetuneConfig, outputsDir: string, kind: Finetune.PathKind,
                           clock: nat -> string, first: nat, ts: string, fails: LibSteps.Failures)
    : AppJobs.Job<P> -> Outcome<AppJobs.Job<P>>
  {
    Wrapped(ScriptBody(clock, first, Finetune.FinetuneSteps(cfg, outputsDir, kind), fails), ts)
  }

  /** `create_job(kind, params)` followed by `run_in_thread(job, task)`,
      once the thread has finished: the job is created under `id`, run, and
      left in the registry; `id` is returned. */
  function StartJob<P>(reg: AppJobs.Registry<P>, id: string, kind: string, params: P,
                       task: AppJobs.Job<P> -> Outcome<AppJobs.Job<P>>,
                       start: AppJobs.Instant, end: AppJobs.Instant, wrapTs: string)
    : (r: (AppJobs.Registry<P>, string))
    ensures r.1 == id && id in r.0.jobs
    ensures r.0.jobs[id] == AppJobs.Run(AppJobs.NewJob(id, kind, params), start, end, wrapTs, task)
    ensures forall other :: other != id ==> AppJobs.GetJob(r.0, other) == AppJobs.GetJob(reg, other)
    ensures AppJobs.Valid(reg) ==> AppJobs.Valid(r.0)
  {
    var (reg1, job) := AppJobs.CreateJob(reg, id, kind, params);
    (AppJobs.Replace(reg1, id, AppJobs.Run(job, start, end, wrapTs, task)), id)
  }

  /** A job started on a wrapped script ends `failed` exactly when one of
      the script's library calls raised, with `Failed: <e>` as its newest
      line after the lines the script logged; otherwise it ends `completed`
      with the script's lines. */
  lemma ScriptJobOutcome<P>(reg: AppJobs.Registry<P>, id: string, kind: string, params: P,
                            start: AppJobs.Instant, end: AppJobs.Instant, clock: nat -> string, first: nat,
                            steps: seq<LibSteps.Step>, fails: LibSteps.Failures, ts: string, wrapTs: string)
    ensures var task := Wrapped(ScriptBody(clock, first, steps, fails), ts);
      var job := StartJob(reg, id, kind, params, task, start, end, wrapTs).0.jobs[id];
      var logged := AppJobs.Recent(LogLine.Stamped(clock, first, LibSteps.Logged(steps, fails)));
      var k := LibSteps.Stop(steps, fails);
      && (job.status == AppJobs.Failed <==> k < |steps|)
      && (job.status == AppJobs.Completed <==> k == |steps|)
      && job.logs == (if k < |steps| then AppJobs.AppendLine(logged, ts, FailedPrefix + fails(steps[k].name).value) else logged)
      && job.startTime == Some(start) && job.endTime == Some(end)
  {
    CaughtScript(AppJobs.NewJob(id, kind, params), start, end, ts, wrapTs, clock, first, steps, fails);
  }

  /** `_start_finetune(...)` once its thread has finished. */
  function StartFinetune<P>(reg: AppJobs.Registry<P>, id: string, form: FinetuneForm, params: P,
                            outputsDir: string, kind: Finetune.PathKind, start: AppJobs.Instant, end: AppJobs.Instant,
                            clock: nat -> string, first: nat, ts: string, wrapTs: string, fails: LibSteps.Failures)
    : (AppJobs.Registry<P>, string)
  {
    StartJob(reg, id, "finetune", params, FinetuneTask(FinetuneConfigOf(form), outputsDir, kind, clock, first, ts, fails), start, end, wrapTs)
  }

  /** A job whose script raised after logging `notes` ends `failed`, its
      log the notes followed by `Failed: <e>`. */
  lemma RaisedScriptFails<P>(reg: AppJobs.Registry<P>, id: string, kind: string, params: P, steps: seq<LibSteps.Step>,
                             start: AppJobs.Instant, end: AppJobs.Instant, clock: nat -> string, first: nat,
                             notes: seq<string>, msg: string, ts: string, wrapTs: string, fails: LibSteps.Failures)
    requires var s := AppJobs.Started(AppJobs.NewJob(id, kind, params), start);
      LibSteps.Exec(s, clock, first, steps, fails) == Raised(AppJobs.LogAll(s, clock, first, notes), msg)
    ensures var job := StartJob(reg, id, kind, params, Wrapped(ScriptBody(clock, first, steps, fails), ts), start, end, wrapTs).0.jobs[id];
      && job.status == AppJobs.Failed
      && job.logs == AppJobs.AppendLine(AppJobs.AppendLines([], clock, first, notes), ts, FailedPrefix + msg)
  {
    CaughtRun(AppJobs.NewJob(id, kind, params), start, end, ts, wrapTs, ScriptBody(clock, first, steps, fails));
  }

  /** A job whose script opens with a log line and a guarded import that
      fails ends `failed`: that line, the import's note, then `Failed: <e>`. */
  lemma GuardedScriptFails<P>(reg: AppJobs.Registry<P>, id: string, kind: string, params: P, steps: seq<LibSteps.Step>,
                              start: AppJobs.Instant, end: AppJobs.Instant, clock: nat -> string, first: nat,
                              ts: string, wrapTs: string, fails: LibSteps.Failures)
    requires |steps| >= 2 && steps[0].Say? && steps[1].Guarded? && fails(steps[1].name).Some?
    ensures var job := StartJob(reg, id, kind, params, Wrapped(ScriptBody(clock, first, steps, fails), ts), start, end, wrapTs).0.jobs[id];
      && job.status == AppJobs.Failed
      && job.logs == AppJobs.AppendLine(AppJobs.AppendLines([], clock, first, [steps[0].msg, steps[1].note]),
                                        ts, FailedPrefix + fails(steps[1].name).value)
  {
    var s := AppJobs.Started(AppJobs.NewJob(id, kind, params), start);
    LibSteps.ExecGuardedHead(s, clock, first, steps, fails);
    RaisedScriptFails(reg, id, kind, params, steps, start, end, clock, first,
                      [steps[0].msg, steps[1].note], fails(steps[1].name).value, ts, wrapTs, fails);
  }

  /** A fine-tune job whose training libraries cannot be imported ends
      `failed`: start line, installation hint, then `Failed: <e>`, and no
      `Exception: ...` line. */
  lemma FinetuneImportFailureMarksFailed<P>(reg: AppJobs.Registry<P>, id: string, cfg: Finetune.FinetuneConfig, params: P,
                                            outputsDir: string, kind: Finetune.PathKind, start: AppJobs.Instant,
                                            end: AppJobs.Instant, clock: nat -> string, first: nat, ts: string,
                                            wrapTs: string, fails: LibSteps.Failures)
    requires fails(Finetune.ImportCall).Some?
    ensures var task := FinetuneTask(cfg, outputsDir, kind, clock, first, ts, fails);
      var job := StartJob(reg, id, "finetune", params, task, start, end, wrapTs).0.jobs[id];
      && job.status == AppJobs.Failed
      && job.logs == AppJobs.AppendLine(
           AppJobs.AppendLines([], clock, first, [Finetune.StartNote, Finetune.ImportNote]),
           ts, FailedPrefix + fails(Finetune.ImportCall).value)
  {
    var steps := Finetune.FinetuneSteps(cfg, outputsDir, kind);
    assert steps[0] == LibSteps.Say(Finetune.StartNote) && steps[1] == LibSteps.Guarded(Finetune.ImportCall, Finetune.ImportNote);
    GuardedScriptFails(reg, id, "finetune", params, steps, start, end, clock, first, ts, wrapTs, fails);
  }

  /** The fields of the merge form. */
  datatype MergeForm = MergeForm(baseModelId: Input, adapterDir: Input, outDir: Input, torchDtype: Input)

  /** The `MergeConfig` `_start_merge` builds from the form. */
  function MergeConfigOf(form: MergeForm): Merge.MergeConfig {
    var dtype := if form.torchDtype.None? || form.torchDtype.value == [] then Merge.DefaultDtype else form.torchDtype.value;
    Merge.MergeConfig(
      PyStr.Strip(StrOf(form.baseModelId)),
      PyStr.Strip(StrOf(form.adapterDir)),
      OptionalDir(form.outDir),
      PyStr.Strip(dtype))
  }

  /** The target `_start_merge` hands to `run_in_thread`: `_task` around
      `run_merge(j, cfg)`. */
  function MergeTask<P>(cfg: Merge.MergeConfig, outputsDir: string, clock: nat -> string, first: nat, ts: string,
                        fails: LibSteps.Failures)
    : AppJobs.Job<P> -> Outcome<AppJobs.Job<P>>
  {
    Wrapped(ScriptBody(clock, first, Merge.MergeSteps(cfg, outputsDir), fails), ts)
  }

  /** `_start_merge(...)` once its thread has finished. */
  function StartMerge<P>(reg: AppJobs.Registry<P>, id: string, form: MergeForm, params: P, outputsDir: string,
                         start: AppJobs.Instant, end: AppJobs.Instant, clock: nat -> string, first: nat,
                         ts: string, wrapTs: string, fails: LibSteps.Failures)
    : (AppJobs.Registry<P>, string)
  {
    StartJob(reg, id, "merge", params, MergeTask(MergeConfigOf(form), outputsDir, clock, first, ts, fails), start, end, wrapTs)
  }

  /** A merge job whose imports fail ends `failed`: start line, installation
      hint, then `Failed: <e>`, and no `Exception: ...` line. */
  lemma MergeImportFailureMarksFailed<P>(reg: AppJobs.Registry<P>, id: string, cfg: Merge.MergeConfig, params: P,
                                         outputsDir: string, start: AppJobs.Instant, end: AppJobs.Instant,
                                         clock: nat -> string, first: nat, ts: string, wrapTs: string,
                                         fails: LibSteps.Failures)
    requires fails(Merge.ImportCall).Some?
    ensures var task := MergeTask(cfg, outputsDir, clock, first, ts, fails);
      var job := StartJob(reg, id, "merge", params, task, start, end, wrapTs).0.jobs[id];
      && job.status == AppJobs.Failed
      && job.logs == AppJobs.AppendLine(
           AppJobs.AppendLines([], clock, first, [Merge.StartNote, Merge.ImportNote]),
           ts, FailedPrefix + fails(Merge.ImportCall).value)
  {
    var steps := Merge.MergeSteps(cfg, outputsDir);
    assert steps[0] == LibSteps.Say(Merge.StartNote) && steps[1] == LibSteps.Guarded(Merge.ImportCall, Merge.ImportNote);
    GuardedScriptFails(reg, id, "merge", params, steps, start, end, clock, first, ts, wrapTs, fails);
  }
}

=== FILE: effects.dfy ===
/** The backend's pipeline stages mutate a job and write files one statement
    at a time. Each stage is modelled as the list of those statements, an
    effect script, and `Apply` runs a script against a job and the part of
    the filesystem the stages touch. The projections below (`Messages`,
    `ProgressValues`, `ArtifactValue`, ...) read a script's observable
    history, and the `Apply...` lemmas tie each projection to what running
    the script does, so that properties of a stage can be stated about its
    script and carried over to the job. */
module Effects {
  import opened Wrappers
  import LogLine
  import FactoryJobs

  datatype Effect =
    | Log(msg: string)                          // job.log(msg)
    | SetProgress(percent: nat)                 // job.progress = percent
    | SetArtifact(key: string, item: string)    // job.artifacts[key] = item
    | SetError(message: string)                 // job.error = message
    | MakeDir(path: string)                     // os.makedirs(path, exist_ok=True)
    | WriteFile(path: string, content: string)  // open(path, "w").write(content)

  /** The directories and regular files that exist, with their contents. */
  datatype Fs = Fs(dirs: set<string>, files: map<string, string>)

  datatype World<P> = World(job: FactoryJobs.Job<P>, fs: Fs)

  function Step<P>(w: World<P>, clock: FactoryJobs.Clock, e: Effect): World<P> {
    match e
    case Log(m) => w.(job := FactoryJobs.Log(w.job, clock, m))
    case SetProgress(p) => w.(job := w.job.(progress := p))
    case SetArtifact(k, v) => w.(job := w.job.(artifacts := w.job.artifacts[k := v]))
    case SetError(m) => w.(job := w.job.(error := Some(m)))
    case MakeDir(p) => w.(fs := w.fs.(dirs := w.fs.dirs + {p}))
    case WriteFile(p, c) => w.(fs := w.fs.(files := w.fs.files[p := c]))
  }

  /** The world after the statements `es`, in order. */
  function Apply<P>(w: World<P>, clock: FactoryJobs.Clock, es: seq<Effect>): World<P>
    decreases |es|
  {
    if es == [] then w else Apply(Step(w, clock, es[0]), clock, es[1..])
  }

  /** Running two scripts back to back is running their concatenation. */
  lemma {:induction false} ApplyAppend<P>(w: World<P>, clock: FactoryJobs.Clock, a: seq<Effect>, b: seq<Effect>)
    ensures Apply(w, clock, a + b) == Apply(Apply(w, clock, a), clock, b)
    decreases |a|
  {
    if a != [] {
      assert (a + b)[0] == a[0] && (a + b)[1..] == a[1..] + b;
      ApplyAppend(Step(w, clock, a[0]), clock, a[1..], b);
    } else {
      assert a + b == b;
    }
  }

  // ---- Projections of a script -------------------------------------------

  /** The messages a script logs, in order. */
  function Messages(es: seq<Effect>): seq<string>
    decreases |es|
  {
    if es == [] then []
    else (if es[0].Log? then [es[0].msg] else []) + Messages(es[1..])
  }

  /** The values a script assigns to `progress`, in order. */
  function ProgressValues(es: seq<Effect>): seq<nat>
    decreases |es|
  {
    if es == [] then []
    else (if es[0].SetProgress? then [es[0].percent] else []) + ProgressValues(es[1..])
  }

  /** The value a script last assigns to artifact `k`, if any. */
  function ArtifactValue(es: seq<Effect>, k: string): Option<string>
    decreases |es|
  {
    if es == [] then None
    else ArtifactValue(es[1..], k).Or(if es[0].SetArtifact? && es[0].key == k then Some(es[0].item) else None)
  }

  /** The message a script last assigns to `error`, if any. */
  function ErrorValue(es: seq<Effect>): Option<string>
    decreases |es|
  {
    if es == [] then None
    else ErrorValue(es[1..]).Or(if es[0].SetError? then Some(es[0].message) else None)
  }

  /** The content a script last writes to file `p`, if any. */
  function FileValue(es: seq<Effect>, p: string): Option<string>
    decreases |es|
  {
    if es == [] then None
    else FileValue(es[1..], p).Or(if es[0].WriteFile? && es[0].path == p then Some(es[0].content) else None)
  }

  /** The directories a script creates. */
  function DirsMade(es: seq<Effect>): set<string>
    decreases |es|
  {
    if es == [] then {} else (if es[0].MakeDir? then {es[0].path} else {}) + DirsMade(es[1..])
  }

  ghost predicate NonDecreasing(xs: seq<nat>) {
    forall i, j :: 0 <= i < j < |xs| ==> xs[i] <= xs[j]
  }

  /** `progress` after a script that starts at `p0`. */
  function FinalProgress(p0: nat, es: seq<Effect>): nat {
    var vs := ProgressValues(es);
    if vs == [] then p0 else vs[|vs| - 1]
  }

  // ---- Projections distribute over concatenation ---------------------------

  lemma {:induction false} MessagesAppend(a: seq<Effect>, b: seq<Effect>)
    ensures Messages(a + b) == Messages(a) + Messages(b)
    decreases |a|
  {
    if a != [] {
      assert (a + b)[0] == a[0] && (a + b)[1..] == a[1..] + b;
      MessagesAppend(a[1..], b);
    } else {
      assert a + b == b;
    }
  }

  lemma {:induction false} ProgressValuesAppend(a: seq<Effect>, b: seq<Effect>)
    ensures ProgressValues(a + b) == ProgressValues(a) + ProgressValues(b)
    decreases |a|
  {
    if a != [] {
      assert (a + b)[0] == a[0] && (a + b)[1..] == a[1..] + b;
      ProgressValuesAppend(a[1..], b);
    } else {
      assert a + b == b;
    }
  }

  lemma {:induction false} ArtifactValueAppend(a: seq<Effect>, b: seq<Effect>, k: string)
    ensures ArtifactValue(a + b, k) == ArtifactValue(b, k).Or(ArtifactValue(a, k))
    decreases |a|
  {
    if a != [] {
      assert (a + b)[0] == a[0] && (a + b)[1..] == a[1..] + b;
      ArtifactValueAppend(a[1..], b, k);
    } else {
      assert a + b == b;
    }
  }

  lemma {:induction false} ErrorValueAppend(a: seq<Effect>, b: seq<Effect>)
    ensures ErrorValue(a + b) == ErrorValue(b).Or(ErrorValue(a))
    decreases |a|
  {
    if a != [] {
      assert (a + b)[0] == a[0] && (a + b)[1..] == a[1..] + b;
      ErrorValueAppend(a[1..], b);
    } else {
      assert a + b == b;
    }
  }

  lemma {:induction false} FileValueAppend(a: seq<Effect>, b: seq<Effect>, p: string)
    ensures FileValue(a + b, p) == FileValue(b, p).Or(FileValue(a, p))
    decreases |a|
  {
    if a != [] {
      assert (a + b)[0] == a[0] && (a + b)[1..] == a[1..] + b;
      FileValueAppend(a[1..], b, p);
    } else {
      assert a + b == b;
    }
  }

  lemma {:induction false} DirsMadeAppend(a: seq<Effect>, b: seq<Effect>)
    ensures DirsMade(a + b) == DirsMade(a) + DirsMade(b)
    decreases |a|
  {
    if a != [] {
      assert (a + b)[0] == a[0] && (a + b)[1..] == a[1..] + b;
      DirsMadeAppend(a[1..], b);
    } else {
      assert a + b == b;
    }
  }

  /** Every projection of `a + b`, split at the seam. */
  lemma ProjectionsAppend(a: seq<Effect>, b: seq<Effect>)
    ensures Messages(a + b) == Messages(a) + Messages(b)
    ensures ProgressValues(a + b) == ProgressValues(a) + ProgressValues(b)
    ensures forall k :: ArtifactValue(a + b, k) == ArtifactValue(b, k).Or(ArtifactValue(a, k))
    ensures ErrorValue(a + b) == ErrorValue(b).Or(ErrorValue(a))
    ensures forall p :: FileValue(a + b, p) == FileValue(b, p).Or(FileValue(a, p))
    ensures DirsMade(a + b) == DirsMade(a) + DirsMade(b)
  {
    MessagesAppend(a, b);
    ProgressValuesAppend(a, b);
    forall k
      ensures ArtifactValue(a + b, k) == ArtifactValue(b, k).Or(ArtifactValue(a, k))
    {
      ArtifactValueAppend(a, b, k);
    }
    ErrorValueAppend(a, b);
    forall p
      ensures FileValue(a + b, p) == FileValue(b, p).Or(FileValue(a, p))
    {
      FileValueAppend(a, b, p);
    }
    DirsMadeAppend(a, b);
  }

  /** Every projection of `[e] + es`: the head's contribution, then the rest. */
  lemma ProjectionsCons(e: Effect, es: seq<Effect>)
    ensures Messages([e] + es) == (if e.Log? then [e.msg] else []) + Messages(es)
    ensures ProgressValues([e] + es) == (if e.SetProgress? then [e.percent] else []) + ProgressValues(es)
    ensures forall k :: ArtifactValue([e] + es, k) == ArtifactValue(es, k).Or(if e.SetArtifact? && e.key == k then Some(e.item) else None)
    ensures ErrorValue([e] + es) == ErrorValue(es).Or(if e.SetError? then Some(e.message) else None)
    ensures forall p :: FileValue([e] + es, p) == FileValue(es, p).Or(if e.WriteFile? && e.path == p then Some(e.content) else None)
    ensures DirsMade([e] + es) == (if e.MakeDir? then {e.path} else {}) + DirsMade(es)
  {
    assert ([e] + es)[0] == e && ([e] + es)[1..] == es;
  }

  // ---- What running a script does ------------------------------------------

  lemma StepLogs<P>(w: World<P>, clock: FactoryJobs.Clock, e: Effect)
    ensures e.Log? ==> Step(w, clock, e).job.logs == w.job.logs + [LogLine.Format(clock(|w.job.logs|), e.msg)]
    ensures !e.Log? ==> Step(w, clock, e).job.logs == w.job.logs
  {
  }

  /** One stamped line followed by the rest stamped from the next ordinal
      is the whole list stamped. */
  lemma StampedStep(clock: FactoryJobs.Clock, logs: seq<string>, msgs: seq<string>)
    requires msgs != []
    ensures (logs + [LogLine.Format(clock(|logs|), msgs[0])]) + LogLine.Stamped(clock, |logs| + 1, msgs[1..])
         == logs + LogLine.Stamped(clock, |logs|, msgs)
  {
    LogLine.StampedCons(clock, |logs|, msgs);
  }

  /** The log grows by exactly the script's messages, stamped in order. */
  lemma {:induction false} ApplyLogs<P>(w: World<P>, clock: FactoryJobs.Clock, es: seq<Effect>)
    ensures Apply(w, clock, es).job.logs == w.job.logs + LogLine.Stamped(clock, |w.job.logs|, Messages(es))
    decreases |es|
  {
    if es == [] {
      assert w.job.logs + LogLine.Stamped(clock, |w.job.logs|, []) == w.job.logs;
    } else {
      var w1 := Step(w, clock, es[0]);
      ApplyLogs(w1, clock, es[1..]);
      StepLogs(w, clock, es[0]);
      if es[0].Log? {
        assert Messages(es) == [es[0].msg] + Messages(es[1..]);
        StampedStep(clock, w.job.logs, Messages(es));
      } else {
        assert Messages(es) == Messages(es[1..]);
      }
    }
  }

  /** `progress` ends at the last value the script assigns, or where it was. */
  lemma {:induction false} ApplyProgress<P>(w: World<P>, clock: FactoryJobs.Clock, es: seq<Effect>)
    ensures Apply(w, clock, es).job.progress == FinalProgress(w.job.progress, es)
    decreases |es|
  {
    if es != [] {
      ApplyProgress(Step(w, clock, es[0]), clock, es[1..]);
    }
  }

  /** Each artifact ends with the value the script last gave it, and an
      artifact the script never assigns keeps its old value (or absence). */
  lemma {:induction false} ApplyArtifacts<P>(w: World<P>, clock: FactoryJobs.Clock, es: seq<Effect>, k: string)
    ensures Lookup(Apply(w, clock, es).job.artifacts, k) == ArtifactValue(es, k).Or(Lookup(w.job.artifacts, k))
    decreases |es|
  {
    if es != [] {
      ApplyArtifacts(Step(w, clock, es[0]), clock, es[1..], k);
    }
  }

  /** `error` ends with the last message the script assigns, or as it was. */
  lemma {:induction false} ApplyError<P>(w: World<P>, clock: FactoryJobs.Clock, es: seq<Effect>)
    ensures Apply(w, clock, es).job.error == ErrorValue(es).Or(w.job.error)
    decreases |es|
  {
    if es != [] {
      ApplyError(Step(w, clock, es[0]), clock, es[1..]);
    }
  }

  /** Each file ends with the content the script last wrote to it, or as it
      was; the directories made are added. */
  lemma {:induction false} ApplyFs<P>(w: World<P>, clock: FactoryJobs.Clock, es: seq<Effect>, p: string)
    ensures Lookup(Apply(w, clock, es).fs.files, p) == FileValue(es, p).Or(Lookup(w.fs.files, p))
    ensures Apply(w, clock, es).fs.dirs == w.fs.dirs + DirsMade(es)
    decreases |es|
  {
    if es != [] {
      ApplyFs(Step(w, clock, es[0]), clock, es[1..], p);
    }
  }

  /** A script never touches a job's identity, status or timestamps. */
  lemma {:induction false} ApplyKeepsIdentity<P>(w: World<P>, clock: FactoryJobs.Clock, es: seq<Effect>)
    ensures var j := Apply(w, clock, es).job;
      && j.id == w.job.id && j.kind == w.job.kind && j.payload == w.job.payload
      && j.status == w.job.status && j.startedAt == w.job.startedAt && j.finishedAt == w.job.finishedAt
    decreases |es|
  {
    if es != [] {
      ApplyKeepsIdentity(Step(w, clock, es[0]), clock, es[1..]);
    }
  }

  /** A script whose projections are all empty leaves the job as it was. */
  lemma {:induction false} ApplyQuietScript<P>(w: World<P>, clock: FactoryJobs.Clock, es: seq<Effect>)
    requires Messages(es) == [] && ProgressValues(es) == [] && ErrorValue(es) == None
    requires forall k :: ArtifactValue(es, k) == None
    ensures Apply(w, clock, es).job == w.job
  {
    var j := Apply(w, clock, es).job;
    ApplyLogs(w, clock, es);
    ApplyProgress(w, clock, es);
    ApplyError(w, clock, es);
    ApplyKeepsIdentity(w, clock, es);
    forall k
      ensures Lookup(j.artifacts, k) == Lookup(w.job.artifacts, k)
    {
      ApplyArtifacts(w, clock, es, k);
    }
    assert j.artifacts == w.job.artifacts by {
      forall k
        ensures k in j.artifacts <==> k in w.job.artifacts
      {
        assert Lookup(j.artifacts, k) == Lookup(w.job.artifacts, k);
      }
      forall k | k in j.artifacts
        ensures j.artifacts[k] == w.job.artifacts[k]
      {
        assert Lookup(j.artifacts, k) == Lookup(w.job.artifacts, k);
      }
    }
    assert j.logs == w.job.logs;
  }
}

=== FILE: factory_api.dfy ===
/** The HTTP endpoints of the packaging backend
    (llm-factory-ollama/backend/app/main.py): start a fine-tune, read a job's
    status, export a model, publish it to Ollama, and summarise a model
    directory.

    Each endpoint that starts a job is modelled as the reply it returns and
    the backend as it stands once that job's thread has finished: the job
    manager and the part of the filesystem the stages touch. The task a job
    runs is an effect script (module Effects); `Launch` hands it to the job
    manager's runner. Clocks, uuids, `shutil.which` and the outcome of
    `ollama create` are parameters. */
module FactoryApi {
  import opened Wrappers
  import PyStr
  import PyPath
  import LogLine
  import FactoryJobs
  import opened FactoryConfig
  import opened Effects
  import Stages

  type Job = FactoryJobs.Job<Payload>

  /** The job manager and the files and directories under the working
      directory. */
  datatype Backend = Backend(manager: FactoryJobs.Manager<Payload>, fs: Fs)

  /** A response: a JSON body, or an `HTTPException`. */
  datatype Reply<T> = Accepted(body: T) | HttpError(code: int, detail: string)

  /** The task `es` as the job manager's target: run the script on the job
      it is handed. The stages raise nothing the model keeps (file-system
      failures are not modelled), so the target always returns. */
  function ScriptTarget(fs: Fs, clock: FactoryJobs.Clock, es: seq<Effect>): Job -> Outcome<Job> {
    (j: Job) => Returned(Apply(World(j, fs), clock, es).job)
  }

  /** `manager.create(kind, payload, task)` for a task that is the script
      `es`, once the runner has finished: the manager as `create` leaves it,
      and the filesystem after the script. */
  function Launch(b: Backend, id: string, kind: string, payload: Payload,
                  start: FactoryJobs.Instant, end: FactoryJobs.Instant, clock: FactoryJobs.Clock, es: seq<Effect>): Backend {
    var created := FactoryJobs.Create(b.manager, id, kind, payload, start, end, clock, ScriptTarget(b.fs, clock, es));
    var w := Apply(World(FactoryJobs.NewJob(id, kind, payload), b.fs), clock, es);
    Backend(created.0, w.fs)
  }

  /** The job the runner leaves behind for the script `es`. */
  function RanJob(fs: Fs, id: string, kind: string, payload: Payload,
                  start: FactoryJobs.Instant, end: FactoryJobs.Instant, clock: FactoryJobs.Clock, es: seq<Effect>): Job {
    var w := Apply(World(FactoryJobs.Started(FactoryJobs.NewJob(id, kind, payload), start), fs), clock, es);
    w.job.(status := FactoryJobs.Done, finishedAt := Some(end))
  }

  /** Launching stores the finished job under its id and changes no other
      job; the filesystem gains exactly the script's directories and file
      writes. */
  lemma LaunchStores(b: Backend, id: string, kind: string, payload: Payload,
                     start: FactoryJobs.Instant, end: FactoryJobs.Instant, clock: FactoryJobs.Clock, es: seq<Effect>)
    ensures var b2 := Launch(b, id, kind, payload, start, end, clock, es);
      && FactoryJobs.Get(b2.manager, id) == Some(RanJob(b.fs, id, kind, payload, start, end, clock, es))
      && (forall other :: other != id ==> FactoryJobs.Get(b2.manager, other) == FactoryJobs.Get(b.manager, other))
      && b2.fs.dirs == b.fs.dirs + DirsMade(es)
      && (forall p :: Lookup(b2.fs.files, p) == FileValue(es, p).Or(Lookup(b.fs.files, p)))
  {
    var newJob := FactoryJobs.NewJob(id, kind, payload);
    var w := Apply(World(FactoryJobs.Started(newJob, start), b.fs), clock, es);
    assert ScriptTarget(b.fs, clock, es)(FactoryJobs.Started(newJob, start)) == Returned(w.job);
    var wf := Apply(World(newJob, b.fs), clock, es);
    assert wf.fs.dirs == b.fs.dirs + DirsMade(es) by {
      ApplyFs(World(newJob, b.fs), clock, es, "");
    }
    forall p
      ensures Lookup(wf.fs.files, p) == FileValue(es, p).Or(Lookup(b.fs.files, p))
    {
      ApplyFs(World(newJob, b.fs), clock, es, p);
    }
  }

  /** The finished job is `done`, started and finished at the given
      instants, and holds the script's history: its log is the script's
      messages stamped from the first line on, its progress the last value
      the script assigned (0 if none), its artifacts and error exactly what
      the script set. */
  lemma RanJobState(fs: Fs, id: string, kind: string, payload: Payload,
                    start: FactoryJobs.Instant, end: FactoryJobs.Instant, clock: FactoryJobs.Clock, es: seq<Effect>)
    ensures var j := RanJob(fs, id, kind, payload, start, end, clock, es);
      && j.id == id && j.kind == kind && j.payload == payload
      && j.status == FactoryJobs.Done
      && j.startedAt == Some(start) && j.finishedAt == Some(end)
      && j.progress == FinalProgress(0, es)
      && j.logs == LogLine.Stamped(clock, 0, Messages(es))
      && (forall k :: Lookup(j.artifacts, k) == ArtifactValue(es, k))
      && j.error == ErrorValue(es)
  {
    var w0 := World(FactoryJobs.Started(FactoryJobs.NewJob(id, kind, payload), start), fs);
    var j := RanJob(fs, id, kind, payload, start, end, clock, es);
    ApplyLogs(w0, clock, es);
    assert [] + LogLine.Stamped(clock, 0, Messages(es)) == LogLine.Stamped(clock, 0, Messages(es));
    ApplyProgress(w0, clock, es);
    ApplyError(w0, clock, es);
    ApplyKeepsIdentity(w0, clock, es);
    forall k
      ensures Lookup(j.artifacts, k) == ArtifactValue(es, k)
    {
      ApplyArtifacts(w0, clock, es, k);
    }
  }

  /** The launched job, looked up by its id once it has finished, is the
      job `RanJobState` describes. */
  lemma LaunchedJob(b: Backend, id: string, kind: string, payload: Payload,
                    start: FactoryJobs.Instant, end: FactoryJobs.Instant, clock: FactoryJobs.Clock, es: seq<Effect>)
    ensures var g := FactoryJobs.Get(Launch(b, id, kind, payload, start, end, clock, es).manager, id);
      && g.Some?
      && g.value.status == FactoryJobs.Done
      && g.value.progress == FinalProgress(0, es)
      && (forall k :: Lookup(g.value.artifacts, k) == ArtifactValue(es, k))
      && g.value.error == ErrorValue(es)
      && g.value.logs == LogLine.Stamped(clock, 0, Messages(es))
  {
    LaunchStores(b, id, kind, payload, start, end, clock, es);
    RanJobState(b.fs, id, kind, payload, start, end, clock, es);
  }

  /** `LaunchedJob` read at one artifact key, as a status poll would. */
  lemma LaunchedJobAt(b: Backend, id: string, kind: string, payload: Payload,
                      start: FactoryJobs.Instant, end: FactoryJobs.Instant, clock: FactoryJobs.Clock, es: seq<Effect>,
                      key: string)
    ensures var g := FactoryJobs.Get(Launch(b, id, kind, payload, start, end, clock, es).manager, id);
      && g.Some?
      && g.value.status == FactoryJobs.Done
      && g.value.progress == FinalProgress(0, es)
      && Lookup(g.value.artifacts, key) == ArtifactValue(es, key)
      && g.value.error == ErrorValue(es)
      && g.value.logs == LogLine.Stamped(clock, 0, Messages(es))
  {
    LaunchedJob(b, id, kind, payload, start, end, clock, es);
  }

  /** `repr(s)` of a string without quotes or backslashes in it. */
  function Quoted(s: string): string {
    "'" + s + "'"
  }

  // ---- POST /api/fine-tune ----------------------------------------------------

  /** The trainer dispatch in `start_finetune`'s task, on the method name:
      `lora`, `rlhf` and `dpo` run their own trainer; `full_finetune` and any
      other name log why and fall back to LoRA. */
  function Dispatch(methodName: string, dryRun: bool, now: nat): Stages.Run<string> {
    if methodName == "lora" then Stages.Train(Stages.LoraTrainer(dryRun), now)
    else if methodName == "rlhf" then Stages.Train(Stages.RlhfTrainer, now)
    else if methodName == "dpo" then Stages.Train(Stages.DpoTrainer, now)
    else
      var note := if methodName == "full_finetune" then "Full finetune not implemented; using LoRA fallback"
                  else "Unknown method " + methodName + "; using LoRA fallback";
      var lora := Stages.Train(Stages.LoraTrainer(dryRun), now);
      Stages.Run([Log(note)] + lora.effects, lora.result)
  }

  /** The trainer a method name runs. */
  function TrainerFor(methodName: string, dryRun: bool): Stages.Trainer {
    if methodName == "rlhf" then Stages.RlhfTrainer
    else if methodName == "dpo" then Stages.DpoTrainer
    else Stages.LoraTrainer(dryRun)
  }

  /** The message logged before a LoRA fallback, if any. */
  function FallbackNote(methodName: string): seq<string> {
    if methodName == "lora" || methodName == "rlhf" || methodName == "dpo" then []
    else if methodName == "full_finetune" then ["Full finetune not implemented; using LoRA fallback"]
    else ["Unknown method " + methodName + "; using LoRA fallback"]
  }

  /** The dispatch runs the named trainer (LoRA for every name but `rlhf` and
      `dpo`), preceded only by the fallback note, and returns that trainer's
      model id. */
  lemma DispatchRunsTrainer(methodName: string, dryRun: bool, now: nat)
    ensures var d := Dispatch(methodName, dryRun, now);
      var t := Stages.Train(TrainerFor(methodName, dryRun), now);
      && d.result == t.result
      && Messages(d.effects) == FallbackNote(methodName) + Messages(t.effects)
      && ProgressValues(d.effects) == ProgressValues(t.effects)
      && (forall k :: ArtifactValue(d.effects, k) == ArtifactValue(t.effects, k))
      && ErrorValue(d.effects) == ErrorValue(t.effects)
  {
    var t := Stages.Train(TrainerFor(methodName, dryRun), now);
    if !(methodName == "lora" || methodName == "rlhf" || methodName == "dpo") {
      NoteFirst(FallbackNote(methodName)[0], t.effects);
    }
  }

  /** A logged note before a script adds the note's message and nothing
      else. */
  lemma NoteFirst(note: string, es: seq<Effect>)
    ensures Messages([Log(note)] + es) == [note] + Messages(es)
    ensures ProgressValues([Log(note)] + es) == ProgressValues(es)
    ensures forall k :: ArtifactValue([Log(note)] + es, k) == ArtifactValue(es, k)
    ensures ErrorValue([Log(note)] + es) == ErrorValue(es)
  {
    ProjectionsCons(Log(note), es);
  }

  /** A validated method logs a fallback note only for `full_finetune`; the
      unknown-method note is never reached. */
  lemma FallbackOnlyForFull(m: TuneMethod)
    ensures |FallbackNote(MethodName(m))| == (if m == FullFinetune then 1 else 0)
  {
  }

  /** Whichever trainer a name selects has the five-step schedule, returns
      the id it records as `model_id`, and sets no error. */
  lemma TrainerForFiveSteps(methodName: string, dryRun: bool, now: nat)
    ensures var t := Stages.Train(TrainerFor(methodName, dryRun), now);
      && ProgressValues(t.effects) == [12, 24, 36, 48, 60, 60]
      && ArtifactValue(t.effects, "model_id") == Some(t.result)
      && ErrorValue(t.effects) == None
  {
    var t := TrainerFor(methodName, dryRun);
    Stages.FiveStepSchedule(dryRun, now);
    assert t in {Stages.LoraTrainer(dryRun), Stages.RlhfTrainer, Stages.DpoTrainer};
    Stages.TrainArtifacts(t, now);
  }

  /** The trainer a validated method runs. */
  function TrainerOf(m: TuneMethod, dryRun: bool): Stages.Trainer {
    match m
    case Rlhf => Stages.RlhfTrainer
    case Dpo => Stages.DpoTrainer
    case _ => Stages.LoraTrainer(dryRun)
  }

  /** The dispatch on a validated method: the same branches as `Dispatch`,
      with the unknown-name branch gone. */
  function DispatchOf(m: TuneMethod, dryRun: bool, now: nat): Stages.Run<string> {
    var t := Stages.Train(TrainerOf(m, dryRun), now);
    if m == FullFinetune then Stages.Run([Log("Full finetune not implemented; using LoRA fallback")] + t.effects, t.result)
    else t
  }

  /** Dispatching on a validated method's name is `DispatchOf` it. */
  lemma DispatchOfAgrees(m: TuneMethod, dryRun: bool, now: nat)
    ensures Dispatch(MethodName(m), dryRun, now) == DispatchOf(m, dryRun, now)
    ensures TrainerFor(MethodName(m), dryRun) == TrainerOf(m, dryRun)
  {
  }

  /** The "optional transforms" of `start_finetune`'s task: `resize` then
      `quantize` on the trained model's directory. */
  function Transforms(dir: string, req: FineTuneRequest): seq<Effect> {
    Stages.Resize(dir, req.resizerSettings).effects + Stages.Quantize(dir, QuantName(req.quantizationTarget)).effects
  }

  /** The first and last statements of `start_finetune`'s task. */
  const FineTuneHead: seq<Effect> := [Log("Job started: fine-tune")]
  const FineTuneFoot: seq<Effect> := [Log("Fine-tune complete"), SetProgress(80)]

  /** The script of `start_finetune`'s task. */
  function FineTuneScript(req: FineTuneRequest, now: nat): Stages.Run<string> {
    var trained := DispatchOf(req.fineTuneMethod, req.dryRun, now);
    Stages.Run(FineTuneHead + trained.effects + Transforms(Stages.ModelDir(trained.result), req) + FineTuneFoot,
               trained.result)
  }

  /** What the first and last statements contribute. */
  lemma HeadFootHistory()
    ensures Messages(FineTuneHead) == ["Job started: fine-tune"] && ProgressValues(FineTuneHead) == []
    ensures ArtifactValue(FineTuneHead, "model_id") == None && ErrorValue(FineTuneHead) == None
    ensures Messages(FineTuneFoot) == ["Fine-tune complete"] && ProgressValues(FineTuneFoot) == [80]
    ensures ArtifactValue(FineTuneFoot, "model_id") == None && ErrorValue(FineTuneFoot) == None
  {
    assert FineTuneHead == [FineTuneHead[0]] + [];
    ProjectionsCons(FineTuneHead[0], []);
    var e := FineTuneFoot;
    assert e == [e[0]] + ([e[1]] + []);
    ProjectionsCons(e[1], []);
    ProjectionsCons(e[0], [e[1]] + []);
  }

  /** `POST /api/fine-tune` with `id` for the new job's uuid, `now` for
      `int(time.time())` inside the trainer. */
  function StartFinetune(b: Backend, req: FineTuneRequest, id: string,
                         start: FactoryJobs.Instant, end: FactoryJobs.Instant, clock: FactoryJobs.Clock, now: nat): (Backend, Reply<string>) {
    if SourceName(req.baseModelSource) == "" || GpuName(req.targetGpu) == "" then
      (b, HttpError(400, "Missing required inputs: base_model_source, target_gpu"))
    else
      (Launch(b, id, "fine-tune", FineTunePayload(req), start, end, clock, FineTuneScript(req, now).effects), Accepted(id))
  }

  /** The progress a fine-tune job assigns, in order: the trainer's five
      steps, 60, then 70 if the resizer ran, 75 for quantization and the
      final 80. */
  function FineTuneSchedule(resized: bool): seq<nat> {
    [12, 24, 36, 48, 60, 60] + (if resized then [70, 75] else [75]) + [80]
  }

  /** Whether `resize` does anything: its settings are a non-empty dict. */
  predicate Resizes(req: FineTuneRequest) {
    req.resizerSettings.Some? && !req.resizerSettings.value.IsEmpty()
  }

  /** The schedule never decreases and ends at 80. */
  lemma FineTuneScheduleMonotone(resized: bool)
    ensures NonDecreasing(FineTuneSchedule(resized))
    ensures var s := FineTuneSchedule(resized); s[|s| - 1] == 80
  {
  }

  /** The transforms assign 70 (only if the resizer runs) and then 75, log
      `Quantization: <target>` last, and set no artifact or error. */
  lemma TransformsHistory(dir: string, req: FineTuneRequest)
    ensures var es := Transforms(dir, req);
      && ProgressValues(es) == (if Resizes(req) then [70, 75] else [75])
      && ArtifactValue(es, "model_id") == None && ErrorValue(es) == None
      && |Messages(es)| >= 1
      && Messages(es)[|Messages(es)| - 1] == "Quantization: " + QuantName(req.quantizationTarget)
  {
    var c := Stages.Resize(dir, req.resizerSettings).effects;
    var d := Stages.Quantize(dir, QuantName(req.quantizationTarget)).effects;
    Stages.ResizeEffects(dir, req.resizerSettings);
    Stages.QuantizeEffects(dir, QuantName(req.quantizationTarget));
    MessagesAppend(c, d);
    ProgressValuesAppend(c, d);
    ArtifactValueAppend(c, d, "model_id");
    ErrorValueAppend(c, d);
  }

  /** The trainer part of the fine-tune script. */
  lemma DispatchHistory(m: TuneMethod, dryRun: bool, now: nat)
    ensures var b := DispatchOf(m, dryRun, now);
      && ProgressValues(b.effects) == [12, 24, 36, 48, 60, 60]
      && ArtifactValue(b.effects, "model_id") == Some(b.result)
      && ErrorValue(b.effects) == None
      && b.result == Stages.TrainedModelId(TrainerOf(m, dryRun), now)
  {
    DispatchOfAgrees(m, dryRun, now);
    DispatchRunsTrainer(MethodName(m), dryRun, now);
    TrainerForFiveSteps(MethodName(m), dryRun, now);
  }

  /** The fine-tune job's history. Its progress follows the schedule: the
      trainer's five steps, 60, then 70 if the resizer ran, 75 and the final
      80. It records the trained model's id as `model_id`, sets no error,
      and logs `Job started: fine-tune` first and `Fine-tune complete`
      last. */
  lemma FineTuneHistory(req: FineTuneRequest, now: nat)
    ensures var s := FineTuneScript(req, now);
      && ProgressValues(s.effects) == FineTuneSchedule(Resizes(req))
      && ArtifactValue(s.effects, "model_id") == Some(s.result)
      && ErrorValue(s.effects) == None
      && s.result == Stages.TrainedModelId(TrainerOf(req.fineTuneMethod, req.dryRun), now)
      && var ms := Messages(s.effects);
      |ms| >= 2 && ms[0] == "Job started: fine-tune" && ms[|ms| - 1] == "Fine-tune complete"
  {
    var t := DispatchOf(req.fineTuneMethod, req.dryRun, now);
    var c := Transforms(Stages.ModelDir(t.result), req);
    DispatchHistory(req.fineTuneMethod, req.dryRun, now);
    TransformsHistory(Stages.ModelDir(t.result), req);
    FineTuneJoin(t.effects, c, t.result, if Resizes(req) then [70, 75] else [75]);
  }

  /** Joining the trainer's history and the transforms' between the first
      and last statements of the task. */
  lemma FineTuneJoin(t: seq<Effect>, c: seq<Effect>, mid: string, pc: seq<nat>)
    requires ProgressValues(t) == [12, 24, 36, 48, 60, 60] && ArtifactValue(t, "model_id") == Some(mid) && ErrorValue(t) == None
    requires ProgressValues(c) == pc && ArtifactValue(c, "model_id") == None && ErrorValue(c) == None
    ensures var es := FineTuneHead + t + c + FineTuneFoot;
      && ProgressValues(es) == [12, 24, 36, 48, 60, 60] + pc + [80]
      && ArtifactValue(es, "model_id") == Some(mid)
      && ErrorValue(es) == None
      && Messages(es) == ["Job started: fine-tune"] + Messages(t) + Messages(c) + ["Fine-tune complete"]
  {
    HeadFootHistory();
    var h, f := FineTuneHead, FineTuneFoot;
    MessagesAppend(h, t);
    MessagesAppend(h + t, c);
    MessagesAppend(h + t + c, f);
    ProgressValuesAppend(h, t);
    ProgressValuesAppend(h + t, c);
    ProgressValuesAppend(h + t + c, f);
    ArtifactValueAppend(h, t, "model_id");
    ArtifactValueAppend(h + t, c, "model_id");
    ArtifactValueAppend(h + t + c, f, "model_id");
    ErrorValueAppend(h, t);
    ErrorValueAppend(h + t, c);
    ErrorValueAppend(h + t + c, f);
  }

  /** A validated fine-tune request is always accepted (the 400 check can
      never fire), and once its job has run the job is `done` at progress
      80, with a `model_id` artifact holding the trained model's id, no
      error, and the script's messages as its log (`FineTuneHistory` says
      which come first and last). */
  lemma FineTuneOutcome(b: Backend, req: FineTuneRequest, id: string,
                        start: FactoryJobs.Instant, end: FactoryJobs.Instant, clock: FactoryJobs.Clock, now: nat)
    ensures StartFinetune(b, req, id, start, end, clock, now).1 == Accepted(id)
    ensures FactoryJobs.Get(StartFinetune(b, req, id, start, end, clock, now).0.manager, id).Some?
    ensures var j := FactoryJobs.Get(StartFinetune(b, req, id, start, end, clock, now).0.manager, id).value;
      && j.status == FactoryJobs.Done
      && j.progress == 80
      && Lookup(j.artifacts, "model_id") == Some(FineTuneScript(req, now).result)
      && j.error == None
      && j.logs == LogLine.Stamped(clock, 0, Messages(FineTuneScript(req, now).effects))
  {
    var s := FineTuneScript(req, now);
    assert StartFinetune(b, req, id, start, end, clock, now)
        == (Launch(b, id, "fine-tune", FineTunePayload(req), start, end, clock, s.effects), Accepted(id)) by {
      ValidatedNamesNonEmpty(req);
    }
    FineTuneReport(req, now);
    LaunchedJobAt(b, id, "fine-tune", FineTunePayload(req), start, end, clock, s.effects, "model_id");
  }

  /** What the fine-tune script leaves for a status poll: last progress 80,
      the `model_id` artifact and no error. */
  lemma FineTuneReport(req: FineTuneRequest, now: nat)
    ensures var s := FineTuneScript(req, now);
      && FinalProgress(0, s.effects) == 80
      && ArtifactValue(s.effects, "model_id") == Some(s.result)
      && ErrorValue(s.effects) == None
  {
    FineTuneHistory(req, now);
    FineTuneScheduleMonotone(Resizes(req));
  }

  /** The method picks the trainer and so the id's prefix: `rlhf-` for RLHF,
      `dpo-` for DPO, `model-` for LoRA and for the full fine-tune
      fallback. */
  lemma FineTuneModelPrefix(req: FineTuneRequest, now: nat)
    ensures var mid := FineTuneScript(req, now).result;
      var prefix := match req.fineTuneMethod
        case Rlhf => "rlhf-"
        case Dpo => "dpo-"
        case _ => "model-";
      |mid| > |prefix| && mid[..|prefix|] == prefix
  {
    var t := TrainerOf(req.fineTuneMethod, req.dryRun);
    FineTuneHistory(req, now);
    Stages.TrainedIdShape(t, now);
  }

  // ---- GET /api/status/{job_id} ----------------------------------------------------

  /** The JSON body of `get_status`. */
  datatype StatusView = StatusView(
    id: string, kind: string, status: string, progress: nat,
    logsTail: seq<string>, artifacts: map<string, string>, error: Option<string>)

  /** `GET /api/status/{job_id}`: 404 for an unknown id; otherwise the job's
      fields with only the last 20 log lines. */
  function GetStatus(b: Backend, id: string): Reply<StatusView> {
    match FactoryJobs.Get(b.manager, id)
    case None => HttpError(404, "Job not found")
    case Some(j) =>
      Accepted(StatusView(j.id, j.kind, FactoryJobs.StatusText(j.status), j.progress,
                          PyStr.Tail(j.logs, 20), j.artifacts, j.error))
  }

  /** The status is 404 exactly for ids the manager never created; otherwise
      it reports the job as stored, with the most recent log lines, at most
      20 of them, in order. */
  lemma StatusView20(b: Backend, id: string)
    ensures GetStatus(b, id).HttpError? <==> id !in b.manager.jobs
    ensures GetStatus(b, id).HttpError? ==> GetStatus(b, id).code == 404
    ensures id in b.manager.jobs ==>
      var j := b.manager.jobs[id];
      var v := GetStatus(b, id).body;
      && v.id == j.id && v.kind == j.kind && v.status == FactoryJobs.StatusText(j.status) && v.progress == j.progress
      && v.artifacts == j.artifacts && v.error == j.error
      && |v.logsTail| == (if |j.logs| <= 20 then |j.logs| else 20)
      && v.logsTail == j.logs[|j.logs| - |v.logsTail|..]
  {
  }

  // ---- POST /api/export/{model_id} --------------------------------------------

  /** `{"export_format": fmt}` as the Modelfile's hyperparameter dict. */
  function ExportParams(format: ExportFormat): PyStr.PyDict {
    PyStr.PyDict([(Quoted("export_format"), Quoted(FormatName(format)))])
  }

  /** The statements `do_export`'s task runs after `write_modelfile`. */
  function ExportClosing(mf: string): seq<Effect> {
    [SetArtifact("modelfile", mf), Log("Export complete"), SetProgress(100)]
  }

  /** The script of `do_export`'s task, with `date` for the Modelfile's
      `utcnow()` text. */
  function ExportScript(modelId: string, format: ExportFormat, date: string): seq<Effect> {
    var dir := Stages.ModelDir(modelId);
    var exported := Stages.ExportModel(modelId, FormatName(format));
    var mf := Stages.WriteModelfile(dir, exported.result, "unknown", Some(ExportParams(format)), date);
    exported.effects + mf.effects + ExportClosing(mf.result)
  }

  /** The Modelfile path of a model. */
  function ModelfilePath(modelId: string): string {
    PyPath.Join(Stages.ModelDir(modelId), "Modelfile")
  }

  /** `POST /api/export/{model_id}`: `ensure_model_dir` creates the model
      directory before the existence check, so the 404 branch is dead. */
  function DoExport(b: Backend, modelId: string, req: ExportRequest, id: string,
                    start: FactoryJobs.Instant, end: FactoryJobs.Instant, clock: FactoryJobs.Clock, date: string): (Backend, Reply<string>) {
    var dir := Stages.ModelDir(modelId);
    var b1 := b.(fs := b.fs.(dirs := b.fs.dirs + {dir}));
    if dir !in b1.fs.dirs then (b1, HttpError(404, "Model dir not found"))
    else (Launch(b1, id, "export", ExportPayload(req), start, end, clock, ExportScript(modelId, req.exportFormat, date)), Accepted(id))
  }

  lemma ExportClosingHistory(mf: string)
    ensures var e := ExportClosing(mf);
      && Messages(e) == ["Export complete"] && ProgressValues(e) == [100]
      && ArtifactValue(e, "modelfile") == Some(mf)
      && (forall k :: k != "modelfile" ==> ArtifactValue(e, k) == None)
      && ErrorValue(e) == None
      && (forall p :: FileValue(e, p) == None)
      && DirsMade(e) == {}
  {
    var e := ExportClosing(mf);
    assert e == [e[0]] + ([e[1]] + ([e[2]] + []));
    ProjectionsCons(e[2], []);
    ProjectionsCons(e[1], [e[2]] + []);
    ProjectionsCons(e[0], [e[1]] + ([e[2]] + []));
  }

  /** The export job assigns progress 90 then 100, sets artifact `export`
      to the exported file and `modelfile` to `models/<id>/Modelfile`, sets
      no error, logs `Export: format=<fmt>` then `Export complete`, and
      leaves both files written and the model directory made. */
  lemma ExportScriptHistory(modelId: string, format: ExportFormat, date: string)
    ensures var es := ExportScript(modelId, format, date);
      var out := Stages.ExportFile(modelId, FormatName(format));
      && ProgressValues(es) == [90, 100]
      && ArtifactValue(es, "export") == Some(out)
      && ArtifactValue(es, "modelfile") == Some(ModelfilePath(modelId))
      && ErrorValue(es) == None
      && Messages(es) == ["Export: format=" + FormatName(format), "Export complete"]
      && FileValue(es, out).Some?
      && FileValue(es, ModelfilePath(modelId)).Some?
      && Stages.ModelDir(modelId) in DirsMade(es)
  {
    var dir := Stages.ModelDir(modelId);
    var exported := Stages.ExportModel(modelId, FormatName(format));
    var mf := Stages.WriteModelfile(dir, exported.result, "unknown", Some(ExportParams(format)), date);
    Stages.ExportEffects(modelId, FormatName(format));
    Stages.ModelfileEffects(dir, exported.result, "unknown", Some(ExportParams(format)), date);
    ExportJoin(exported.effects, mf.effects, exported.result, ModelfilePath(modelId),
               "Export: format=" + FormatName(format), dir);
  }

  /** Joining an `export_model` history and a `write_modelfile` history
      with the closing statements. */
  lemma ExportJoin(a: seq<Effect>, c: seq<Effect>, out: string, mf: string, note: string, dir: string)
    requires Messages(a) == [note] && ProgressValues(a) == [90]
    requires ArtifactValue(a, "export") == Some(out) && ArtifactValue(a, "modelfile") == None
    requires ErrorValue(a) == None && FileValue(a, out).Some? && dir in DirsMade(a)
    requires Messages(c) == [] && ProgressValues(c) == []
    requires ArtifactValue(c, "export") == None && ArtifactValue(c, "modelfile") == None
    requires ErrorValue(c) == None && FileValue(c, mf).Some?
    ensures var es := a + c + ExportClosing(mf);
      && ProgressValues(es) == [90, 100]
      && ArtifactValue(es, "export") == Some(out)
      && ArtifactValue(es, "modelfile") == Some(mf)
      && ErrorValue(es) == None
      && Messages(es) == [note, "Export complete"]
      && FileValue(es, out).Some?
      && FileValue(es, mf).Some?
      && dir in DirsMade(es)
  {
    var e := ExportClosing(mf);
    ExportClosingHistory(mf);
    MessagesAppend(a, c);
    MessagesAppend(a + c, e);
    ProgressValuesAppend(a, c);
    ProgressValuesAppend(a + c, e);
    ArtifactValueAppend(a, c, "export");
    ArtifactValueAppend(a + c, e, "export");
    ArtifactValueAppend(a, c, "modelfile");
    ArtifactValueAppend(a + c, e, "modelfile");
    ErrorValueAppend(a, c);
    ErrorValueAppend(a + c, e);
    FileValueAppend(a, c, out);
    FileValueAppend(a + c, e, out);
    FileValueAppend(a, c, mf);
    FileValueAppend(a + c, e, mf);
    DirsMadeAppend(a, c);
    DirsMadeAppend(a + c, e);
  }

  /** Every export is accepted, and its job ends `done` at progress 100 with
      the `export` and `modelfile` artifacts set and no error; afterwards the
      exported file and the Modelfile both exist. */
  lemma ExportOutcome(b: Backend, modelId: string, req: ExportRequest, id: string,
                      start: FactoryJobs.Instant, end: FactoryJobs.Instant, clock: FactoryJobs.Clock, date: string)
    ensures DoExport(b, modelId, req, id, start, end, clock, date).1 == Accepted(id)
    ensures FactoryJobs.Get(DoExport(b, modelId, req, id, start, end, clock, date).0.manager, id).Some?
    ensures var j := FactoryJobs.Get(DoExport(b, modelId, req, id, start, end, clock, date).0.manager, id).value;
      && j.status == FactoryJobs.Done && j.progress == 100
      && Lookup(j.artifacts, "export") == Some(Stages.ExportFile(modelId, FormatName(req.exportFormat)))
      && Lookup(j.artifacts, "modelfile") == Some(ModelfilePath(modelId))
      && j.error == None
    ensures var fs := DoExport(b, modelId, req, id, start, end, clock, date).0.fs;
      && Stages.ExportFile(modelId, FormatName(req.exportFormat)) in fs.files
      && ModelfilePath(modelId) in fs.files
      && Stages.ModelDir(modelId) in fs.dirs
  {
    var dir := Stages.ModelDir(modelId);
    var b1 := b.(fs := b.fs.(dirs := b.fs.dirs + {dir}));
    var es := ExportScript(modelId, req.exportFormat, date);
    var out := Stages.ExportFile(modelId, FormatName(req.exportFormat));
    assert DoExport(b, modelId, req, id, start, end, clock, date)
        == (Launch(b1, id, "export", ExportPayload(req), start, end, clock, es), Accepted(id));
    ExportScriptHistory(modelId, req.exportFormat, date);
    ExportLaunched(b1, id, ExportPayload(req), start, end, clock, es, out, ModelfilePath(modelId), dir);
  }

  /** An export-shaped script, once launched, leaves the job and the files
      an export promises. */
  lemma ExportLaunched(b: Backend, id: string, payload: Payload,
                       start: FactoryJobs.Instant, end: FactoryJobs.Instant, clock: FactoryJobs.Clock, es: seq<Effect>,
                       out: string, mf: string, dir: string)
    requires ProgressValues(es) == [90, 100] && ErrorValue(es) == None
    requires ArtifactValue(es, "export") == Some(out) && ArtifactValue(es, "modelfile") == Some(mf)
    requires FileValue(es, out).Some? && FileValue(es, mf).Some? && dir in DirsMade(es)
    ensures var b2 := Launch(b, id, "export", payload, start, end, clock, es);
      var g := FactoryJobs.Get(b2.manager, id);
      && g.Some? && g.value.status == FactoryJobs.Done && g.value.progress == 100
      && Lookup(g.value.artifacts, "export") == Some(out)
      && Lookup(g.value.artifacts, "modelfile") == Some(mf)
      && g.value.error == None
      && out in b2.fs.files && mf in b2.fs.files && dir in b2.fs.dirs
  {
    LaunchedJob(b, id, "export", payload, start, end, clock, es);
    LaunchStores(b, id, "export", payload, start, end, clock, es);
    var b2 := Launch(b, id, "export", payload, start, end, clock, es);
    assert Lookup(b2.fs.files, out).Some? && Lookup(b2.fs.files, mf).Some?;
  }

  // ---- POST /api/ollama/publish/{model_id} -------------------------------------

  /** The address the published model is served at. */
  const ServeUrl := "http://localhost:11434"

  /** The `try`/`except` around `ollama create`: success records the name
      and the serve URL; failure logs the exception text and keeps it as the
      job's error. */
  function CreateEffects(req: PublishRequest, createError: Option<string>): seq<Effect> {
    match createError
    case None => [SetArtifact("ollama_name", req.ollamaName), SetArtifact("serve_url", ServeUrl), Log("Ollama create success")]
    case Some(e) => [Log("Ollama create failed: " + e), SetError(e)]
  }

  /** The script of `publish_ollama`'s task. `ollamaFound` is whether
      `shutil.which("ollama")` found the binary; `createError` is None when
      `ollama create` succeeded and the exception text when it raised. */
  function PublishScript(req: PublishRequest, ollamaFound: bool, createError: Option<string>): seq<Effect> {
    (if ollamaFound then [] else [Log("ollama not found; attempting to call sidecar at 11434")])
    + CreateEffects(req, createError)
    + [SetProgress(100)]
  }

  lemma CreateSucceeds(req: PublishRequest)
    ensures var c := CreateEffects(req, None);
      && Messages(c) == ["Ollama create success"] && ProgressValues(c) == [] && ErrorValue(c) == None
      && ArtifactValue(c, "ollama_name") == Some(req.ollamaName)
      && ArtifactValue(c, "serve_url") == Some(ServeUrl)
  {
    var c := CreateEffects(req, None);
    assert c == [c[0]] + ([c[1]] + ([c[2]] + []));
    ProjectionsCons(c[2], []);
    ProjectionsCons(c[1], [c[2]] + []);
    ProjectionsCons(c[0], [c[1]] + ([c[2]] + []));
  }

  lemma CreateFails(req: PublishRequest, e: string)
    ensures var c := CreateEffects(req, Some(e));
      && Messages(c) == ["Ollama create failed: " + e] && ProgressValues(c) == [] && ErrorValue(c) == Some(e)
      && (forall k :: ArtifactValue(c, k) == None)
  {
    var c := CreateEffects(req, Some(e));
    assert c == [c[0]] + ([c[1]] + []);
    ProjectionsCons(c[1], []);
    ProjectionsCons(c[0], [c[1]] + []);
  }

  /** `POST /api/ollama/publish/{model_id}`: 400 unless the model's
      Modelfile exists. The model directory is created either way. */
  function Publish(b: Backend, modelId: string, req: PublishRequest, id: string,
                   start: FactoryJobs.Instant, end: FactoryJobs.Instant, clock: FactoryJobs.Clock,
                   ollamaFound: bool, createError: Option<string>): (Backend, Reply<string>) {
    var b1 := b.(fs := b.fs.(dirs := b.fs.dirs + {Stages.ModelDir(modelId)}));
    if ModelfilePath(modelId) !in b1.fs.files then (b1, HttpError(400, "Modelfile missing; run export first"))
    else (Launch(b1, id, "ollama_publish", PublishPayload(req), start, end, clock, PublishScript(req, ollamaFound, createError)), Accepted(id))
  }

  /** A publish job always ends `done` at progress 100, even when `ollama
      create` fails: success records the model name and the serve URL as
      artifacts and sets no error; failure sets no artifact, keeps the
      exception text as the error and logs it. */
  lemma PublishScriptHistory(req: PublishRequest, ollamaFound: bool, createError: Option<string>)
    ensures var es := PublishScript(req, ollamaFound, createError);
      && |Messages(es)| == (if ollamaFound then 1 else 2)
      && ProgressValues(es) == [100]
      && ErrorValue(es) == createError
      && (createError.None? <==> ArtifactValue(es, "serve_url") == Some(ServeUrl))
      && (createError.None? ==>
            && ArtifactValue(es, "ollama_name") == Some(req.ollamaName)
            && ArtifactValue(es, "serve_url") == Some(ServeUrl)
            && Messages(es)[|Messages(es)| - 1] == "Ollama create success")
      && (createError.Some? ==>
            && (forall k :: ArtifactValue(es, k) == None)
            && Messages(es)[|Messages(es)| - 1] == "Ollama create failed: " + createError.value)
  {
    var a: seq<Effect> := if ollamaFound then [] else [Log("ollama not found; attempting to call sidecar at 11434")];
    var c := CreateEffects(req, createError);
    assert |Messages(a)| == (if ollamaFound then 0 else 1)
        && ProgressValues(a) == [] && ErrorValue(a) == None && (forall k :: ArtifactValue(a, k) == None) by {
      if !ollamaFound {
        ProjectionsCons(a[0], []);
        assert a == [a[0]] + [];
      }
    }
    if createError.None? {
      CreateSucceeds(req);
    } else {
      CreateFails(req, createError.value);
    }
    PublishJoin(a, c, createError);
  }

  /** Joining the optional not-found note, the `ollama create` outcome and
      the final progress: the outcome's message comes last, its artifacts
      and error are the job's, and progress ends at 100. */
  lemma PublishJoin(a: seq<Effect>, c: seq<Effect>, createError: Option<string>)
    requires ProgressValues(a) == [] && ErrorValue(a) == None && (forall k :: ArtifactValue(a, k) == None)
    requires ProgressValues(c) == [] && ErrorValue(c) == createError && |Messages(c)| == 1
    ensures var es := a + c + [SetProgress(100)];
      && |Messages(es)| == |Messages(a)| + 1
      && Messages(es)[|Messages(es)| - 1] == Messages(c)[0]
      && ProgressValues(es) == [100]
      && ErrorValue(es) == createError
      && (forall k :: ArtifactValue(es, k) == ArtifactValue(c, k))
  {
    var e: seq<Effect> := [SetProgress(100)];
    assert Messages(e) == [] && ProgressValues(e) == [100] && ErrorValue(e) == None && (forall k :: ArtifactValue(e, k) == None) by {
      ProjectionsCons(e[0], []);
      assert e == [e[0]] + [];
    }
    ProjectionsAppend(a, c);
    ProjectionsAppend(a + c, e);
  }

  /** Publishing is refused with 400 exactly when the model has no
      Modelfile; an accepted publish leaves a `done` job at progress 100
      whose error is the `ollama create` failure, if any. */
  lemma PublishOutcome(b: Backend, modelId: string, req: PublishRequest, id: string,
                       start: FactoryJobs.Instant, end: FactoryJobs.Instant, clock: FactoryJobs.Clock,
                       ollamaFound: bool, createError: Option<string>)
    ensures var r := Publish(b, modelId, req, id, start, end, clock, ollamaFound, createError);
      && (r.1.HttpError? <==> ModelfilePath(modelId) !in b.fs.files)
      && (r.1.HttpError? ==> r.1.code == 400 && r.0.manager == b.manager)
      && (r.1.Accepted? ==>
            var j := FactoryJobs.Get(r.0.manager, id);
            && j.Some? && j.value.status == FactoryJobs.Done && j.value.progress == 100
            && j.value.error == createError
            && (createError.None? <==> Lookup(j.value.artifacts, "serve_url") == Some(ServeUrl)))
  {
    var b1 := b.(fs := b.fs.(dirs := b.fs.dirs + {Stages.ModelDir(modelId)}));
    var es := PublishScript(req, ollamaFound, createError);
    if ModelfilePath(modelId) in b.fs.files {
      var b2 := Launch(b1, id, "ollama_publish", PublishPayload(req), start, end, clock, es);
      assert Publish(b, modelId, req, id, start, end, clock, ollamaFound, createError) == (b2, Accepted(id));
      PublishScriptHistory(req, ollamaFound, createError);
      LaunchedJobAt(b1, id, "ollama_publish", PublishPayload(req), start, end, clock, es, "serve_url");
    }
  }

  /** Exporting a model makes a later publish of it accepted. */
  lemma PublishAfterExport(b: Backend, modelId: string, ereq: ExportRequest, preq: PublishRequest,
                           id1: string, id2: string, start: FactoryJobs.Instant, end: FactoryJobs.Instant,
                           clock: FactoryJobs.Clock, date: string, ollamaFound: bool, createError: Option<string>)
    ensures var b2 := DoExport(b, modelId, ereq, id1, start, end, clock, date).0;
      Publish(b2, modelId, preq, id2, start, end, clock, ollamaFound, createError).1 == Accepted(id2)
  {
    ExportOutcome(b, modelId, ereq, id1, start, end, clock, date);
  }

  // ---- GET /api/summary/{model_id} -----------------------------------------

  /** The JSON body of `build_summary`; the fields it fills with constants
      (the Ollama block, git fields, changelog) are left out. */
  datatype Summary = Summary(success: bool, modelId: string, exportPath: Option<string>, artifactsPaths: seq<string>)

  /** The export candidates, in the order they are tried. */
  function Candidates(modelId: string): seq<string> {
    [PyPath.Join(Stages.ModelDir(modelId), modelId + ".gguf"),
     PyPath.Join(Stages.ModelDir(modelId), modelId + ".safetensors")]
  }

  /** The first candidate that is a regular file. */
  function FirstExisting(cands: seq<string>, files: map<string, string>): Option<string>
    decreases |cands|
  {
    if cands == [] then None
    else if cands[0] in files then Some(cands[0])
    else FirstExisting(cands[1..], files)
  }

  /** `GET /api/summary/{model_id}`. */
  function BuildSummary(fs: Fs, modelId: string): Summary {
    var found := FirstExisting(Candidates(modelId), fs.files);
    Summary(found.Some?, modelId, found, [Stages.ModelDir(modelId)])
  }

  /** The summary reports success exactly when a `.gguf` or `.safetensors`
      export exists, and then points at the `.gguf` one if both do. */
  lemma SummaryPrefersGguf(fs: Fs, modelId: string)
    ensures var s := BuildSummary(fs, modelId);
      var gguf, st := Candidates(modelId)[0], Candidates(modelId)[1];
      && (s.success <==> gguf in fs.files || st in fs.files)
      && (s.success <==> s.exportPath.Some?)
      && (gguf in fs.files ==> s.exportPath == Some(gguf))
      && (gguf !in fs.files && st in fs.files ==> s.exportPath == Some(st))
      && s.artifactsPaths == [Stages.ModelDir(modelId)]
  {
    var c := Candidates(modelId);
    FirstOfTwo(c[0], c[1], fs.files);
    assert c == [c[0], c[1]];
  }

  /** Searching two candidates finds the first if it exists, else the second
      if it exists, else nothing. */
  lemma FirstOfTwo(x: string, y: string, files: map<string, string>)
    ensures FirstExisting([x, y], files)
      == if x in files then Some(x) else if y in files then Some(y) else None
  {
    assert [x, y][1..] == [y];
    assert [y][1..] == [];
    assert FirstExisting([], files) == None;
    assert FirstExisting([y], files) == if y in files then Some(y) else None;
  }

  /** After an export, the model's summary is a success; after a GGUF export
      it names exactly the exported file. */
  lemma SummaryAfterExport(b: Backend, modelId: string, req: ExportRequest, id: string,
                           start: FactoryJobs.Instant, end: FactoryJobs.Instant, clock: FactoryJobs.Clock, date: string)
    ensures var s := BuildSummary(DoExport(b, modelId, req, id, start, end, clock, date).0.fs, modelId);
      && s.success
      && (req.exportFormat == Gguf ==> s.exportPath == Some(Stages.ExportFile(modelId, "gguf")))
  {
    var fs := DoExport(b, modelId, req, id, start, end, clock, date).0.fs;
    ExportOutcome(b, modelId, req, id, start, end, clock, date);
    SummaryPrefersGguf(fs, modelId);
  }

  // ---- The dry-run smoke scenario ------------------------------------------

  /** The request body `{"base_model_source": "huggingface", "target_gpu":
      "cpu", "dry_run": true}`. */
  const SmokeBody := EmptyBody.(baseModelSource := Some("huggingface"), targetGpu := Some("cpu"), dryRun := Some(true))

  /** Any fine-tune is accepted, its job ends `done` with a non-empty
      `model_id` artifact, and an export of that model id in GGUF is then
      accepted. */
  lemma FineTuneThenExport(b: Backend, req: FineTuneRequest, id1: string, id2: string,
                           start: FactoryJobs.Instant, end: FactoryJobs.Instant,
                           clock: FactoryJobs.Clock, now: nat, date: string)
    ensures var r := StartFinetune(b, req, id1, start, end, clock, now);
      && r.1 == Accepted(id1)
      && var j := FactoryJobs.Get(r.0.manager, id1);
      && j.Some? && FactoryJobs.StatusText(j.value.status) == "done"
      && Lookup(j.value.artifacts, "model_id").Some?
      && var mid := Lookup(j.value.artifacts, "model_id").value;
      && mid != ""
      && DoExport(r.0, mid, ExportRequest(mid, Gguf), id2, start, end, clock, date).1 == Accepted(id2)
  {
    FineTuneOutcome(b, req, id1, start, end, clock, now);
    FineTuneModelPrefix(req, now);
    var r := StartFinetune(b, req, id1, start, end, clock, now);
    var mid := FineTuneScript(req, now).result;
    ExportOutcome(r.0, mid, ExportRequest(mid, Gguf), id2, start, end, clock, date);
  }

  /** The dry-run smoke scenario: the body validates to a dry-run request
      for a Hugging Face model on the CPU, and the pipeline of
      `FineTuneThenExport` goes through for it. */
  lemma DryRunPipeline(b: Backend, id1: string, id2: string, start: FactoryJobs.Instant, end: FactoryJobs.Instant,
                       clock: FactoryJobs.Clock, now: nat, date: string)
    ensures ParseFineTune(SmokeBody).Ok?
    ensures var req := ParseFineTune(SmokeBody).value;
      && req.dryRun && req.baseModelSource == HuggingFace && req.targetGpu == Cpu
      && var r := StartFinetune(b, req, id1, start, end, clock, now);
      && r.1 == Accepted(id1)
      && var j := FactoryJobs.Get(r.0.manager, id1);
      && j.Some? && FactoryJobs.StatusText(j.value.status) == "done"
      && Lookup(j.value.artifacts, "model_id").Some?
      && var mid := Lookup(j.value.artifacts, "model_id").value;
      && mid != ""
      && DoExport(r.0, mid, ExportRequest(mid, Gguf), id2, start, end, clock, date).1 == Accepted(id2)
  {
    SmokeParses();
    FineTuneThenExport(b, ParseFineTune(SmokeBody).value, id1, id2, start, end, clock, now, date);
  }

  /** The smoke body validates; the fields it gives are taken as given. */
  lemma SmokeParses()
    ensures ParseFineTune(SmokeBody).Ok?
    ensures var req := ParseFineTune(SmokeBody).value;
      req.dryRun && req.baseModelSource == HuggingFace && req.targetGpu == Cpu
  {
    SourceRoundTrip(HuggingFace, "huggingface");
    GpuRoundTrip(Cpu, "cpu");
  }
}

=== FILE: factory_config.dfy ===
/** The request models of the packaging backend
    (llm-factory-ollama/backend/app/config.py): three pydantic models whose
    string fields are `Literal` enumerations with defaults.

    A request body is modelled field by field: `None` for a field the JSON
    body leaves out, `Some(v)` for one it gives. Validation is the pydantic
    rule for these fields: a missing field takes its default, a required one
    (`model_id`, `ollama_name`) is an error, and a `Literal` field accepts
    exactly its listed strings. The JSON types of the other fields are taken
    as already right. */
module FactoryConfig {
  import opened Wrappers
  import PyStr

  datatype ModelSource = LocalPath | HuggingFace | GithubRelease | Url
  datatype TargetGpu = Nvidia | Amd | Cpu
  datatype TuneMethod = Lora | FullFinetune | Rlhf | Dpo
  datatype QuantTarget = NoQuant | Int8 | Int4 | Fp8
  datatype ExportFormat = Gguf | Safetensors
  datatype DockerMode = AllInOne | BackendOnly | NativeInstall

  function SourceName(s: ModelSource): string {
    match s
    case LocalPath => "local_path"
    case HuggingFace => "huggingface"
    case GithubRelease => "github_release"
    case Url => "url"
  }

  function ParseSource(s: string): Option<ModelSource> {
    if s == "local_path" then Some(LocalPath)
    else if s == "huggingface" then Some(HuggingFace)
    else if s == "github_release" then Some(GithubRelease)
    else if s == "url" then Some(Url)
    else None
  }

  function GpuName(g: TargetGpu): string {
    match g
    case Nvidia => "nvidia"
    case Amd => "amd"
    case Cpu => "cpu"
  }

  function ParseGpu(s: string): Option<TargetGpu> {
    if s == "nvidia" then Some(Nvidia)
    else if s == "amd" then Some(Amd)
    else if s == "cpu" then Some(Cpu)
    else None
  }

  function MethodName(m: TuneMethod): string {
    match m
    case Lora => "lora"
    case FullFinetune => "full_finetune"
    case Rlhf => "rlhf"
    case Dpo => "dpo"
  }

  function ParseMethod(s: string): Option<TuneMethod> {
    if s == "lora" then Some(Lora)
    else if s == "full_finetune" then Some(FullFinetune)
    else if s == "rlhf" then Some(Rlhf)
    else if s == "dpo" then Some(Dpo)
    else None
  }

  function QuantName(q: QuantTarget): string {
    match q
    case NoQuant => "none"
    case Int8 => "int8"
    case Int4 => "int4"
    case Fp8 => "fp8"
  }

  function ParseQuant(s: string): Option<QuantTarget> {
    if s == "none" then Some(NoQuant)
    else if s == "int8" then Some(Int8)
    else if s == "int4" then Some(Int4)
    else if s == "fp8" then Some(Fp8)
    else None
  }

  function FormatName(f: ExportFormat): string {
    match f
    case Gguf => "gguf"
    case Safetensors => "safetensors"
  }

  function ParseFormat(s: string): Option<ExportFormat> {
    if s == "gguf" then Some(Gguf)
    else if s == "safetensors" then Some(Safetensors)
    else None
  }

  function DockerName(d: DockerMode): string {
    match d
    case AllInOne => "container_all_in_one"
    case BackendOnly => "container_backend_only"
    case NativeInstall => "native_install"
  }

  function ParseDocker(s: string): Option<DockerMode> {
    if s == "container_all_in_one" then Some(AllInOne)
    else if s == "container_backend_only" then Some(BackendOnly)
    else if s == "native_install" then Some(NativeInstall)
    else None
  }

  // Each `Literal` accepts exactly the names of its values: parsing a name
  // gives that value back, and whatever parses is the name of what it
  // parses to.

  lemma SourceRoundTrip(x: ModelSource, s: string)
    ensures ParseSource(SourceName(x)) == Some(x)
    ensures ParseSource(s) == Some(x) <==> SourceName(x) == s
  {
  }

  lemma GpuRoundTrip(x: TargetGpu, s: string)
    ensures ParseGpu(GpuName(x)) == Some(x)
    ensures ParseGpu(s) == Some(x) <==> GpuName(x) == s
  {
  }

  lemma MethodRoundTrip(x: TuneMethod, s: string)
    ensures ParseMethod(MethodName(x)) == Some(x)
    ensures ParseMethod(s) == Some(x) <==> MethodName(x) == s
  {
  }

  lemma QuantRoundTrip(x: QuantTarget, s: string)
    ensures ParseQuant(QuantName(x)) == Some(x)
    ensures ParseQuant(s) == Some(x) <==> QuantName(x) == s
  {
  }

  lemma FormatRoundTrip(x: ExportFormat, s: string)
    ensures ParseFormat(FormatName(x)) == Some(x)
    ensures ParseFormat(s) == Some(x) <==> FormatName(x) == s
  {
  }

  lemma DockerRoundTrip(x: DockerMode, s: string)
    ensures ParseDocker(DockerName(x)) == Some(x)
    ensures ParseDocker(s) == Some(x) <==> DockerName(x) == s
  {
  }

  /** `FineTuneRequest`. The dict-valued fields are kept as rendered dicts. */
  datatype FineTuneRequest = FineTuneRequest(
    baseModelSource: ModelSource,
    baseModel: Option<string>,
    targetGpu: TargetGpu,
    fineTuneMethod: TuneMethod,
    dataset: Option<string>,
    loraParams: Option<PyStr.PyDict>,
    quantizationTarget: QuantTarget,
    resizerSettings: Option<PyStr.PyDict>,
    exportFormat: ExportFormat,
    ollamaTarget: Option<PyStr.PyDict>,
    uiPreferences: Option<PyStr.PyDict>,
    dockerMode: DockerMode,
    dryRun: bool)

  /** `ExportRequest`. */
  datatype ExportRequest = ExportRequest(modelId: string, exportFormat: ExportFormat)

  /** `PublishRequest`. */
  datatype PublishRequest = PublishRequest(modelId: string, ollamaName: string, autoServe: bool)

  /** What a backend job carries as its payload: the dumped request. */
  datatype Payload =
    | FineTunePayload(fineTuneReq: FineTuneRequest)
    | ExportPayload(exportReq: ExportRequest)
    | PublishPayload(publishReq: PublishRequest)

  /** The fields of a fine-tune request body, each `None` when left out. An
      optional field given as JSON `null` is `Some(None)`. */
  datatype FineTuneBody = FineTuneBody(
    baseModelSource: Option<string>,
    baseModel: Option<Option<string>>,
    targetGpu: Option<string>,
    fineTuneMethod: Option<string>,
    dataset: Option<Option<string>>,
    loraParams: Option<Option<PyStr.PyDict>>,
    quantizationTarget: Option<string>,
    resizerSettings: Option<Option<PyStr.PyDict>>,
    exportFormat: Option<string>,
    ollamaTarget: Option<Option<PyStr.PyDict>>,
    uiPreferences: Option<Option<PyStr.PyDict>>,
    dockerMode: Option<string>,
    dryRun: Option<bool>)

  /** The empty JSON object `{}`. */
  const EmptyBody := FineTuneBody(None, None, None, None, None, None, None, None, None, None, None, None, None)

  /** A `Literal` field: missing takes the default, present must parse. */
  function LiteralField<T>(given: Option<string>, parse: string -> Option<T>, default: T): Option<T> {
    if given.None? then Some(default) else parse(given.value)
  }

  /** The names of the `Literal` fields a body gives but that do not parse,
      in declaration order: pydantic's list of validation errors. */
  function FineTuneErrors(b: FineTuneBody): seq<string> {
    (if LiteralField(b.baseModelSource, ParseSource, HuggingFace).None? then ["base_model_source"] else [])
    + (if LiteralField(b.targetGpu, ParseGpu, Cpu).None? then ["target_gpu"] else [])
    + (if LiteralField(b.fineTuneMethod, ParseMethod, Lora).None? then ["fine_tune_method"] else [])
    + (if LiteralField(b.quantizationTarget, ParseQuant, Int8).None? then ["quantization_target"] else [])
    + (if LiteralField(b.exportFormat, ParseFormat, Gguf).None? then ["export_format"] else [])
    + (if LiteralField(b.dockerMode, ParseDocker, AllInOne).None? then ["docker_mode"] else [])
  }

  /** `FineTuneRequest(**body)`: the validated request, or the fields that
      failed validation. */
  function ParseFineTune(b: FineTuneBody): Result<FineTuneRequest, seq<string>> {
    var source := LiteralField(b.baseModelSource, ParseSource, HuggingFace);
    var gpu := LiteralField(b.targetGpu, ParseGpu, Cpu);
    var tune := LiteralField(b.fineTuneMethod, ParseMethod, Lora);
    var quant := LiteralField(b.quantizationTarget, ParseQuant, Int8);
    var format := LiteralField(b.exportFormat, ParseFormat, Gguf);
    var docker := LiteralField(b.dockerMode, ParseDocker, AllInOne);
    if source.None? || gpu.None? || tune.None? || quant.None? || format.None? || docker.None? then
      Err(FineTuneErrors(b))
    else
      Ok(FineTuneRequest(
        source.value,
        b.baseModel.GetOr(Some("Qwen/Qwen2.5-0.5B")),
        gpu.value,
        tune.value,
        b.dataset.GetOr(None),
        b.loraParams.GetOr(None),
        quant.value,
        b.resizerSettings.GetOr(None),
        format.value,
        b.ollamaTarget.GetOr(None),
        b.uiPreferences.GetOr(None),
        docker.value,
        b.dryRun.GetOr(true)))
  }

  /** `req.model_dump()` sent back as a body: every field given. */
  function FineTuneBodyOf(r: FineTuneRequest): FineTuneBody {
    FineTuneBody(
      Some(SourceName(r.baseModelSource)), Some(r.baseModel), Some(GpuName(r.targetGpu)),
      Some(MethodName(r.fineTuneMethod)), Some(r.dataset), Some(r.loraParams),
      Some(QuantName(r.quantizationTarget)), Some(r.resizerSettings), Some(FormatName(r.exportFormat)),
      Some(r.ollamaTarget), Some(r.uiPreferences), Some(DockerName(r.dockerMode)), Some(r.dryRun))
  }

  /** The body `{}` validates to the declared defaults: a Hugging Face source
      `Qwen/Qwen2.5-0.5B` for the CPU, LoRA, int8 quantization, GGUF export,
      the all-in-one container, and a dry run; every optional dict and the
      dataset are None. */
  lemma EmptyBodyDefaults()
    ensures ParseFineTune(EmptyBody).Ok?
    ensures var r := ParseFineTune(EmptyBody).value;
      && r.baseModelSource == HuggingFace && SourceName(r.baseModelSource) == "huggingface"
      && r.baseModel == Some("Qwen/Qwen2.5-0.5B")
      && r.targetGpu == Cpu && r.fineTuneMethod == Lora
      && r.quantizationTarget == Int8 && r.exportFormat == Gguf
      && r.dockerMode == AllInOne && r.dryRun
      && r.dataset == None && r.loraParams == None && r.resizerSettings == None
      && r.ollamaTarget == None && r.uiPreferences == None
  {
  }

  /** Validation accepts a dumped request and gives the same request back. */
  lemma FineTuneRoundTrip(r: FineTuneRequest)
    ensures ParseFineTune(FineTuneBodyOf(r)) == Ok(r)
  {
    SourceRoundTrip(r.baseModelSource, "");
    GpuRoundTrip(r.targetGpu, "");
    MethodRoundTrip(r.fineTuneMethod, "");
    QuantRoundTrip(r.quantizationTarget, "");
    FormatRoundTrip(r.exportFormat, "");
    DockerRoundTrip(r.dockerMode, "");
  }

  /** Validation fails exactly when some `Literal` field is given a string
      outside its list, and then it names at least that field. */
  lemma FineTuneRejects(b: FineTuneBody)
    ensures ParseFineTune(b).Err? <==> FineTuneErrors(b) != []
    ensures ParseFineTune(b).Err? ==> ParseFineTune(b).error == FineTuneErrors(b)
    ensures b.fineTuneMethod.Some? && ParseMethod(b.fineTuneMethod.value).None? ==>
              ParseFineTune(b).Err? && "fine_tune_method" in ParseFineTune(b).error
  {
  }

  /** Whatever validates has a non-empty source and target GPU name. */
  lemma ValidatedNamesNonEmpty(r: FineTuneRequest)
    ensures SourceName(r.baseModelSource) != "" && GpuName(r.targetGpu) != ""
  {
  }

  /** The fields of an export request body. */
  datatype ExportBody = ExportBody(modelId: Option<string>, exportFormat: Option<string>)

  /** `ExportRequest(**body)`: `model_id` is required, `export_format`
      defaults to `gguf`. */
  function ParseExport(b: ExportBody): Result<ExportRequest, seq<string>> {
    var format := LiteralField(b.exportFormat, ParseFormat, Gguf);
    if b.modelId.None? || format.None? then
      Err((if b.modelId.None? then ["model_id"] else []) + (if format.None? then ["export_format"] else []))
    else Ok(ExportRequest(b.modelId.value, format.value))
  }

  /** An export body with only a model id validates with format `gguf`; one
      without a model id never validates. */
  lemma ExportDefaults(id: string, b: ExportBody)
    ensures ParseExport(ExportBody(Some(id), None)) == Ok(ExportRequest(id, Gguf))
    ensures b.modelId.None? ==> ParseExport(b).Err? && "model_id" in ParseExport(b).error
    ensures ParseExport(ExportBody(Some(id), Some("safetensors"))) == Ok(ExportRequest(id, Safetensors))
  {
  }

  /** The fields of a publish request body. */
  datatype PublishBody = PublishBody(modelId: Option<string>, ollamaName: Option<string>, autoServe: Option<bool>)

  /** `PublishRequest(**body)`: `model_id` and `ollama_name` are required,
      `auto_serve` defaults to true. */
  function ParsePublish(b: PublishBody): Result<PublishRequest, seq<string>> {
    if b.modelId.None? || b.ollamaName.None? then
      Err((if b.modelId.None? then ["model_id"] else []) + (if b.ollamaName.None? then ["ollama_name"] else []))
    else Ok(PublishRequest(b.modelId.value, b.ollamaName.value, b.autoServe.GetOr(true)))
  }

  /** A publish body without `auto_serve` serves automatically; one missing a
      required field never validates. */
  lemma PublishDefaults(id: string, name: string, b: PublishBody)
    ensures ParsePublish(PublishBody(Some(id), Some(name), None)) == Ok(PublishRequest(id, name, true))
    ensures b.modelId.None? || b.ollamaName.None? ==> ParsePublish(b).Err?
    ensures b.modelId.Some? && b.ollamaName.Some? ==> ParsePublish(b).Ok?
  {
  }
}

=== FILE: factory_jobs.dfy ===
/** The job object and job manager of the packaging backend
    (llm-factory-ollama/backend/app/jobs.py): a job with a status, an integer
    progress, an unbounded log, an optional error and a string-to-string
    artifact map; a manager keyed by job id; and the body of the `runner`
    thread that drives a target against a job.

    The job is generic in its `payload` (the request dump the manager never
    looks into). `uuid4()` and `time.time()` are parameters. The log line
    timestamp is `clock(n)` for the n-th line the job ever logged: the
    backend never trims its log, so the line count is a faithful ordinal. */
module FactoryJobs {
  import opened Wrappers
  import LogLine

  datatype Status = Queued | Running | Done | Error

  /** The status string stored on the Python object. */
  function StatusText(s: Status): string {
    match s
    case Queued => "queued"
    case Running => "running"
    case Done => "done"
    case Error => "error"
  }

  /** A `time.time()` reading. */
  type Instant = int

  /** The timestamp text of the n-th line a job logs. */
  type Clock = nat -> string

  datatype Job<P> = Job(
    id: string,
    kind: string,
    payload: P,
    status: Status,
    progress: nat,
    logs: seq<string>,
    error: Option<string>,
    artifacts: map<string, string>,
    startedAt: Option<Instant>,
    finishedAt: Option<Instant>)

  /** `Job(kind, payload)` with `id` standing for `str(uuid.uuid4())`. */
  function NewJob<P>(id: string, kind: string, payload: P): Job<P> {
    Job(id, kind, payload, Queued, 0, [], None, map[], None, None)
  }

  /** A freshly constructed job: queued, at progress 0, with nothing logged,
      no error, no artifacts and no timestamps. */
  ghost predicate Pristine<P>(j: Job<P>) {
    && j.status == Queued && j.progress == 0 && j.logs == [] && j.error == None
    && j.artifacts == map[] && j.startedAt == None && j.finishedAt == None
  }

  /** `job.log(msg)`, its in-memory part: one line, `[ts] msg`, is appended.
      The copy appended to `logs/<id>.log` is not modelled. */
  function Log<P>(job: Job<P>, clock: Clock, msg: string): Job<P> {
    job.(logs := job.logs + [LogLine.Format(clock(|job.logs|), msg)])
  }

  /** Logging appends exactly the stamped line, keeps every earlier line and
      changes nothing else about the job. */
  lemma LogAppendsOneLine<P>(job: Job<P>, clock: Clock, msg: string)
    ensures var r := Log(job, clock, msg);
      && |r.logs| == |job.logs| + 1
      && r.logs[..|job.logs|] == job.logs
      && r.logs[|job.logs|] == LogLine.Format(clock(|job.logs|), msg)
      && r.(logs := job.logs) == job
  {
  }

  /** The job as the target first sees it: running, with its start time. */
  function Started<P>(job: Job<P>, start: Instant): Job<P> {
    job.(status := Running, startedAt := Some(start))
  }

  /** The body of `runner` in `JobManager.create`. A target that returns
      leaves the job `done`, whatever it did to `error`; a target that raises
      leaves it `error`, with `error` holding the exception text and one
      `Error: ...` line logged. Either way `finished_at` is stamped. */
  function Runner<P>(job: Job<P>, start: Instant, end: Instant, clock: Clock, target: Job<P> -> Outcome<Job<P>>): (r: Job<P>)
    ensures r.status == Done || r.status == Error
    ensures r.finishedAt == Some(end)
    ensures var o := target(Started(job, start));
      && (r.status == Done <==> o.Returned?)
      && r.id == o.state.id && r.kind == o.state.kind && r.payload == o.state.payload
      && r.progress == o.state.progress && r.artifacts == o.state.artifacts
      && r.startedAt == o.state.startedAt
      && (o.Returned? ==> r.logs == o.state.logs && r.error == o.state.error)
      && (o.Raised? ==>
            && r.error == Some(o.message)
            && r.logs == o.state.logs + [LogLine.Format(clock(|o.state.logs|), "Error: " + o.message)])
  {
    match target(Started(job, start))
    case Returned(j) =>
      j.(status := Done, finishedAt := Some(end))
    case Raised(j, msg) =>
      Log(j.(error := Some(msg), status := Error), clock, "Error: " + msg).(finishedAt := Some(end))
  }

  /** A target that sets `error` and returns still leaves the job `done`:
      the error text is kept, not turned into an `error` status. */
  lemma ReturnedErrorStaysDone<P>(job: Job<P>, start: Instant, end: Instant, clock: Clock, target: Job<P> -> Outcome<Job<P>>)
    requires target(Started(job, start)).Returned?
    requires target(Started(job, start)).state.error.Some?
    ensures Runner(job, start, end, clock, target).status == Done
    ensures Runner(job, start, end, clock, target).error == target(Started(job, start)).state.error
  {
  }

  /** `JobManager.jobs`. */
  datatype Manager<P> = Manager(jobs: map<string, Job<P>>)

  /** `manager.get(job_id)`: `jobs.get(job_id)`. */
  function Get<P>(m: Manager<P>, id: string): Option<Job<P>> {
    if id in m.jobs then Some(m.jobs[id]) else None
  }

  /** `manager.create(kind, payload, target)` with `id` standing for the new
      job's uuid, once the runner thread has finished: the id is returned and
      `get` of it yields the job the runner left behind, which started out
      pristine with this kind and payload. Every other id is untouched. */
  function Create<P>(m: Manager<P>, id: string, kind: string, payload: P,
                     start: Instant, end: Instant, clock: Clock, target: Job<P> -> Outcome<Job<P>>): (r: (Manager<P>, string))
    ensures r.1 == id
    ensures Get(r.0, id) == Some(Runner(NewJob(id, kind, payload), start, end, clock, target))
    ensures Pristine(NewJob(id, kind, payload))
    ensures forall other :: other != id ==> Get(r.0, other) == Get(m, other)
    ensures r.0.jobs.Keys == m.jobs.Keys + {id}
  {
    (Manager(m.jobs[id := Runner(NewJob(id, kind, payload), start, end, clock, target)]), id)
  }
}

=== FILE: lib_steps.dfy ===
/** The shape shared by the two long-running jobs of the Gradio application
    (`run_finetune` in app/finetune.py and `run_merge` in app/merge.py): a
    straight-line sequence of `job.log(...)` calls and calls into libraries
    that cannot be seen (torch, transformers, peft, unsloth, trl, datasets,
    `os.makedirs`). A library call either returns or raises; which calls
    raise, and with what message, is a parameter `fails` keyed by the call's
    name. The values the libraries return are not modelled. */
module LibSteps {
  import opened Wrappers
  import AppJobs
  import LogLine

  /** One statement of a job body.
      - `Say(msg)`: `job.log(msg)`.
      - `Call(name)`: a library call; an exception propagates.
      - `Guarded(name, note)`: a library call inside
        `try: ... except Exception: job.log(note); raise`.
      - `Tolerated(name, prefix)`: a library call inside
        `try: ... except Exception as e: job.log(f"{prefix}{e}")`, after which
        the body carries on. */
  datatype Step =
    | Say(msg: string)
    | Call(name: string)
    | Guarded(name: string, note: string)
    | Tolerated(name: string, prefix: string)

  /** Which library calls raise, and the `str()` of what they raise. */
  type Failures = string -> Option<string>

  /** Running `steps` against `job`, the k-th line logged stamped
      `clock(first + k)`. */
  function Exec<P>(job: AppJobs.Job<P>, clock: nat -> string, first: nat, steps: seq<Step>, fails: Failures): Outcome<AppJobs.Job<P>>
    decreases |steps|
  {
    if steps == [] then Returned(job)
    else
      match steps[0]
      case Say(msg) => Exec(AppJobs.Log(job, clock(first), msg), clock, first + 1, steps[1..], fails)
      case Call(name) =>
        if fails(name).Some? then Raised(job, fails(name).value)
        else Exec(job, clock, first, steps[1..], fails)
      case Guarded(name, note) =>
        if fails(name).Some? then Raised(AppJobs.Log(job, clock(first), note), fails(name).value)
        else Exec(job, clock, first, steps[1..], fails)
      case Tolerated(name, prefix) =>
        if fails(name).Some? then Exec(AppJobs.Log(job, clock(first), prefix + fails(name).value), clock, first + 1, steps[1..], fails)
        else Exec(job, clock, first, steps[1..], fails)
  }

  /** Whether a step would end the body with an exception. */
  predicate Aborts(s: Step, fails: Failures) {
    (s.Call? || s.Guarded?) && fails(s.name).Some?
  }

  /** The index of the first step that ends the body with an exception, or
      `|steps|` when none does. */
  function Stop(steps: seq<Step>, fails: Failures): (r: nat)
    ensures r <= |steps|
    ensures forall i :: 0 <= i < r ==> !Aborts(steps[i], fails)
    ensures r < |steps| ==> Aborts(steps[r], fails)
  {
    if steps == [] then 0
    else if Aborts(steps[0], fails) then 0
    else 1 + Stop(steps[1..], fails)
  }

  /** The line a step logs when it runs to completion, if any. */
  function Said(s: Step, fails: Failures): seq<string> {
    match s
    case Say(msg) => [msg]
    case Tolerated(name, prefix) => if fails(name).Some? then [prefix + fails(name).value] else []
    case _ => []
  }

  /** The lines logged by `steps`, all of which run to completion. */
  function Transcript(steps: seq<Step>, fails: Failures): seq<string>
  {
    if steps == [] then [] else Said(steps[0], fails) + Transcript(steps[1..], fails)
  }

  /** The lines a body logs: every line of the steps before the aborting
      one, then the aborting step's note when it is a guarded call. */
  function Logged(steps: seq<Step>, fails: Failures): seq<string> {
    var k := Stop(steps, fails);
    Transcript(steps[..k], fails) + (if k < |steps| && steps[k].Guarded? then [steps[k].note] else [])
  }

  /** Past a step that does not abort, the body logs that step's line and
      then whatever the rest logs. */
  lemma LoggedCons(steps: seq<Step>, fails: Failures)
    requires steps != [] && !Aborts(steps[0], fails)
    ensures Logged(steps, fails) == Said(steps[0], fails) + Logged(steps[1..], fails)
  {
    var k := Stop(steps, fails);
    assert Stop(steps[1..], fails) == k - 1;
    assert steps[..k] == [steps[0]] + steps[1..][..k - 1];
    assert Transcript(steps[..k], fails) == Said(steps[0], fails) + Transcript(steps[1..][..k - 1], fails);
  }

  /** Logging at most one line and then the rest is logging them all. */
  lemma LogAllCons<P>(job: AppJobs.Job<P>, clock: nat -> string, first: nat, said: seq<string>, rest: seq<string>)
    requires |said| <= 1
    ensures AppJobs.LogAll(After(job, clock, first, said), clock, first + |said|, rest)
         == AppJobs.LogAll(job, clock, first, said + rest)
  {
    if said != [] {
      assert (said + rest)[0] == said[0];
      assert (said + rest)[1..] == rest;
    } else {
      assert said + rest == rest;
    }
  }

  /** The job after a step that does not abort: one more line when the
      step logs one. */
  function After<P>(job: AppJobs.Job<P>, clock: nat -> string, first: nat, said: seq<string>): AppJobs.Job<P>
    requires |said| <= 1
  {
    if said == [] then job else AppJobs.Log(job, clock(first), said[0])
  }

  /** One step of `Exec`: an aborting step raises at once; any other step
      logs its line, if any, and leaves the rest to run. */
  lemma ExecHead<P>(job: AppJobs.Job<P>, clock: nat -> string, first: nat, steps: seq<Step>, fails: Failures)
    requires steps != []
    ensures Aborts(steps[0], fails) ==> (
      Exec(job, clock, first, steps, fails)
      == Raised(if steps[0].Guarded? then AppJobs.Log(job, clock(first), steps[0].note) else job, fails(steps[0].name).value))
    ensures !Aborts(steps[0], fails) ==> (
      && |Said(steps[0], fails)| <= 1
      && Exec(job, clock, first, steps, fails)
         == Exec(After(job, clock, first, Said(steps[0], fails)), clock, first + |Said(steps[0], fails)|, steps[1..], fails))
  {
  }

  /** A body whose first step aborts raises that step's failure, having
      logged the step's note when it is a guarded call. */
  lemma ExecAborting<P>(job: AppJobs.Job<P>, clock: nat -> string, first: nat, steps: seq<Step>, fails: Failures)
    requires steps != [] && Aborts(steps[0], fails)
    ensures var o := Exec(job, clock, first, steps, fails);
      && Stop(steps, fails) == 0
      && o.Raised? && o.message == fails(steps[0].name).value
      && o.state == AppJobs.LogAll(job, clock, first, Logged(steps, fails))
  {
    ExecHead(job, clock, first, steps, fails);
    assert steps[..0] == [];
    if steps[0].Guarded? {
      var note := steps[0].note;
      assert Logged(steps, fails) == [note];
      assert [note][1..] == [];
      assert AppJobs.AppendLines(job.logs, clock, first, [note])
          == AppJobs.AppendLines(AppJobs.AppendLine(job.logs, clock(first), note), clock, first + 1, []);
    } else {
      assert Logged(steps, fails) == [];
    }
  }

  /** A body raises exactly when one of its unguarded or guarded calls fails,
      and then with the first such call's message; either way the job is the
      original one with the logged lines appended and nothing else changed. */
  lemma {:induction false} ExecMatchesTranscript<P>(job: AppJobs.Job<P>, clock: nat -> string, first: nat, steps: seq<Step>, fails: Failures)
    ensures var o := Exec(job, clock, first, steps, fails);
      var k := Stop(steps, fails);
      && (o.Raised? <==> k < |steps|)
      && (o.Raised? ==> o.message == fails(steps[k].name).value)
      && o.state == AppJobs.LogAll(job, clock, first, Logged(steps, fails))
    decreases |steps|
  {
    if steps == [] {
      assert Logged(steps, fails) == [];
    } else {
      ExecHead(job, clock, first, steps, fails);
      if Aborts(steps[0], fails) {
        ExecAborting(job, clock, first, steps, fails);
      } else {
        var said := Said(steps[0], fails);
        ExecMatchesTranscript(After(job, clock, first, said), clock, first + |said|, steps[1..], fails);
        LoggedCons(steps, fails);
        LogAllCons(job, clock, first, said, Logged(steps[1..], fails));
        assert Stop(steps[1..], fails) == Stop(steps, fails) - 1;
      }
    }
  }

  /** The log a body leaves: the most recent 1000 of the old lines followed
      by the logged ones. */
  lemma ExecLogs<P>(job: AppJobs.Job<P>, clock: nat -> string, first: nat, steps: seq<Step>, fails: Failures)
    requires |job.logs| <= AppJobs.LogCap
    ensures Exec(job, clock, first, steps, fails).state.logs
         == AppJobs.Recent(job.logs + LogLine.Stamped(clock, first, Logged(steps, fails)))
  {
    ExecMatchesTranscript(job, clock, first, steps, fails);
    AppJobs.AppendLinesKeepsMostRecent(job.logs, clock, first, Logged(steps, fails));
  }

  /** A body never touches the job's status, id, kind, parameters or times. */
  lemma ExecOnlyLogs<P>(job: AppJobs.Job<P>, clock: nat -> string, first: nat, steps: seq<Step>, fails: Failures)
    ensures Exec(job, clock, first, steps, fails).state.(logs := job.logs) == job
  {
    ExecMatchesTranscript(job, clock, first, steps, fails);
  }

  /** A body that logs a line and then makes a guarded call that fails
      raises that failure, having logged the line and the call's note. */
  lemma ExecGuardedHead<P>(job: AppJobs.Job<P>, clock: nat -> string, first: nat, steps: seq<Step>, fails: Failures)
    requires |steps| >= 2 && steps[0].Say? && steps[1].Guarded? && fails(steps[1].name).Some?
    ensures Exec(job, clock, first, steps, fails)
         == Raised(AppJobs.LogAll(job, clock, first, [steps[0].msg, steps[1].note]), fails(steps[1].name).value)
  {
    var j1 := AppJobs.Log(job, clock(first), steps[0].msg);
    var j2 := AppJobs.Log(j1, clock(first + 1), steps[1].note);
    assert Exec(job, clock, first, steps, fails) == Exec(j1, clock, first + 1, steps[1..], fails);
    assert steps[1..][0] == steps[1];
    assert Exec(j1, clock, first + 1, steps[1..], fails) == Raised(j2, fails(steps[1].name).value);
    var msgs := [steps[0].msg, steps[1].note];
    assert msgs[1..] == [steps[1].note] && msgs[1..][1..] == [];
    assert AppJobs.AppendLines(job.logs, clock, first, msgs)
        == AppJobs.AppendLines(j1.logs, clock, first + 1, msgs[1..])
        == AppJobs.AppendLines(j2.logs, clock, first + 2, msgs[1..][1..]);
  }

  /** The lines of two bodies run one after the other. */
  lemma {:induction false} TranscriptAppend(a: seq<Step>, b: seq<Step>, fails: Failures)
    ensures Transcript(a + b, fails) == Transcript(a, fails) + Transcript(b, fails)
    decreases |a|
  {
    if a == [] {
      assert a + b == b;
    } else {
      assert (a + b)[1..] == a[1..] + b;
      TranscriptAppend(a[1..], b, fails);
    }
  }

  /** Steps that all complete are passed over by `Stop`. */
  lemma {:induction false} StopAfter(a: seq<Step>, b: seq<Step>, fails: Failures)
    requires forall i :: 0 <= i < |a| ==> !Aborts(a[i], fails)
    ensures Stop(a + b, fails) == |a| + Stop(b, fails)
    decreases |a|
  {
    if a == [] {
      assert a + b == b;
    } else {
      assert (a + b)[1..] == a[1..] + b;
      StopAfter(a[1..], b, fails);
    }
  }

  /** A body none of whose calls fail returns, having logged every line of
      its transcript. */
  lemma ExecCompletes<P>(job: AppJobs.Job<P>, clock: nat -> string, first: nat, steps: seq<Step>, fails: Failures)
    requires forall i :: 0 <= i < |steps| ==> !Aborts(steps[i], fails)
    ensures Exec(job, clock, first, steps, fails).Returned?
    ensures Exec(job, clock, first, steps, fails).state == AppJobs.LogAll(job, clock, first, Transcript(steps, fails))
  {
    ExecMatchesTranscript(job, clock, first, steps, fails);
    StopAfter(steps, [], fails);
    assert steps + [] == steps;
    assert Stop(steps, fails) == |steps|;
    assert steps[..|steps|] == steps;
    assert Logged(steps, fails) == Transcript(steps, fails) + [];
    assert Logged(steps, fails) == Transcript(steps, fails);
  }

  /** The lines of a body that ends by logging `msg` end with `msg`. */
  lemma TranscriptEndsWith(steps: seq<Step>, msg: string, fails: Failures)
    requires steps != [] && steps[|steps| - 1] == Say(msg)
    ensures var t := Transcript(steps, fails); |t| >= 1 && t[|t| - 1] == msg
  {
    var init := steps[..|steps| - 1];
    assert steps == init + [Say(msg)];
    TranscriptAppend(init, [Say(msg)], fails);
    assert Transcript([Say(msg)], fails) == [msg];
  }

  /** A tolerated failure between two bodies that complete: the job returns,
      having logged the first body's lines, the failure, then the second
      body's lines. */
  lemma ExecTolerated<P>(job: AppJobs.Job<P>, clock: nat -> string, first: nat,
                         a: seq<Step>, name: string, prefix: string, b: seq<Step>, fails: Failures)
    requires forall i :: 0 <= i < |a| ==> !Aborts(a[i], fails)
    requires forall i :: 0 <= i < |b| ==> !Aborts(b[i], fails)
    requires fails(name).Some?
    ensures var o := Exec(job, clock, first, a + [Tolerated(name, prefix)] + b, fails);
      && o.Returned?
      && o.state == AppJobs.LogAll(job, clock, first, Transcript(a, fails) + [prefix + fails(name).value] + Transcript(b, fails))
  {
    var t := [Tolerated(name, prefix)];
    var steps := a + t + b;
    forall i | 0 <= i < |steps|
      ensures !Aborts(steps[i], fails)
    {
      if i < |a| {
        assert steps[i] == a[i];
      } else if i > |a| {
        assert steps[i] == b[i - |a| - 1];
      }
    }
    ExecCompletes(job, clock, first, steps, fails);
    TranscriptAppend(a + t, b, fails);
    TranscriptAppend(a, t, fails);
    assert Transcript(t, fails) == [prefix + fails(name).value];
  }
}

=== FILE: pypath.dfy ===
/** The `posixpath` functions the modelled code uses on paths:
    `os.path.join`, `os.path.basename` and the extension half of
    `os.path.splitext`. */
module PyPath {

  predicate IsAbsolute(p: string) {
    |p| > 0 && p[0] == '/'
  }

  /** `os.path.join(a, b)`: an absolute `b` replaces `a`; otherwise `b` is
      appended, with a `/` between them unless `a` is empty or already ends
      with one. */
  function Join(a: string, b: string): string {
    if IsAbsolute(b) then b
    else if a == [] || a[|a| - 1] == '/' then a + b
    else a + "/" + b
  }

  /** `given or os.path.join(base, name)`, where an empty `given` stands
      for both Python's `None` and the empty string. */
  function OrJoin(given: string, base: string, name: string): (r: string)
    ensures given != [] ==> r == given
  {
    if given != [] then given else Join(base, name)
  }

  /** A join of a relative `b` starts with `a` and ends with `b`; an absolute
      `b` is the whole result. */
  lemma JoinShape(a: string, b: string)
    ensures IsAbsolute(b) ==> Join(a, b) == b
    ensures var r := Join(a, b);
      !IsAbsolute(b) ==> |r| >= |a| + |b| && r[..|a|] == a && r[|r| - |b|..] == b
  {
  }

  /** `os.path.basename(p)`: what follows the last `/` of `p` (all of `p`
      when it has none). */
  function Basename(p: string): string {
    if p == [] || p[|p| - 1] == '/' then []
    else Basename(p[..|p| - 1]) + [p[|p| - 1]]
  }

  /** The basename is the longest suffix of `p` without a `/`: it holds no
      `/`, and it is either all of `p` or preceded by a `/`. */
  lemma {:induction false} BasenameIsLastSegment(p: string)
    ensures var r := Basename(p);
      && '/' !in r
      && |r| <= |p| && r == p[|p| - |r|..]
      && (|r| == |p| || p[|p| - |r| - 1] == '/')
    decreases |p|
  {
    if p != [] && p[|p| - 1] != '/' {
      var q := p[..|p| - 1];
      BasenameIsLastSegment(q);
      var r := Basename(p);
      assert r == Basename(q) + [p[|p| - 1]];
      assert p == q + [p[|p| - 1]];
    }
  }

  lemma {:induction false} BasenameAfterSlash(prefix: string, name: string)
    requires '/' !in name
    requires prefix == [] || prefix[|prefix| - 1] == '/'
    ensures Basename(prefix + name) == name
    decreases |name|
  {
    if name != [] {
      var p := prefix + name;
      assert p[..|p| - 1] == prefix + name[..|name| - 1];
      BasenameAfterSlash(prefix, name[..|name| - 1]);
    } else {
      assert prefix + name == prefix;
    }
  }

  /** Joining a single relative name onto a directory makes that name the
      basename of the result. */
  lemma BasenameOfJoin(dir: string, name: string)
    requires '/' !in name
    ensures Basename(Join(dir, name)) == name
  {
    if dir == [] || dir[|dir| - 1] == '/' {
      BasenameAfterSlash(dir, name);
    } else {
      assert Join(dir, name) == (dir + "/") + name;
      BasenameAfterSlash(dir + "/", name);
    }
  }

  /** Index of the last occurrence of `c` in `s`, or -1. */
  function LastIndexOf(s: string, c: char): (r: int)
    ensures -1 <= r < |s|
    ensures r >= 0 ==> s[r] == c
    ensures forall i :: r < i < |s| ==> s[i] != c
  {
    if s == [] then -1
    else if s[|s| - 1] == c then |s| - 1
    else LastIndexOf(s[..|s| - 1], c)
  }

  /** Characters other than `c` appended after `a` do not move the last
      `c`. */
  lemma {:induction false} LastIndexOfPast(a: string, b: string, c: char)
    requires c !in b
    ensures LastIndexOf(a + b, c) == LastIndexOf(a, c)
    decreases |b|
  {
    if b == [] {
      assert a + b == a;
    } else {
      var s := a + b;
      assert s[|s| - 1] == b[|b| - 1];
      assert s[..|s| - 1] == a + b[..|b| - 1];
      assert b[|b| - 1] in b;
      LastIndexOfPast(a, b[..|b| - 1], c);
    }
  }

  /** The extension of a file name: from its last `.` on, provided some
      character other than `.` precedes that dot (so `.bashrc` and `..` have
      none). */
  function NameExt(name: string): (r: string)
    ensures r == [] || (r[0] == '.' && '.' !in r[1..] && |r| < |name| && r == name[|name| - |r|..])
  {
    var d := LastIndexOf(name, '.');
    if d > 0 && exists j :: 0 <= j < d && name[j] != '.' then name[d..] else []
  }

  /** `os.path.splitext(p)[1]`: the extension of the last path segment. */
  function Ext(p: string): (r: string)
    ensures '/' !in r
    ensures r == [] || r[0] == '.'
  {
    BasenameIsLastSegment(p);
    NameExt(Basename(p))
  }
}

=== FILE: pystr.dfy ===
/** The handful of Python string built-ins the modelled code relies on:
    `str.strip`, `str.lower`, `str.replace`, `str.join`, the slice `xs[-n:]`,
    `str()` of a non-negative `int` or a `bool`, and `str()` of a `dict`. */
module PyStr {

  /** `c.isspace()`: the characters `str.strip()` removes when called with no
      argument (ASCII whitespace, the information separators 0x1C-0x1F, and the
      Unicode space separators). */
  predicate IsSpace(c: char) {
    || c == ' ' || c == '\t' || c == '\n' || c == '\r' || c == '\U{0B}' || c == '\U{0C}'
    || ('\U{1C}' <= c <= '\U{1F}')
    || c == '\U{85}' || c == '\U{A0}' || c == '\U{1680}'
    || ('\U{2000}' <= c <= '\U{200A}')
    || c == '\U{2028}' || c == '\U{2029}' || c == '\U{202F}' || c == '\U{205F}' || c == '\U{3000}'
  }

  /** `s.lstrip()`. */
  function LStrip(s: string): string {
    if |s| > 0 && IsSpace(s[0]) then LStrip(s[1..]) else s
  }

  /** `s.rstrip()`. */
  function RStrip(s: string): string {
    if |s| > 0 && IsSpace(s[|s| - 1]) then RStrip(s[..|s| - 1]) else s
  }

  /** `s.strip()`: `s` without its leading and trailing whitespace. */
  function Strip(s: string): string {
    RStrip(LStrip(s))
  }

  /** True when `str(s).strip() == ""`. */
  predicate IsBlank(s: string) {
    Strip(s) == []
  }

  /** `lstrip` keeps the longest suffix not starting with whitespace; all it
      drops is whitespace. */
  lemma {:induction false} LStripShape(s: string)
    ensures var r := LStrip(s);
      && |r| <= |s| && r == s[|s| - |r|..]
      && (forall i :: 0 <= i < |s| - |r| ==> IsSpace(s[i]))
      && (r == [] || !IsSpace(r[0]))
    decreases |s|
  {
    if |s| > 0 && IsSpace(s[0]) {
      LStripShape(s[1..]);
    }
  }

  /** `rstrip` keeps the longest prefix not ending with whitespace; all it
      drops is whitespace. */
  lemma {:induction false} RStripShape(s: string)
    ensures var r := RStrip(s);
      && |r| <= |s| && r == s[..|r|]
      && (forall i :: |r| <= i < |s| ==> IsSpace(s[i]))
      && (r == [] || !IsSpace(r[|r| - 1]))
    decreases |s|
  {
    if |s| > 0 && IsSpace(s[|s| - 1]) {
      RStripShape(s[..|s| - 1]);
    }
  }

  /** A stripped string is no longer than the original and neither starts
      nor ends with whitespace. */
  lemma StripShape(s: string)
    ensures |Strip(s)| <= |s|
    ensures Strip(s) == [] || (!IsSpace(Strip(s)[0]) && !IsSpace(Strip(s)[|Strip(s)| - 1]))
  {
    var l := LStrip(s);
    LStripShape(s);
    RStripShape(l);
    var r := RStrip(l);
    if r != [] {
      assert r[0] == l[0];
    }
  }

  lemma {:induction false} LStripAllSpace(s: string)
    requires forall i :: 0 <= i < |s| ==> IsSpace(s[i])
    ensures LStrip(s) == []
    decreases |s|
  {
    if |s| > 0 {
      LStripAllSpace(s[1..]);
    }
  }

  /** A string strips to nothing exactly when every character is whitespace. */
  lemma BlankIffAllSpace(s: string)
    ensures IsBlank(s) <==> forall i :: 0 <= i < |s| ==> IsSpace(s[i])
  {
    var l := LStrip(s);
    if forall i :: 0 <= i < |s| ==> IsSpace(s[i]) {
      LStripAllSpace(s);
    } else {
      var k :| 0 <= k < |s| && !IsSpace(s[k]);
      LStripShape(s);
      assert l != [];
      assert !IsSpace(l[0]);
      RStripShape(l);
    }
  }

  lemma {:induction false} LStripPadded(pre: string, x: string)
    requires forall i :: 0 <= i < |pre| ==> IsSpace(pre[i])
    requires x == [] || !IsSpace(x[0])
    ensures LStrip(pre + x) == x
    decreases |pre|
  {
    if |pre| > 0 {
      assert (pre + x)[1..] == pre[1..] + x;
      LStripPadded(pre[1..], x);
    } else {
      assert pre + x == x;
    }
  }

  lemma {:induction false} RStripPadded(x: string, post: string)
    requires forall i :: 0 <= i < |post| ==> IsSpace(post[i])
    requires x == [] || !IsSpace(x[|x| - 1])
    ensures RStrip(x + post) == x
    decreases |post|
  {
    if |post| > 0 {
      assert (x + post)[..|x + post| - 1] == x + post[..|post| - 1];
      RStripPadded(x, post[..|post| - 1]);
    } else {
      assert x + post == x;
    }
  }

  /** Whitespace around a text that neither starts nor ends with whitespace is
      exactly what `strip()` removes. */
  lemma StripPadded(pre: string, x: string, post: string)
    requires forall i :: 0 <= i < |pre| ==> IsSpace(pre[i])
    requires forall i :: 0 <= i < |post| ==> IsSpace(post[i])
    requires x != [] && !IsSpace(x[0]) && !IsSpace(x[|x| - 1])
    ensures Strip(pre + x + post) == x
  {
    assert pre + x + post == pre + (x + post);
    LStripPadded(pre, x + post);
    RStripPadded(x, post);
  }

  /** `c.lower()` for ASCII letters; every other character is left as is. */
  function LowerChar(c: char): char {
    if 'A' <= c <= 'Z' then (c as int + 32) as char else c
  }

  /** `s.lower()`, restricted to ASCII case mapping. */
  function Lower(s: string): (r: string)
    ensures |r| == |s|
    ensures forall i :: 0 <= i < |s| ==> r[i] == LowerChar(s[i])
  {
    seq(|s|, i requires 0 <= i < |s| => LowerChar(s[i]))
  }

  /** `s.replace(c, rep)` for a one-character pattern `c`. */
  function ReplaceChar(s: string, c: char, rep: string): (r: string)
    ensures c !in rep ==> c !in r
    ensures c !in s ==> r == s
    ensures |r| >= |s| || |rep| == 0
  {
    if |s| == 0 then []
    else (if s[0] == c then rep else [s[0]]) + ReplaceChar(s[1..], c, rep)
  }

  /** `repo_id.replace("/", "__")`: a repository id flattened into one path
      segment. */
  function FlattenRepoId(id: string): (r: string)
    ensures '/' !in r
    ensures '/' !in id ==> r == id
  {
    ReplaceChar(id, '/', "__")
  }

  /** `sep.join(xs)`. */
  function Join(xs: seq<string>, sep: string): string
  {
    if |xs| == 0 then []
    else if |xs| == 1 then xs[0]
    else xs[0] + sep + Join(xs[1..], sep)
  }

  /** `s.split(c)` for a one-character separator: the pieces between
      occurrences of `c`, so always at least one (`"".split(c) == [""]`). */
  function Split(s: string, c: char): (r: seq<string>)
    ensures |r| >= 1
  {
    if s == [] then [[]]
    else
      var rest := Split(s[1..], c);
      if s[0] == c then [[]] + rest else [[s[0]] + rest[0]] + rest[1..]
  }

  lemma {:induction false} SplitNoSep(a: string, c: char)
    requires c !in a
    ensures Split(a, c) == [a]
    decreases |a|
  {
    if a != [] {
      SplitNoSep(a[1..], c);
      assert [a[0]] + a[1..] == a;
    }
  }

  lemma {:induction false} SplitAfter(a: string, c: char, b: string)
    requires c !in a
    ensures Split(a + [c] + b, c) == [a] + Split(b, c)
    decreases |a|
  {
    var s := a + [c] + b;
    if a == [] {
      assert s[1..] == b;
    } else {
      assert s[1..] == a[1..] + [c] + b;
      SplitAfter(a[1..], c, b);
      assert [a[0]] + a[1..] == a;
    }
  }

  /** Splitting a join on a separator that occurs in none of the pieces gives
      the pieces back. */
  lemma {:induction false} JoinSplit(xs: seq<string>, c: char)
    requires |xs| >= 1
    requires forall i :: 0 <= i < |xs| ==> c !in xs[i]
    ensures Split(Join(xs, [c]), c) == xs
    decreases |xs|
  {
    if |xs| == 1 {
      SplitNoSep(xs[0], c);
    } else {
      JoinSplit(xs[1..], c);
      SplitAfter(xs[0], c, Join(xs[1..], [c]));
      assert [xs[0]] + xs[1..] == xs;
    }
  }

  /** Stripping twice strips nothing more. */
  lemma StripIdempotent(s: string)
    ensures Strip(Strip(s)) == Strip(s)
  {
    var x := Strip(s);
    StripShape(s);
    if x != [] {
      StripPadded([], x, []);
      assert [] + x + [] == x;
    }
  }

  /** `xs[-n:]` for `n >= 1`: the last `n` elements, or all of them when there
      are fewer. */
  function Tail<T>(xs: seq<T>, n: nat): (r: seq<T>)
    requires n >= 1
    ensures |r| == if |xs| <= n then |xs| else n
    ensures r == xs[|xs| - |r|..]
  {
    if |xs| <= n then xs else xs[|xs| - n..]
  }

  /** `str(b)` of a Python bool. */
  function BoolText(b: bool): string {
    if b then "True" else "False"
  }

  function DigitChar(d: nat): char
    requires d < 10
  {
    "0123456789"[d]
  }

  /** `str(n)` of a non-negative Python int: its decimal digits, most
      significant first, without leading zeros. */
  function DecimalText(n: nat): (r: string)
    ensures |r| >= 1
    ensures forall i :: 0 <= i < |r| ==> '0' <= r[i] <= '9'
    ensures n >= 10 ==> r[0] != '0'
  {
    if n < 10 then [DigitChar(n)] else DecimalText(n / 10) + [DigitChar(n % 10)]
  }

  /** A Python `dict` as the modelled code sees it: its entries in insertion
      order, each key and value already rendered with `repr()`. */
  datatype PyDict = PyDict(entries: seq<(string, string)>) {
    predicate IsEmpty() { |entries| == 0 }
  }

  function EntryTexts(es: seq<(string, string)>): (r: seq<string>)
    ensures |r| == |es|
    ensures forall i :: 0 <= i < |es| ==> r[i] == es[i].0 + ": " + es[i].1
  {
    if |es| == 0 then [] else [es[0].0 + ": " + es[0].1] + EntryTexts(es[1..])
  }

  /** `str(d)` of a dict: `{k1: v1, k2: v2}`, so `{}` when it is empty. */
  function DictText(d: PyDict): (r: string)
    ensures |r| >= 2 && r[0] == '{' && r[|r| - 1] == '}'
    ensures d.IsEmpty() <==> r == "{}"
  {
    var r := "{" + Join(EntryTexts(d.entries), ", ") + "}";
    assert d.entries != [] ==> |Join(EntryTexts(d.entries), ", ")| >= 2 by {
      if d.entries != [] {
        JoinLength(EntryTexts(d.entries), ", ");
      }
    }
    r
  }

  /** A join starts with its first element. */
  lemma JoinLength(xs: seq<string>, sep: string)
    requires |xs| >= 1
    ensures |Join(xs, sep)| >= |xs[0]|
    ensures Join(xs, sep)[..|xs[0]|] == xs[0]
  {
  }
}

/** The line format both job implementations use for their logs:
    `[<strftime("%Y-%m-%d %H:%M:%S")>] <message>`; the timestamp text is
    abstract. */
module LogLine {

  function Format(ts: string, msg: string): string {
    "[" + ts + "] " + msg
  }

  /** Two lines with the same timestamp are equal only if their messages are. */
  lemma FormatInjective(ts: string, m1: string, m2: string)
    requires Format(ts, m1) == Format(ts, m2)
    ensures m1 == m2
  {
    var a, b := Format(ts, m1), Format(ts, m2);
    assert m1 == a[|ts| + 3..];
    assert m2 == b[|ts| + 3..];
  }

  /** The lines `msgs` stamped by `clock`, the i-th with `clock(first + i)`. */
  function Stamped(clock: nat -> string, first: nat, msgs: seq<string>): (r: seq<string>)
    ensures |r| == |msgs|
  {
    seq(|msgs|, i requires 0 <= i < |msgs| => Format(clock(first + i), msgs[i]))
  }

  /** The i-th stamped line is the i-th message stamped `clock(first + i)`. */
  lemma StampedAt(clock: nat -> string, first: nat, msgs: seq<string>, i: nat)
    requires i < |msgs|
    ensures Stamped(clock, first, msgs)[i] == Format(clock(first + i), msgs[i])
  {
  }

  /** Stamping a non-empty list stamps its head with `clock(first)` and the
      rest from `first + 1` on. */
  lemma StampedCons(clock: nat -> string, first: nat, msgs: seq<string>)
    requires msgs != []
    ensures Stamped(clock, first, msgs) == [Format(clock(first), msgs[0])] + Stamped(clock, first + 1, msgs[1..])
  {
    var a, b := Stamped(clock, first, msgs), [Format(clock(first), msgs[0])] + Stamped(clock, first + 1, msgs[1..]);
    assert |a| == |b|;
    forall i | 0 <= i < |a|
      ensures a[i] == b[i]
    {
      if i > 0 {
        assert b[i] == Stamped(clock, first + 1, msgs[1..])[i - 1];
      }
    }
  }


  /** Stamping a concatenation stamps the second part from where the first
      part ends. */
  lemma StampedAppend(clock: nat -> string, first: nat, a: seq<string>, b: seq<string>)
    ensures Stamped(clock, first, a + b) == Stamped(clock, first, a) + Stamped(clock, first + |a|, b)
  {
    var l, r := Stamped(clock, first, a + b), Stamped(clock, first, a) + Stamped(clock, first + |a|, b);
    assert |l| == |r|;
    forall i | 0 <= i < |l|
      ensures l[i] == r[i]
    {
      if i >= |a| {
        assert r[i] == Stamped(clock, first + |a|, b)[i - |a|];
      }
    }
  }
}

=== FILE: stages.dfy ===
/** The backend's pipeline stages (llm-factory-ollama/backend/app/pipeline/),
    each as the effect script it performs and the value it returns:
    the three dry-run trainers `run_lora`, `run_rlhf` and `run_dpo`, then
    `resize`, `quantize`, `export_model` and `write_modelfile`.

    `int(time.time())` is the parameter `now`; `datetime.utcnow().isoformat()`
    is the parameter `date`; `time.sleep` is left out. */
module Stages {
  import opened Wrappers
  import PyStr
  import PyPath
  import opened Effects

  /** What a stage does and what it returns. */
  datatype Run<R> = Run(effects: seq<Effect>, result: R)

  /** `ensure_model_dir(model_id)`: the directory `models/<model_id>`. */
  function ModelDir(modelId: string): string {
    PyPath.Join("models", modelId)
  }

  /** `int(i / n * 60)`, the progress after step `i` of `n`. For the five-step
      lists of the trainers the float quotient times 60 is exact, so the
      truncated value is the integer quotient `i * 60 / n`. */
  function StepProgress(i: nat, n: nat): nat
    requires n > 0
  {
    i * 60 / n
  }

  /** The loop `for i, step in enumerate(steps, first)`: set the progress for
      step `i` of `n`, then log the step's name. */
  function StepEffects(steps: seq<string>, i: nat, n: nat): seq<Effect>
    requires steps != [] ==> n > 0
    decreases |steps|
  {
    if steps == [] then []
    else [SetProgress(StepProgress(i, n)), Log(steps[0])] + StepEffects(steps[1..], i + 1, n)
  }

  /** The step loop logs the step names in order, assigns step `i`'s progress
      before step `i`'s line, and touches no artifact, error or file. */
  lemma {:induction false} StepEffectsProjections(steps: seq<string>, i: nat, n: nat)
    requires steps != [] ==> n > 0
    ensures Messages(StepEffects(steps, i, n)) == steps
    ensures |ProgressValues(StepEffects(steps, i, n))| == |steps|
    ensures forall k :: 0 <= k < |steps| ==> ProgressValues(StepEffects(steps, i, n))[k] == StepProgress(i + k, n)
    ensures forall key :: ArtifactValue(StepEffects(steps, i, n), key) == None
    ensures ErrorValue(StepEffects(steps, i, n)) == None
    ensures forall p :: FileValue(StepEffects(steps, i, n), p) == None
    ensures DirsMade(StepEffects(steps, i, n)) == {}
    decreases |steps|
  {
    if steps != [] {
      var head: seq<Effect> := [SetProgress(StepProgress(i, n)), Log(steps[0])];
      var tail := StepEffects(steps[1..], i + 1, n);
      StepEffectsProjections(steps[1..], i + 1, n);
      ProjectionsAppend(head, tail);
      assert head[1..] == [Log(steps[0])];
      assert Messages(head) == [steps[0]];
      assert ProgressValues(head) == [StepProgress(i, n)];
      assert steps == [steps[0]] + steps[1..];
      var pv := ProgressValues(StepEffects(steps, i, n));
      forall k | 0 <= k < |steps|
        ensures pv[k] == StepProgress(i + k, n)
      {
        if k > 0 {
          assert pv[k] == ProgressValues(tail)[k - 1];
        }
      }
    }
  }

  /** The step progress never goes down and never passes 60 within a run of
      `n` steps. */
  lemma StepProgressMonotone(i: nat, j: nat, n: nat)
    requires n > 0 && i <= j <= n
    ensures StepProgress(i, n) <= StepProgress(j, n) <= 60
  {
    MulLe(i, j, 60);
    MulLe(j, n, 60);
    DivLe(i * 60, j * 60, n);
    DivLe(j * 60, n * 60, n);
    MulDiv(60, n);
  }

  lemma MulLe(a: int, b: int, c: nat)
    ensures a <= b ==> a * c <= b * c
  {
  }

  lemma DivLe(a: nat, b: nat, n: nat)
    requires n > 0 && a <= b
    ensures a / n <= b / n
  {
    MulLe(b / n + 1, a / n, n);
  }

  lemma MulDiv(k: nat, n: nat)
    requires n > 0
    ensures (n * k) / n == k
  {
    MulLe((n * k) / n + 1, k, n);
    MulLe(k + 1, (n * k) / n, n);
  }

  /** A dry-run trainer: the id prefix, the start line (and whether it is
      logged before the model directory is made), the step names, the artifact
      key and file name of its output, and the placeholder bytes it writes. */
  datatype Trainer = Trainer(
    prefix: string,
    startLine: string,
    logsBeforeDir: bool,
    steps: seq<string>,
    artifactKey: string,
    fileName: string,
    placeholder: string)

  /** `run_lora`; `dryRun` is `req.get("dry_run", True)`. */
  function LoraTrainer(dryRun: bool): Trainer {
    Trainer("model-", "[LoRA] Starting fine-tune (dry-run=" + PyStr.BoolText(dryRun) + ")", false,
      ["Loading base model", "Preparing dataset", "Attaching LoRA adapters", "Training loop", "Saving adapters"],
      "adapter", "lora_adapter.safetensors", "SFT_PLACEHOLDER")
  }

  /** `run_rlhf`. */
  const RlhfTrainer := Trainer("rlhf-", "[RLHF] Starting preference collection and policy optimization (dry-run)", true,
    ["Loading base model", "Collecting preferences (simulated)", "Computing rewards (simulated)", "Policy optimization", "Saving policy"],
    "policy", "rlhf_policy.safetensors", "RLHF_PLACEHOLDER")

  /** `run_dpo`. */
  const DpoTrainer := Trainer("dpo-", "[DPO] Starting direct preference optimization (dry-run)", true,
    ["Loading base model", "Loading preference dataset (simulated)", "Computing preference loss", "Optimizing policy", "Saving adapters/policy"],
    "policy", "dpo_policy.safetensors", "DPO_PLACEHOLDER")

  /** The id a trainer started at `now` gives its model. */
  function TrainedModelId(t: Trainer, now: nat): string {
    t.prefix + PyStr.DecimalText(now)
  }

  /** The trainer's output file inside the model directory. */
  function TrainedFile(t: Trainer, now: nat): string {
    PyPath.Join(ModelDir(TrainedModelId(t, now)), t.fileName)
  }

  /** The final statements of every trainer. */
  function TrainFinish(t: Trainer, now: nat): seq<Effect> {
    var id := TrainedModelId(t, now);
    [WriteFile(TrainedFile(t, now), t.placeholder),
     SetArtifact(t.artifactKey, TrainedFile(t, now)),
     SetArtifact("model_id", id),
     Log("Artifacts at " + ModelDir(id)),
     SetProgress(60)]
  }

  function TrainStart(t: Trainer, now: nat): seq<Effect> {
    var dir := ModelDir(TrainedModelId(t, now));
    if t.logsBeforeDir then [Log(t.startLine), MakeDir(dir)] else [MakeDir(dir), Log(t.startLine)]
  }

  /** `run_lora` / `run_rlhf` / `run_dpo`: start line, step loop, placeholder
      file, artifacts, final line and progress; returns the model id. */
  function Train(t: Trainer, now: nat): Run<string> {
    Run(TrainStart(t, now) + StepEffects(t.steps, 1, |t.steps|) + TrainFinish(t, now), TrainedModelId(t, now))
  }

  lemma TrainStartProjections(t: Trainer, now: nat)
    ensures Messages(TrainStart(t, now)) == [t.startLine]
    ensures ProgressValues(TrainStart(t, now)) == []
    ensures forall k :: ArtifactValue(TrainStart(t, now), k) == None
    ensures ErrorValue(TrainStart(t, now)) == None
    ensures forall p :: FileValue(TrainStart(t, now), p) == None
    ensures DirsMade(TrainStart(t, now)) == {ModelDir(TrainedModelId(t, now))}
  {
    var s := TrainStart(t, now);
    assert s == [s[0]] + ([s[1]] + []);
    ProjectionsCons(s[1], []);
    ProjectionsCons(s[0], [s[1]] + []);
  }

  lemma TrainFinishProjections(t: Trainer, now: nat)
    ensures Messages(TrainFinish(t, now)) == ["Artifacts at " + ModelDir(TrainedModelId(t, now))]
    ensures ProgressValues(TrainFinish(t, now)) == [60]
    ensures ArtifactValue(TrainFinish(t, now), "model_id") == Some(TrainedModelId(t, now))
    ensures forall k :: k != "model_id" && k == t.artifactKey ==> ArtifactValue(TrainFinish(t, now), k) == Some(TrainedFile(t, now))
    ensures forall k :: k != "model_id" && k != t.artifactKey ==> ArtifactValue(TrainFinish(t, now), k) == None
    ensures ErrorValue(TrainFinish(t, now)) == None
    ensures FileValue(TrainFinish(t, now), TrainedFile(t, now)) == Some(t.placeholder)
    ensures DirsMade(TrainFinish(t, now)) == {}
  {
    var s := TrainFinish(t, now);
    assert s == [s[0]] + ([s[1]] + ([s[2]] + ([s[3]] + ([s[4]] + []))));
    ProjectionsCons(s[4], []);
    ProjectionsCons(s[3], [s[4]] + []);
    ProjectionsCons(s[2], [s[3]] + ([s[4]] + []));
    ProjectionsCons(s[1], [s[2]] + ([s[3]] + ([s[4]] + [])));
    ProjectionsCons(s[0], [s[1]] + ([s[2]] + ([s[3]] + ([s[4]] + []))));
  }

  /** A trainer logs its start line, then one line per step in step order,
      then `Artifacts at models/<id>`; nothing else. */
  lemma TrainMessages(t: Trainer, now: nat)
    ensures Messages(Train(t, now).effects) == [t.startLine] + t.steps + ["Artifacts at " + ModelDir(Train(t, now).result)]
  {
    var a, b, c := TrainStart(t, now), StepEffects(t.steps, 1, |t.steps|), TrainFinish(t, now);
    TrainStartProjections(t, now);
    StepEffectsProjections(t.steps, 1, |t.steps|);
    TrainFinishProjections(t, now);
    MessagesAppend(a, b);
    MessagesAppend(a + b, c);
  }

  /** The progress history `int(i/n*60)` for i = 1..n followed by 60. */
  ghost predicate IsSchedule(pv: seq<nat>, n: nat) {
    && n > 0 && |pv| == n + 1
    && (forall k :: 0 <= k < n ==> pv[k] == StepProgress(k + 1, n))
    && pv[n] == 60
  }

  /** Such a history never decreases and never exceeds 60. */
  lemma ScheduleMonotone(pv: seq<nat>, n: nat)
    requires IsSchedule(pv, n)
    ensures NonDecreasing(pv)
    ensures forall k :: 0 <= k < |pv| ==> pv[k] <= 60
  {
    forall k | 0 <= k < |pv|
      ensures pv[k] <= 60
    {
      if k < n {
        StepProgressMonotone(k + 1, n, n);
      }
    }
    forall i, j | 0 <= i < j < |pv|
      ensures pv[i] <= pv[j]
    {
      if j < n {
        StepProgressMonotone(i + 1, j + 1, n);
      } else {
        assert pv[j] == 60;
      }
    }
  }

  /** A trainer with at least one step has the schedule as its progress
      history: it never decreases, never exceeds 60, and ends at exactly 60. */
  lemma TrainProgress(t: Trainer, now: nat)
    requires t.steps != []
    ensures IsSchedule(ProgressValues(Train(t, now).effects), |t.steps|)
    ensures NonDecreasing(ProgressValues(Train(t, now).effects))
    ensures var pv := ProgressValues(Train(t, now).effects);
      pv[|pv| - 1] == 60 && forall k :: 0 <= k < |pv| ==> pv[k] <= 60
  {
    var n := |t.steps|;
    var a, b, c := TrainStart(t, now), StepEffects(t.steps, 1, n), TrainFinish(t, now);
    TrainStartProjections(t, now);
    StepEffectsProjections(t.steps, 1, n);
    TrainFinishProjections(t, now);
    ProgressValuesAppend(a, b);
    ProgressValuesAppend(a + b, c);
    var pv := ProgressValues(Train(t, now).effects);
    assert pv == ProgressValues(b) + [60];
    assert IsSchedule(pv, n);
    ScheduleMonotone(pv, n);
  }

  /** With five steps the schedule is 12, 24, 36, 48, 60 and then 60 again. */
  lemma FiveStepValues(pv: seq<nat>)
    requires IsSchedule(pv, 5)
    ensures pv == [12, 24, 36, 48, 60, 60]
  {
    assert pv[0] == StepProgress(1, 5) && pv[1] == StepProgress(2, 5) && pv[2] == StepProgress(3, 5);
    assert pv[3] == StepProgress(4, 5) && pv[4] == StepProgress(5, 5);
  }

  /** A trainer sets exactly two artifacts: its output file under its own key
      and `model_id`, which is the id it returns. No error is set. */
  lemma TrainArtifacts(t: Trainer, now: nat)
    requires t.artifactKey != "model_id"
    ensures var es := Train(t, now).effects;
      && ArtifactValue(es, "model_id") == Some(Train(t, now).result)
      && ArtifactValue(es, t.artifactKey) == Some(TrainedFile(t, now))
      && (forall k :: k != "model_id" && k != t.artifactKey ==> ArtifactValue(es, k) == None)
      && ErrorValue(es) == None
  {
    var a, b, c := TrainStart(t, now), StepEffects(t.steps, 1, |t.steps|), TrainFinish(t, now);
    TrainStartProjections(t, now);
    StepEffectsProjections(t.steps, 1, |t.steps|);
    TrainFinishProjections(t, now);
    ProjectionsAppend(a, b);
    ProjectionsAppend(a + b, c);
  }

  /** The returned id is the trainer's prefix followed by the decimal digits
      of `int(time.time())`. */
  lemma TrainedIdShape(t: Trainer, now: nat)
    ensures var id := Train(t, now).result;
      && |id| > |t.prefix| && id[..|t.prefix|] == t.prefix
      && forall i :: |t.prefix| <= i < |id| ==> '0' <= id[i] <= '9'
  {
    var id := Train(t, now).result;
    var digits := PyStr.DecimalText(now);
    assert id == t.prefix + digits;
    forall i | |t.prefix| <= i < |id|
      ensures '0' <= id[i] <= '9'
    {
      assert id[i] == digits[i - |t.prefix|];
    }
  }

  /** Each of the three trainers has five steps, so its progress history is
      12, 24, 36, 48, 60 and then 60 again; their id prefixes are `model-`,
      `rlhf-` and `dpo-`, and their artifact keys `adapter`, `policy` and
      `policy`, none of which is `model_id`. */
  lemma FiveStepSchedule(dryRun: bool, now: nat)
    ensures LoraTrainer(dryRun).prefix == "model-" && LoraTrainer(dryRun).artifactKey == "adapter"
    ensures RlhfTrainer.prefix == "rlhf-" && RlhfTrainer.artifactKey == "policy"
    ensures DpoTrainer.prefix == "dpo-" && DpoTrainer.artifactKey == "policy"
    ensures forall t :: t in {LoraTrainer(dryRun), RlhfTrainer, DpoTrainer} ==>
      && t.artifactKey != "model_id"
      && ProgressValues(Train(t, now).effects) == [12, 24, 36, 48, 60, 60]
  {
    forall t | t in {LoraTrainer(dryRun), RlhfTrainer, DpoTrainer}
      ensures ProgressValues(Train(t, now).effects) == [12, 24, 36, 48, 60, 60]
    {
      assert |t.steps| == 5;
      TrainProgress(t, now);
      FiveStepValues(ProgressValues(Train(t, now).effects));
    }
  }

  // ---- resize ---------------------------------------------------------------

  /** `resize(job, model_dir, settings)`: with `settings` None or an empty
      dict it does nothing and returns None; otherwise it logs the settings,
      writes them to `model_dir/resize.txt`, sets progress 70 and returns
      that path. */
  function Resize(modelDir: string, settings: Option<PyStr.PyDict>): Run<Option<string>> {
    if settings.None? || settings.value.IsEmpty() then Run([], None)
    else
      var marker := PyPath.Join(modelDir, "resize.txt");
      Run([Log("Resizer: " + PyStr.DictText(settings.value)),
           WriteFile(marker, PyStr.DictText(settings.value)),
           SetProgress(70)], Some(marker))
  }

  /** Falsy settings leave the job untouched; otherwise exactly one
      `Resizer: ...` line is logged and progress becomes 70. Either way no
      artifact or error is set. */
  lemma ResizeEffects(modelDir: string, settings: Option<PyStr.PyDict>)
    ensures var r := Resize(modelDir, settings);
      && (forall k :: ArtifactValue(r.effects, k) == None)
      && ErrorValue(r.effects) == None
      && (r.result.None? <==> settings.None? || settings.value.IsEmpty())
      && (r.result.None? ==> r.effects == [])
      && (r.result.None? ==> Messages(r.effects) == [] && ProgressValues(r.effects) == [])
      && (r.result.Some? ==>
            && Messages(r.effects) == ["Resizer: " + PyStr.DictText(settings.value)]
            && ProgressValues(r.effects) == [70]
            && r.result.value == PyPath.Join(modelDir, "resize.txt")
            && FileValue(r.effects, r.result.value) == Some(PyStr.DictText(settings.value)))
  {
    var r := Resize(modelDir, settings);
    if r.effects != [] {
      var a, b, c := r.effects[0], r.effects[1], r.effects[2];
      assert r.effects == [a] + ([b] + ([c] + []));
      ProjectionsCons(c, []);
      ProjectionsCons(b, [c] + []);
      ProjectionsCons(a, [b] + ([c] + []));
    }
  }

  // ---- quantize -------------------------------------------------------------

  /** The marker file `quantize` writes for scheme `scheme`. */
  function QuantMarker(modelDir: string, scheme: string): string {
    PyPath.Join(modelDir, "quant_" + scheme + ".txt")
  }

  /** `quantize(job, model_dir, method)`. It runs for every scheme, `none`
      included. */
  function Quantize(modelDir: string, scheme: string): Run<string> {
    Run([Log("Quantization: " + scheme), WriteFile(QuantMarker(modelDir, scheme), "quantized"), SetProgress(75)],
        QuantMarker(modelDir, scheme))
  }

  /** `quantize` logs exactly `Quantization: <scheme>`, sets progress 75,
      writes and returns `model_dir/quant_<scheme>.txt`, and sets no
      artifact or error. */
  lemma QuantizeEffects(modelDir: string, scheme: string)
    ensures var r := Quantize(modelDir, scheme);
      && Messages(r.effects) == ["Quantization: " + scheme]
      && ProgressValues(r.effects) == [75]
      && (forall k :: ArtifactValue(r.effects, k) == None)
      && ErrorValue(r.effects) == None
      && FileValue(r.effects, r.result) == Some("quantized")
      && ('/' !in scheme ==> PyPath.Basename(r.result) == "quant_" + scheme + ".txt")
  {
    var r := Quantize(modelDir, scheme);
    var a, b, c := r.effects[0], r.effects[1], r.effects[2];
    assert r.effects == [a] + ([b] + ([c] + []));
    ProjectionsCons(c, []);
    ProjectionsCons(b, [c] + []);
    ProjectionsCons(a, [b] + ([c] + []));
    if '/' !in scheme {
      var name := "quant_" + scheme + ".txt";
      assert '/' !in name by {
        assert forall i :: 0 <= i < |name| ==> name[i] != '/';
      }
      PyPath.BasenameOfJoin(modelDir, name);
    }
  }

  // ---- export_model -----------------------------------------------------------

  /** The file `export_model` writes: `<model_id>.gguf` for format `gguf`,
      `<model_id>.safetensors` for any other format. */
  function ExportFile(modelId: string, format: string): string {
    PyPath.Join(ModelDir(modelId), modelId + (if format == "gguf" then ".gguf" else ".safetensors"))
  }

  /** `export_model(job, model_id, export_format)`. */
  function ExportModel(modelId: string, format: string): Run<string> {
    var out := ExportFile(modelId, format);
    Run([MakeDir(ModelDir(modelId)), Log("Export: format=" + format), WriteFile(out, "EXPORT_PLACEHOLDER"),
         SetArtifact("export", out), SetProgress(90)], out)
  }

  /** `export_model` logs exactly `Export: format=<format>`, sets progress 90,
      records the returned path under artifact `export` and no other, and
      writes that file inside `models/<model_id>`. */
  lemma ExportEffects(modelId: string, format: string)
    ensures var r := ExportModel(modelId, format);
      && Messages(r.effects) == ["Export: format=" + format]
      && ProgressValues(r.effects) == [90]
      && ArtifactValue(r.effects, "export") == Some(r.result)
      && (forall k :: k != "export" ==> ArtifactValue(r.effects, k) == None)
      && ErrorValue(r.effects) == None
      && FileValue(r.effects, r.result) == Some("EXPORT_PLACEHOLDER")
      && ModelDir(modelId) in DirsMade(r.effects)
  {
    var s := ExportModel(modelId, format).effects;
    assert s == [s[0]] + ([s[1]] + ([s[2]] + ([s[3]] + ([s[4]] + []))));
    ProjectionsCons(s[4], []);
    ProjectionsCons(s[3], [s[4]] + []);
    ProjectionsCons(s[2], [s[3]] + ([s[4]] + []));
    ProjectionsCons(s[1], [s[2]] + ([s[3]] + ([s[4]] + [])));
    ProjectionsCons(s[0], [s[1]] + ([s[2]] + ([s[3]] + ([s[4]] + []))));
  }

  /** The format decides the extension, and nothing but `gguf` gives `.gguf`. */
  lemma ExportFormatChoice(modelId: string, format: string)
    requires '/' !in modelId
    ensures format == "gguf" ==> PyPath.Basename(ExportModel(modelId, format).result) == modelId + ".gguf"
    ensures format != "gguf" ==> PyPath.Basename(ExportModel(modelId, format).result) == modelId + ".safetensors"
  {
    var name := modelId + (if format == "gguf" then ".gguf" else ".safetensors");
    assert '/' !in name by {
      assert forall i :: 0 <= i < |name| ==> name[i] != '/';
    }
    PyPath.BasenameOfJoin(ModelDir(modelId), name);
  }

  // ---- write_modelfile ----------------------------------------------------------

  /** `params or {}`: None and an empty dict both render as `{}`. */
  function Meta(params: Option<PyStr.PyDict>): PyStr.PyDict {
    if params.None? || params.value.IsEmpty() then PyStr.PyDict([]) else params.value
  }

  /** The fixed metadata lines of every Modelfile. */
  const FixedLines: string :=
    "PARAMETER temperature 0.7\nTEMPLATE \"You are a helpful assistant.\"\nLICENSE \"MIT or Apache-2.0 (verify base model)\"\n"

  /** The Modelfile's first line. */
  function ModelfileHead(from: string): string {
    "FROM " + from + "\n"
  }

  /** The Modelfile lines after the first, up to the hyperparameter dict. */
  function ModelfileMiddle(baseModel: string, date: string): string {
    "\n# metadata\n" + FixedLines + "# base_model: " + baseModel + "\n# date: " + date + "Z\n# hyperparams: "
  }

  /** The Modelfile text between the f-string's opening and closing newline. */
  function ModelfileBody(from: string, baseModel: string, date: string, meta: PyStr.PyDict): string {
    ModelfileHead(from) + ModelfileMiddle(baseModel, date) + PyStr.DictText(meta)
  }

  /** `write_modelfile(model_dir, model_path, base_model, params)`: the f-string,
      stripped, plus one newline, written to `model_dir/Modelfile`. */
  function WriteModelfile(modelDir: string, modelPath: string, baseModel: string, params: Option<PyStr.PyDict>, date: string): Run<string> {
    var mf := PyPath.Join(modelDir, "Modelfile");
    var raw := "\n" + ModelfileBody(PyPath.Basename(modelPath), baseModel, date, Meta(params)) + "\n";
    Run([WriteFile(mf, PyStr.Strip(raw) + "\n")], mf)
  }

  /** `write_modelfile` writes its one file, `model_dir/Modelfile`, returns
      that path, and logs, assigns and records nothing. */
  lemma ModelfileEffects(modelDir: string, modelPath: string, baseModel: string, params: Option<PyStr.PyDict>, date: string)
    ensures var r := WriteModelfile(modelDir, modelPath, baseModel, params, date);
      && r.result == PyPath.Join(modelDir, "Modelfile")
      && FileValue(r.effects, r.result).Some?
      && (forall p :: p != r.result ==> FileValue(r.effects, p) == None)
      && DirsMade(r.effects) == {}
      && Messages(r.effects) == [] && ProgressValues(r.effects) == []
      && (forall k :: ArtifactValue(r.effects, k) == None) && ErrorValue(r.effects) == None
  {
    var r := WriteModelfile(modelDir, modelPath, baseModel, params, date);
    ProjectionsCons(r.effects[0], []);
    assert r.effects == [r.effects[0]] + [];
  }

  /** The Modelfile written is the body with exactly one trailing newline:
      `strip()` removes only the f-string's padding. The body's first line is
      `FROM <basename(model_path)>`, its middle holds the fixed temperature,
      template and licence lines, and it ends with the hyperparameter dict,
      `{}` when none are given. The file is `model_dir/Modelfile`, which is
      also what is returned. */
  lemma ModelfileText(modelDir: string, modelPath: string, baseModel: string, params: Option<PyStr.PyDict>, date: string)
    ensures var r := WriteModelfile(modelDir, modelPath, baseModel, params, date);
      var from := PyPath.Basename(modelPath);
      var body := ModelfileBody(from, baseModel, date, Meta(params));
      && r.result == PyPath.Join(modelDir, "Modelfile")
      && FileValue(r.effects, r.result) == Some(body + "\n")
      && body[..|ModelfileHead(from)|] == ModelfileHead(from)
      && body[|body| - 1] == '}'
      && (params.None? ==> PyStr.DictText(Meta(params)) == "{}")
  {
    var from := PyPath.Basename(modelPath);
    var head, middle, dict := ModelfileHead(from), ModelfileMiddle(baseModel, date), PyStr.DictText(Meta(params));
    var body := head + middle + dict;
    assert body[0] == head[0] == 'F';
    assert body[|body| - 1] == dict[|dict| - 1] == '}';
    assert body[..|head|] == head;
    PyStr.StripPadded("\n", body, "\n");
    var r := WriteModelfile(modelDir, modelPath, baseModel, params, date);
    ProjectionsCons(r.effects[0], []);
    assert r.effects == [r.effects[0]] + [];
  }
}

=== FILE: wrappers.dfy ===
/** Failure-carrying datatypes shared by every module of the model.
    - Option<T>: a value or nothing (Python's `Optional`, `dict.get` misses).
    - Result<T, E>: a value or an error (HTTP errors, rejected requests).
    - Outcome<S>: how a Python callable ended — it returned normally or it
      raised an exception with a message — together with the state it left
      behind (a callable that mutates a job before raising leaves its
      mutations in place).
 */
module Wrappers {

  datatype Option<+T> = None | Some(value: T) {

    /** The wrapped value, or `default` when there is none. */
    function GetOr(default: T): T {
      match this
      case Some(v) => v
      case None => default
    }

    /** This option if it holds a value, otherwise `other`. */
    function Or(other: Option<T>): Option<T> {
      if this.Some? then this else other
    }
  }

  /** `m.get(k)`. */
  function Lookup<K, V>(m: map<K, V>, k: K): Option<V> {
    if k in m then Some(m[k]) else None
  }

  datatype Result<+T, +E> = Ok(value: T) | Err(error: E)

  /** The end of a Python call that may raise: `Returned(s)` when it returned
      normally leaving state `s`, `Raised(s, m)` when it raised an exception
      whose `str()` is `m`, leaving state `s`. */
  datatype Outcome<+S> = Returned(state: S) | Raised(state: S, message: string)
}
